=== FILE: README.md ===
# Json cursor, JsonSerializer and IniFile in Dafny

This project models two parts of the APT/PLR libraries and proves properties of them.

**`Json` and `JsonSerializer`** (src/all/apt/Json.cpp). A `Json` object holds a
rapidjson document and walks it with two things:

- a stack of (container, iteration index) frames;
- a floating "current value" pointer.

Typed `getValue`/`setValue`/`pushValue` accessors read and write scalars,
strings, and 2–4 element vectors and matrices. Vectors and matrices are stored
as nested arrays. `JsonSerializer` puts one call sequence over a `Json` that
reads in Read mode and writes in Write mode.

In the model:

- The document is an immutable tree (`JsonValue.Value`).
- A pointer into the tree is a path of child indices.
- A cursor is the tree, the frame stack and an optional current path.
- Every operation is a pure function from one cursor (or serializer) state to
  the next.
- An `APT_ASSERT` before undefined behaviour becomes a precondition.
- An assertion followed by an explicit `return false` is modelled as that return.

**`IniFile`** (plr/IniFile.cpp). `IniFile::parse` turns an INI text into three
flat arrays:

- sections, each a run of keys;
- keys, each a run of values sharing one type;
- values.

Comma-separated arrays are several values of one key. `getProperty` finds the
first key of a given name, inside the first section of a given name, or among
all keys.

In the model:

- The text is a string. `IniScan.Peek` yields NUL past its end, so it behaves as
  a C string.
- Every helper of the parser becomes a function returning the new position and
  line counter.
- One turn of the parse loop is `IniFile.StepWith`. `IniFile.StepAsWritten`
  is the turn as the code has it; `IniFile.Step` is the corrected turn, which
  rejects a property name that consumes no character (see "## Findings").
- The loop itself is `IniFile.Run`, which iterates the corrected `Step`.
  `IniFile.RunAsWritten` iterates `StepAsWritten` under a fuel bound, and
  `IniFacts.RunAgreesWithAsWritten` shows that wherever it finishes, `Run`
  finishes with the same result.
- `IniLookup.GetProperty` is the source's two loops, proved equal to the
  declarative `IniLookup.Lookup`.

Modules:

- `Wrappers` — `Option`.
- `JsonValue` — the document tree, paths, `At` and `Update`.
- `JsonCursor` — frames, `find`, `next`, enter/leave, `beginObject`/`beginArray`.
- `JsonAccess` — the typed accessors and the vector/matrix encoding.
- `JsonSerializer` — the Read/Write facade.
- `IniScan` — character classes and the scanning helpers.
- `IniFile` — the data layout and `parse`.
- `IniLookup` — `getProperty`.
- `IniFacts` — the properties of `parse` and `getProperty`.

## Model

| member | source | states |
|---|---|---|
| JsonCursor.Init | src/all/apt/Json.cpp:130-135 | A new `Json` is an empty object with one frame on it at index 0 and no current value. |
| JsonCursor.Push | src/all/apt/Json.cpp:50-54 | Pushing puts a frame with index 0 on the current value and leaves the tree and current value alone. |
| JsonCursor.Find | src/all/apt/Json.cpp:149-162 | `find` succeeds exactly when the top container is an object with a member of that name. On success the current value is the first such member and the stack is unchanged. On failure nothing changes. |
| JsonCursor.Next | src/all/apt/Json.cpp:164-180 | Corrected `next`: it succeeds exactly when the index before the call is inside the container. The index grows by one either way. The current value is the child at the old index, or nothing. A non-container top returns false and changes nothing. |
| JsonCursor.NextAsWritten | src/all/apt/Json.cpp:164-180 | `next` as written: on a container the result is whether the index before the increment differs from the size, and the index grows by one either way. So it is false exactly at the end and true again once the index has passed it. A non-container top returns false and changes nothing. |
| JsonCursor.NextExhaustion | src/all/apt/Json.cpp:164-180 | For the corrected `next`: over n successive calls, call j succeeds exactly when start index + j is below the size. |
| JsonCursor.NextTimesFrames | src/all/apt/Json.cpp:164-180 | After n successive calls the top frame's index is n higher. The tree, the container and the lower frames are unchanged. |
| JsonCursor.NextOnContainer | src/all/apt/Json.cpp:164-180 | One call on a container moves only the top frame's index, by one, and keeps the tree and the top value. |
| JsonCursor.NextOnArrayOfThree | src/all/apt/Json.cpp:164-180 | A freshly entered three-element array answers true, true, true, false. |
| JsonCursor.NextAsWrittenPastEnd | src/all/apt/Json.cpp:164-180 | At exhaustion the as-written `next` returns false and then true with no current value. The corrected one returns false both times. |
| JsonCursor.Enter | src/all/apt/Json.cpp:330-355 | `enterObject`/`enterArray` succeed exactly when the current value has that kind. On success they push a frame on it; on failure nothing changes. |
| JsonCursor.Leave | src/all/apt/Json.cpp:340-362 | `leaveObject`/`leaveArray` pop the top frame and make the container it pointed at current. |
| JsonCursor.EnterThenLeave | src/all/apt/Json.cpp:330-362 | A successful enter followed by a leave of the same kind gives back exactly the state before. |
| JsonCursor.LeaveThenEnter | src/all/apt/Json.cpp:330-362 | Leaving and entering again restores the stack, with iteration restarted at index 0. |
| JsonCursor.GetArrayLength | src/all/apt/Json.cpp:364-370 | The result is non-negative exactly when the top container is an array, and is then its element count; otherwise it is -1. |
| JsonCursor.BeginObject | src/all/apt/Json.cpp:372-401 | An existing member of that name only becomes current, with no frame pushed. Otherwise an empty object is appended (ignoring the name inside an array) and entered. |
| JsonCursor.BeginArray | src/all/apt/Json.cpp:403-431 | Exactly one frame is pushed, on an array: the existing member of that name, or a newly appended empty array. |
| JsonCursor.EnterMember | src/all/apt/Json.cpp:403-431 | When the named member exists, `beginArray` enters it: one frame on the first member of that name, and the tree is untouched. |
| JsonCursor.BeginObjectThenLeave | src/all/apt/Json.cpp:372-401 | `beginObject` then `leaveObject` restores the stack for a new member. For an existing member the leave pops the parent's own frame. |
| JsonCursor.BeginArrayThenLeave | src/all/apt/Json.cpp:403-431 | `beginArray` then `leaveArray` restores the stack whether or not the array existed. |
| JsonAccess.TargetPath | src/all/apt/Json.cpp:73-86 | `Impl::get(i)` resolves to a path below the current value whose node is element i of the current value when i >= 0 and that value is an array, and the current value itself otherwise. |
| JsonAccess.CStr | src/all/apt/Json.cpp:634-657 | The string a `const char*` denotes is the longest NUL-free prefix of the buffer. |
| JsonAccess.CStrIdempotent | src/all/apt/Json.cpp:634-657 | Storing a string that was read back from the document stores the same string. |
| JsonAccess.Decode | src/all/apt/Json.cpp:187-282 | A readable node decodes to a datum of the requested type, component by component. Integers read as themselves; numbers read as floats; strings are cut at NUL. |
| JsonAccess.DecodeEncode | src/all/apt/Json.cpp:187-282 | Every datum that is written reads back as itself, with strings cut at their first NUL. This includes vectors as arrays of numbers and matrices as arrays of row arrays. |
| JsonAccess.GetValue | src/all/apt/Json.cpp:187-282 | `getValue<T>(i)` returns the decoding of the resolved node as T. |
| JsonAccess.ReadRows | src/all/apt/Json.cpp:284-328 | Reading rows from k on gives n-k rows, each the decoding of the corresponding row array. |
| JsonAccess.GetMatrix | src/all/apt/Json.cpp:284-328 | `getValue<matN>` pushes a frame, reads the rows and pops it. It returns the decoded matrix and leaves the cursor exactly as it found it. |
| JsonAccess.SetNode | src/all/apt/Json.cpp:434-447 | A named scalar write overwrites the first member of that name in place, or appends a new member. Either way that member becomes current and the frames are unchanged. |
| JsonAccess.SetNodeAt | src/all/apt/Json.cpp:448-457 | With an index and an array on top, an indexed scalar write replaces element i of the current value. Otherwise it replaces the current value. Nothing else in the tree changes. |
| JsonAccess.PushNode | src/all/apt/Json.cpp:659-739 | A scalar push appends one node to the array on top and makes it current. Only that array changes. |
| JsonAccess.WriteVector | src/all/apt/Json.cpp:742-765 | `setValue<vecN>` is `beginArray`, one number pushed per component, `leaveArray`. A new array holds exactly the components; an existing member array gets them appended. |
| JsonAccess.WriteMatrix | src/all/apt/Json.cpp:791-814 | `setValue<matN>` writes one array whose elements are the row arrays, with the same new/existing cases. |
| JsonAccess.PushRows | src/all/apt/Json.cpp:815-838 | Pushing the rows of a matrix appends one row array per row, in order, to the array on top. |
| JsonAccess.WriteWithoutName | src/all/apt/Json.cpp:766-789 | An unnamed nested array write inside an array is one appended element. |
| JsonAccess.SetValue | src/all/apt/Json.cpp:434-447 | `setValue<T>(name, v)` for every T appends a missing member with the encoded value. It overwrites an existing scalar member in place, or appends a vector's components or a matrix's rows to an existing array member. The frames are unchanged. |
| JsonAccess.SetValueCurrent | src/all/apt/Json.cpp:434-447 | After a named write the current value is the encoded datum. |
| JsonAccess.SetThenGet | src/all/apt/Json.cpp:434-447 | `getValue<T>()` right after `setValue<T>(name, v)` returns v. |
| JsonAccess.SetThenFind | src/all/apt/Json.cpp:434-447 | After a named write, `find(name)` succeeds and lands on the written member. |
| JsonAccess.SetThenFindExisting | src/all/apt/Json.cpp:434-447 | When the member existed, the overwritten member is still the first of its name, so `find` lands exactly where the write left the cursor. |
| JsonAccess.SetThenFindNew | src/all/apt/Json.cpp:434-447 | When the member was missing, the appended member is the first of its name, so `find` lands exactly where the write left the cursor. |
| JsonAccess.FirstMemberAfterReplace | src/all/apt/Json.cpp:434-447 | Overwriting the first member of a name in place keeps it the first member of that name. |
| JsonAccess.FirstMemberAfterAppend | src/all/apt/Json.cpp:434-447 | A member appended under a name no member has becomes the first member of that name. |
| JsonAccess.FindLandsOnCurrent | src/all/apt/Json.cpp:149-162 | When the current value is already the first member of a name in the top object, `find` of that name succeeds and changes nothing. |
| JsonAccess.SetThenMember | src/all/apt/Json.cpp:434-447 | After a named write, the member of that name in the same container holds the encoded datum. |
| JsonAccess.SetVectorAppends | src/all/apt/Json.cpp:742-765 | Writing a vector under an existing array member leaves the old elements followed by the components. |
| JsonAccess.PushVector | src/all/apt/Json.cpp:766-789 | `pushValue<vecN>` appends one array of the components. |
| JsonAccess.PushMatrix | src/all/apt/Json.cpp:815-838 | `pushValue<matN>` appends one array of row arrays. |
| JsonAccess.PushValue | src/all/apt/Json.cpp:659-739 | `pushValue<T>` for every T appends the encoded datum as the new last element and makes it current. |
| JsonAccess.PushThenGet | src/all/apt/Json.cpp:659-739 | Reading right after a push returns the pushed datum, and the array's new last element is its encoding. |
| JsonAccess.SetValueAt | src/all/apt/Json.cpp:448-457 | The indexed write for every scalar T, with the same cases as `SetNodeAt`. |
| JsonAccess.SetAtThenGet | src/all/apt/Json.cpp:448-457 | After `setValue<T>(i, v)` inside an array, `getValue<T>(i)` returns v and every other element is unchanged. |
| JsonSerializer.Begin | src/all/apt/Json.cpp:852-910 | In Read mode a begin succeeds exactly when the corrected `next()` (inside an array) or `find(name)` succeeds on a child of the requested kind, and then enters it. In Read mode a failure leaves the cursor where `next`/`find` left it. In Write mode it returns true and the cursor is exactly that of `beginObject`/`beginArray` with the same name. |
| JsonSerializer.End | src/all/apt/Json.cpp:877-918 | `endObject`/`endArray` pop one frame and make its container current, in both modes. |
| JsonSerializer.ReadBeginThenEnd | src/all/apt/Json.cpp:852-884 | In Read mode a successful named begin followed by its end leaves the cursor where `find(name)` would. |
| JsonSerializer.WriteBeginExistingObjectThenEnd | src/all/apt/Json.cpp:852-884 | In Write mode, begin and end on an existing object member pop the parent's frame: the serializer ends one level too high. |
| JsonSerializer.ValueNamed | src/all/apt/Json.cpp:921-933 | In Read mode the result is true exactly when the member exists; then the value becomes its decoding, which has the requested type, and the cursor is where `find(name)` leaves it. Otherwise value and state are untouched. In Write mode it is `setValue`, keeps the value and returns true. |
| JsonSerializer.ValueUnnamed | src/all/apt/Json.cpp:934-945 | In Read mode, over the corrected `next`, the result is true exactly when the array is not exhausted, and the value becomes the next element. In Write mode it is `pushValue` and returns true. |
| JsonSerializer.WriteThenReadNamed | src/all/apt/Json.cpp:921-933 | What a Write-mode named `value` stores, a Read-mode named `value` reads back. |
| JsonSerializer.WriteThenReadUnnamed | src/all/apt/Json.cpp:934-945 | What a Write-mode array `value` appends, a Read-mode `value` that reaches that position reads back. |
| JsonSerializer.StringNamed | src/all/apt/Json.cpp:988-1008 | In Read mode it returns the member string's length and copies it when a buffer is given, or returns 0 with nothing touched. In Write mode it stores the buffer and returns its length. |
| JsonSerializer.StringUnnamed | src/all/apt/Json.cpp:1010-1031 | In Read mode without a buffer it advances with the corrected `next` and returns the next element's length (0 when exhausted). With a buffer it copies the current value without advancing. In Write mode it appends. |
| JsonSerializer.ValueStringNamed | src/all/apt/Json.cpp:965-973 | Read mode with a member: the value becomes the member's C string, the result is whether it is non-empty, and the cursor is where `find(name)` leaves it. Read mode without one: false, with value and state untouched. Write mode stores the string with `setValue`, keeps the value and returns whether its C string is non-empty. |
| JsonSerializer.ReadStringNamed | src/all/apt/Json.cpp:965-973 | The Read branch: probe then copy return the member's C string and whether it is non-empty, with the cursor where `find(name)` leaves it. With no member the result is false and the value and the state are untouched. |
| JsonSerializer.ValueStringUnnamed | src/all/apt/Json.cpp:975-986 | In Read mode, over the corrected `next`, the result is true exactly when the array has a next element with a non-empty string, which is then the value; otherwise the value is untouched. Write mode appends. |
| JsonSerializer.WriteThenReadString | src/all/apt/Json.cpp:965-973 | A string written under a name reads back as its C string, and both sides return whether it is non-empty. |
| JsonSerializer.WriteThenReadStringUnnamed | src/all/apt/Json.cpp:975-986 | A string appended to an array reads back as its C string once a Read-mode `value` reaches that position, and both sides return whether it is non-empty. |
| IniScan.ContainsAny | plr/IniFile.cpp:25-38 | On a NUL-free range the result is true exactly when some character in the range is one of the given characters. |
| IniScan.SkipWhitespace | plr/IniFile.cpp:39-47 | It stops at the first non-space character. Everything skipped is white space, and the line counter grows by the newlines skipped. |
| IniScan.AdvanceToNext | plr/IniFile.cpp:48-57 | It stops at the first occurrence of the character or at the terminating NUL, and returns true exactly when not at NUL. Lines are counted. |
| IniScan.AdvanceToNextNonAlphanumeric | plr/IniFile.cpp:58-67 | Everything skipped is a letter or digit and the stop character is not. It returns true exactly when not at NUL. |
| IniScan.AdvanceToNextWhiteSpaceOrComma | plr/IniFile.cpp:68-77 | It stops at the first white space, comma or NUL and returns true exactly when not at NUL. |
| IniScan.SkipLine | plr/IniFile.cpp:78-87 | It moves past the next newline, counting one line, or stops at the terminating NUL having counted none. It always moves unless already at NUL. |
| IniFile.WithDefaultSection | plr/IniFile.cpp:143-146 | With no sections, one unnamed section of no keys is added at the end of the key array. Otherwise nothing changes. |
| IniFile.SkipBlank | plr/IniFile.cpp:173-178 | It stops at a character that is neither white space nor `;`, skipping whole comment lines, and counts the lines passed. |
| IniFile.NumberValue | plr/IniFile.cpp:206-231 | The value is an integer equal to `strtol` of the token or a double equal to `strtod`. The one of the two that alone gives a non-zero value wins. When both are non-zero or both are zero, a `.`, `e`, `E`, `n` or `N` in the token makes it a double, and its absence an integer. |
| IniFile.AddValue | plr/IniFile.cpp:238-242 | The value is appended and the last key takes its type. The count grows unless the key already had values of another type, which is an inhomogeneous-array error at the value's line. |
| IniFile.ValueStep | plr/IniFile.cpp:165-242 | The value branch never moves the position backwards and only changes the contents as `AddValue` or typing the last key would. It is an invalid-value error at the line of the first non-blank character exactly when that character is neither a quote nor the start of a bool or number, and then nothing changes. |
| IniFile.ValueStepBranches | plr/IniFile.cpp:165-242 | After the blanks, a quote hands the value branch to `QuotedValue` and a bool or number start to `TokenValueStep`, at the position and line reached. |
| IniFile.QuotedValue | plr/IniFile.cpp:178-197 | With a closing quote at e, the text between the quotes is added to the last key as a string by `AddValue`, and parsing resumes after the quote on the line it is on. It is never an invalid-value error. |
| IniFile.TokenValueStep | plr/IniFile.cpp:198-231 | The token runs exactly to the next white space, comma or NUL; its value (bool for `t`/`f`, otherwise the number) is added to the last key by `AddValue` and parsing resumes at the token's end, on the same line. |
| IniFile.AddSectionKeepsWellFormed | plr/IniFile.cpp:154-164 | A new section keeps the layout: sections partition the keys, keys partition the values, and every value has its key's type. |
| IniFile.AddKeyKeepsWellFormed | plr/IniFile.cpp:256-262 | A new key keeps that layout. |
| IniFile.AddValueKeepsWellFormed | plr/IniFile.cpp:238-242 | An accepted value keeps that layout. |
| IniFile.AddKey | plr/IniFile.cpp:256-262 | A new untyped key with no values, starting at the end of the value array, is appended and counted in the last section. |
| IniFile.KeyStep | plr/IniFile.cpp:243-263 | A name starting with a digit is a "begins with a number" error. Otherwise, with the name ending at the first non-alphanumeric character e: NUL there is an unexpected end of file; an empty name is an invalid property name when empty names are rejected; else the key named by the text up to e is added and parsing resumes at e. On error nothing is added, and a well-formed layout stays well formed. |
| IniFile.StepWith | plr/IniFile.cpp:149-264 | One loop turn only extends the contents, keeps at least one section and keeps a well-formed layout. With empty names rejected it always consumes input before the end. What each branch does is stated by the `IniFacts` turn lemmas below. |
| IniFile.StepAsWritten | plr/IniFile.cpp:243-263 | The loop turn as written never moves backwards and keeps a section, but may not advance. |
| IniFile.Step | plr/IniFile.cpp:243-263 | The corrected loop turn consumes at least one character whenever it continues before the end of the text, and keeps a well-formed layout. |
| IniLookup.FindSection | plr/IniFile.cpp:281-289 | It returns the first section from the start index with that name, or none when no such section exists. |
| IniLookup.FindKey | plr/IniFile.cpp:290-297 | It returns the first key of that name in the range, or none when there is none. |
| IniLookup.ScanSections | plr/IniFile.cpp:281-288 | The section loop stops at the first section of that name, or runs off the end exactly when there is none. |
| IniLookup.ScanKeys | plr/IniFile.cpp:290-297 | The key loop stops inside the range at the first key of that name, or at the range end exactly when there is none. |
| IniLookup.KeyRangeFirstSection | plr/IniFile.cpp:275-289 | With no section, or a section name nobody has, every key is searched. Otherwise the key run of the first section so named is searched. |
| IniLookup.LookupFirstMatch | plr/IniFile.cpp:275-299 | A key is found exactly when one of that name lies in the range, and the result describes the first one. Otherwise it is the bool-typed, empty, null-first property. |
| IniLookup.GetProperty | plr/IniFile.cpp:275-299 | The source's two loops compute exactly `Lookup`. |
| IniFacts.CommentTurn | plr/IniFile.cpp:151-153 | At `;` with the next newline at e, the turn skips past that newline, counts one line and adds nothing. |
| IniFacts.CommentAtEnd | plr/IniFile.cpp:151-153 | At `;` with no newline after it, the turn moves to the end of the text, counts no line and adds nothing. |
| IniFacts.BlankToEnd | plr/IniFile.cpp:149-150 | When only white space is left before the end of the text, the turn moves to the end, counts the newlines passed and adds nothing. |
| IniFacts.SectionTurn | plr/IniFile.cpp:154-164 | At `[` with a `]` at e, the text between them names a new, empty section starting at the end of the key array, and the parser resumes after the `]`, with the lines inside counted. |
| IniFacts.StepRejectsUnterminatedSection | plr/IniFile.cpp:154-161 | At `[` with no `]` after it, the turn is an unterminated-section error on that line and nothing is added. |
| IniFacts.StepRejectsValueWithoutKey | plr/IniFile.cpp:165-169 | At `=` or `,` with no key yet, the turn is a "no property name" error on that line and nothing is added. |
| IniFacts.StepRejectsDigitName | plr/IniFile.cpp:243-248 | At a digit, the turn is a "name begins with a number" error on that line and nothing is added. |
| IniFacts.StepRejectsUnendedName | plr/IniFile.cpp:243-254 | A name that runs to the end of the text is an unexpected-end-of-file error and no key is added. |
| IniFacts.StepRejectsInvalidValue | plr/IniFile.cpp:232-235 | At `=` or `,` followed by a character that is not blank, a quote or a bool or number start (the end of the text included), the turn is an invalid-value error and nothing is added. |
| IniFacts.ValueAtInvalid | plr/IniFile.cpp:232-235 | The value branch at such a character is an invalid-value error that changes nothing. |
| IniFacts.StringTurn | plr/IniFile.cpp:178-197 | At `="text"` (or `,"text"`) with no quote or NUL in the text, the text is added to the last key as a string value, and the parser resumes after the closing quote, on the line of that quote. |
| IniFacts.QuotedText | plr/IniFile.cpp:178-197 | The quoted-value branch on such a text gives that string value and that resume point. |
| IniFacts.QuotedTurn | plr/IniFile.cpp:165-197 | At `="` (or `,"`) with a key present, the turn is the quoted-value branch just past the quote. |
| IniFacts.QuotedUnterminated | plr/IniFile.cpp:179-185 | A quoted value with no closing quote types the last key as a string all the same and is an unterminated-string error on the line it starts on. |
| IniFacts.UnterminatedStringAt | plr/IniFile.cpp:178-185 | The value branch at a quote with no closing quote is that error. |
| IniFacts.StepRejectsUnterminatedString | plr/IniFile.cpp:165-185 | At `="` (or `,"`) with no closing quote, the turn is that error, with the last key typed string. |
| IniFacts.TurnsAgreeOrStall | plr/IniFile.cpp:243-263 | The as-written turn equals the corrected one, except when it goes on in front of a character that cannot start a name. |
| IniFacts.RunAgreesWithAsWritten | plr/IniFile.cpp:149-264 | Wherever the as-written loop finishes, for any fuel, the corrected loop finishes with the same result. |
| IniFacts.RunKeepsWellFormed | plr/IniFile.cpp:149-264 | A loop that ends without error leaves the layout intact. Any loop keeps everything it started with. |
| IniFacts.ParseKeepsWellFormed | plr/IniFile.cpp:139-266 | A successful parse into a fresh or well-formed file leaves it well formed. Every parse only extends the contents. A fresh file's first section is the unnamed default one at key 0. |
| IniFacts.LookupTyped | plr/IniFile.cpp:275-299 | In the model, where a key with no values has no type (see `IniFile.AddKey` under "## Left out"): on a well-formed file a found property has a type exactly when it has values, and all its values have that type. |
| IniFacts.AsWrittenStalls | plr/IniFile.cpp:243-263 | As written, a name starting with a character such as `_` or `#` adds an empty-named key and leaves the parser where it was. |
| IniFacts.AsWrittenNeverEnds | plr/IniFile.cpp:149-264 | As written, the loop never finishes on such input, whatever the number of turns. |
| IniFacts.StepRejectsUnnameable | plr/IniFile.cpp:243-263 | The corrected turn reports an invalid property name on the same input and adds nothing. |
| IniFacts.ParseRejectsLeadingValue | plr/IniFile.cpp:166-169 | A text starting (after white space) with `=` or `,`, parsed into a file with no keys, fails with "no property name" on that line. |
| IniFacts.ParseRejectsDigitName | plr/IniFile.cpp:245-248 | A text starting (after white space) with a digit fails with "name begins with a number" on that line. |
| IniFacts.NameTurn | plr/IniFile.cpp:243-263 | A plain name at the position becomes one new key, and the parser stops right after it. |
| IniFacts.ValueTurn | plr/IniFile.cpp:165-242 | `=` or `,` directly followed by a bool or numeric token that runs to a comma or the end gives the last key that token's value, and the parser stops at the comma or the end. |
| IniFacts.TokenScan | plr/IniFile.cpp:68-77 | A token is scanned exactly to the comma or end of text that follows it, on the same line. |
| IniFacts.ValueAt | plr/IniFile.cpp:198-231 | At a bool or numeric token, with nothing blank before it, the value branch adds that token's value (true for `t`, false for `f`, otherwise the number) and resumes at the token's end. |
| IniFacts.StepAtValue | plr/IniFile.cpp:165-174 | At `=` or `,` with a key present, the loop turn is the value branch just past that character. |
| IniFacts.RunContinues | plr/IniFile.cpp:149-264 | A turn that goes on hands the rest of the loop to the next parser state. |
| IniFacts.RunStops | plr/IniFile.cpp:149-264 | A turn that stops ends the parse with that turn's error. |
| IniFacts.RunTwoTurns | plr/IniFile.cpp:149-264 | Two turns that go on before the end of the text leave the rest of the parse to the state after them. |
| IniFacts.AddKeyToFresh | plr/IniFile.cpp:143-146 | In a fresh file, the first key is the only key of the unnamed default section, with no type and no values. |
| IniFacts.AddValueToFreshKey | plr/IniFile.cpp:238-242 | The first value of a fresh key gives the key that value's type and one value, without error. |
| IniFacts.BoolNameTurn | plr/IniFile.cpp:243-263 | On `name=true` (or `false`) the first turn reads the name as a key of the default section and stops at `=`. |
| IniFacts.BoolValueTurn | plr/IniFile.cpp:165-242 | The second turn gives that key the bool as its single value and reaches the end of the text. |
| IniFacts.BoolTurns | plr/IniFile.cpp:149-264 | Both turns together: the name becomes a key and the bool its one value. |
| IniFacts.ParseBool | plr/IniFile.cpp:139-266 | `name=true` (or `false`) parses without error into one default section holding one bool key with one value. |
| IniFacts.ParseThenLookupBool | plr/IniFile.cpp:139-299 | Parsing `name=true` (or `false`) succeeds with a single bool value, and looking the name up finds one bool value at index 0. |
| IniFacts.MixedArrayTurns | plr/IniFile.cpp:149-264 | In `a=1,true` the first turn reads key `a` and the second gives it the number 1, stopping at the comma. |
| IniFacts.MixedArrayStart | plr/IniFile.cpp:206-231 | In `a=1,true`, the first two turns give key `a` one value, which is not a bool, and leave the parser at the comma. |
| IniFacts.ParseRejectsMixedArray | plr/IniFile.cpp:238-241 | Parsing `a=1,true` fails with an inhomogeneous-array error on line 1. |

## Left out

- File I/O is not modelled: `Json::Read`, `Json::Write`, the path-taking constructor's load, `IniFile::load`, and the destructors. `parse` and the accessors take the text or state directly.
- The rapidjson pretty-writer and its output format are not modelled.
- Logging (`INI_ERROR`, `APT_LOG`, `APT_AUTOTIMER`) is not modelled. Errors are returned as values carrying the line and reason the log would name.
- The `APT_ASSERT` in `Json::Impl::push` is left out. It compares the top container with the argument, which is null in the argument-less `push()` of `enterObject`/`enterArray`/`getValue<matN>`, so there it never fires. As in the source, entering the same container twice pushes two frames on it.
- `Json::endObject`/`Json::endArray` are not shown in src/all/apt/Json.cpp. They are taken to pop like `leaveObject`/`leaveArray`.
- IniFile.h and hash.h are not part of this model. The field orders of the aggregate initializers are assumed: `Section{name, count, keyOffset}` (plr/IniFile.cpp:144, 162) and `Property(type, count, first)` (plr/IniFile.cpp:277).
- IniLookup.LookupFirstMatch: keys and sections are compared by name, not by `StringHash`, so hash collisions are not modelled. A section named by the empty string is assumed distinct from the invalid hash used for "no section".
- IniFile.NumberValue: `strtol` and `strtod` are parameters (`Conversions`) applied to the token. Their exact text-to-number behaviour is not modelled, and neither are `sint64` overflow and floating-point rounding.
- IniScan.IsSpace: `isspace`, `isdigit` and `isalnum` are the "C" locale's ASCII classes. Non-ASCII characters are neither space nor alphanumeric.
- JsonAccess.Decode: integer widths and signedness collapse to unbounded `int`, and `float`/`double` both become `real`. The truncating narrowing conversions of `getValue<sint8>` … `getValue<uint64>` and `getValue<float>` are not modelled.
- JsonAccess.SetValue: the per-width setters (`SetInt`, `SetInt64`, `SetUint`, …) collapse to one integer node.
- JsonAccess.SetValueAt: only scalar types are modelled. The source has no indexed setter for vectors and matrices.
- JsonSerializer.Begin: in Read mode inside an array it advances with the corrected `JsonCursor.Next`. After the array is exhausted, the source's `next()` (src/all/apt/Json.cpp:856, 890) returns true again and the begin goes on with a value past the end; the model fails instead. See the src/all/apt/Json.cpp:164-180 row under "## Findings".
- JsonSerializer.ValueUnnamed: in Read mode it advances with the corrected `JsonCursor.Next`. On a call after the array is exhausted, the source's `next()` (src/all/apt/Json.cpp:937) returns true and `getValue` reads past the end; the model returns false. See the src/all/apt/Json.cpp:164-180 row under "## Findings".
- JsonSerializer.StringUnnamed: without a buffer, in Read mode, it advances with the corrected `JsonCursor.Next`. On a call after the array is exhausted, the source's `next()` (src/all/apt/Json.cpp:1020) returns true and takes the length of a value past the end; the model returns 0. See the src/all/apt/Json.cpp:164-180 row under "## Findings".
- JsonSerializer.ValueStringUnnamed: its Read-mode probe is `StringUnnamed` without a buffer, so it too uses the corrected `JsonCursor.Next` and returns false past the end, where the source reads past the end. See the src/all/apt/Json.cpp:164-180 row under "## Findings".
- IniFile.AddKey: the source declares the new key (`Key k;`, plr/IniFile.cpp:256) and never sets its type until a value arrives, so the type `getProperty` returns for a key with no values (plr/IniFile.cpp:292) is whatever IniFile.h leaves there, indeterminate unless it has a default. The model writes `None` for that type, and `IniFacts.LookupTyped`'s "a type exactly when it has values" is a property of this choice.
- IniFile.RunAsWritten: the as-written loop is run with a fuel bound, because it does not terminate on every input. `IniFacts.AsWrittenNeverEnds` shows it never finishes on the inputs of the finding, for every fuel.
- IniFile.ValueStep: its own contract states the position bound, the changes allowed and the invalid-value case. The string and token outcomes are stated by `IniFile.QuotedValue` and `IniFile.TokenValueStep`, which `IniFile.ValueStepBranches` shows it hands over to, and the unterminated string by `IniFacts.QuotedUnterminated`.
- JsonSerializer.ValueStringNamed: `StringBase` is not part of this model. In Read mode the source calls `setCapacity(ln + 1)` on the value before the copy (src/all/apt/Json.cpp:970), even when the member is missing and `ln` is 0. The model assumes `setCapacity` keeps the string's contents and that the capacity it sets is enough for the copy, so a missing member leaves the value as it was. `JsonSerializer.ReadStringNamed` rests on the same assumption, and so does the copy in `JsonSerializer.ValueStringUnnamed` (src/all/apt/Json.cpp:983).
- IniFile.StepWith: its own contract states the invariants of one turn. The outcome of each branch is stated by the `IniFacts` turn lemmas (`CommentTurn`, `CommentAtEnd`, `BlankToEnd`, `SectionTurn`, `NameTurn`, `ValueTurn`, `StringTurn` and the `StepRejects…` lemmas), for the corrected `Step`.
- IniFile.Parse: there is no separate contract. Its properties are stated by `IniFacts.ParseKeepsWellFormed` and the concrete lemmas after it.

Behaviours of the code a caller may not expect:

- `Json::beginObject` on an existing member makes the member current but does not enter it (`return` before `enterObject`). `beginArray` does enter.
- `setValue<vecN>`/`setValue<matN>` on an existing array member append to it rather than overwrite it.
- `setValue<T>(int i, v)` indexes into the current value and has no push fallback.
- `value<StringBase>` returns false for an empty string, in both modes.

## Findings

| source | as written | input that shows it | evidently intended | confidence | as-written member | corrected member |
|---|---|---|---|---|---|---|
| src/all/apt/Json.cpp:164-180 | `next` increments the iteration index and returns whether the new iterator differs from `End()`. Once the index has passed the end the two never meet again, so every later call returns true. `JsonSerializer`'s array reads (lines 856, 890, 937, 1020) inherit this. | An array of three elements: calls 1–3 return true, call 4 false, call 5 true with no element to read. | Return true only while the index before the increment is below the container's size. | not executed | JsonCursor.NextAsWrittenPastEnd | JsonCursor.Next |
| plr/IniFile.cpp:243-263 | A property name is read with `AdvanceToNextNonAlphanumeric`, and nothing checks that it consumed a character. A name starting with anything other than a letter, digit, space, `;`, `[`, `=` or `,` adds an empty-named key without moving. The `while` loop then repeats this forever, growing the key array. | `my_key = 1`: the key `my` is read, then the parser stalls at `_`. `#comment` or `"a"` at the start of a line does the same. | Report a syntax error, as for a name that begins with a digit. | not executed | IniFacts.AsWrittenNeverEnds | IniFacts.StepRejectsUnnameable |

=== FILE: ini_facts.dfy ===
/** Properties of `IniFile::parse` and `IniFile::getProperty`. */
module IniFacts {
  import opened Wrappers
  import opened IniScan
  import opened IniFile
  import opened IniLookup

  /** `Extends` is transitive. */
  lemma ExtendsTrans(a: Ini, b: Ini, c: Ini)
    requires Extends(a, b) && Extends(b, c)
    ensures Extends(a, c)
  {
  }

  /** The whole loop keeps the layout when it finishes without error, and
      keeps everything it started with in every case. */
  lemma {:induction false} RunKeepsWellFormed(s: string, st: Parser, conv: Conversions)
    requires st.pos <= |s| && WellFormed(st.ini)
    ensures var r := Run(s, st, conv);
      && (r.err == Ok ==> WellFormed(r.ini))
      && Extends(st.ini, r.ini)
    decreases |s| - st.pos
  {
    if Peek(s, st.pos) != '\0' {
      var o := Step(s, st, conv);
      if o.Continue? {
        RunKeepsWellFormed(s, o.next, conv);
        ExtendsTrans(st.ini, o.next.ini, Run(s, o.next, conv).ini);
      }
    }
  }

  /** A successful parse into a fresh or well-formed `IniFile` leaves it well
      formed; any parse keeps what was there, and the first section is the
      default section a fresh file starts with. */
  lemma ParseKeepsWellFormed(ini: Ini, s: string, conv: Conversions)
    requires WellFormed(ini) || ini == Empty
    ensures var r := Parse(ini, s, conv);
      && (r.err == Ok ==> WellFormed(r.ini))
      && Extends(WithDefaultSection(ini), r.ini)
      && (ini == Empty ==> r.ini.sections[0].name == None && r.ini.sections[0].keyOffset == 0)
  {
    RunKeepsWellFormed(s, Parser(0, 1, WithDefaultSection(ini)), conv);
  }

  /** On a well-formed `IniFile` a found property has a type exactly when it
      has values, its values lie inside the value array, and all of them have
      the property's type. */
  lemma LookupTyped(ini: Ini, key: string, section: Option<string>)
    requires WellFormed(ini)
    ensures SectionsInBounds(ini)
    ensures var r := Lookup(ini, key, section);
      r.first.Some? ==>
        && (r.kind.Some? <==> r.count > 0)
        && r.first.value + r.count <= |ini.values|
        && forall v | r.first.value <= v < r.first.value + r.count :: Some(TypeOfValue(ini.values[v])) == r.kind
  {
    var r := Lookup(ini, key, section);
    LookupFirstMatch(ini, key, section);
    if r.first.Some? {
      var (lo, n) := KeyRange(ini, section);
      var i :| lo <= i < lo + n && ini.keys[i].name == key && r == PropertyOf(ini, i);
      assert ini.keys[i].valueOffset + ini.keys[i].count <= |ini.values|;
    }
  }

  /** A character that can start neither a comment, a section, a value nor a
      property name: the as-written parser treats it as the start of a name. */
  predicate Unnameable(c: char) {
    c != '\0' && !IsSpace(c) && !IsAlnum(c) && c != ';' && c != '[' && c != '=' && c != ','
  }

  /** As written, such a character yields a key with an empty name and the
      parser does not move. */
  lemma AsWrittenStalls(s: string, st: Parser, conv: Conversions)
    requires st.pos < |s| && |st.ini.sections| > 0 && Unnameable(s[st.pos])
    ensures StepAsWritten(s, st, conv) == Continue(st.(ini := AddKey(st.ini, "")))
  {
    var w := SkipWhitespace(s, st.pos, st.line);
    assert w == Scan(st.pos, st.line);
    var a := AdvanceToNextNonAlphanumeric(s, st.pos, st.line);
    assert a == Search(Scan(st.pos, st.line), true);
    assert s[st.pos..st.pos] == "";
  }

  /** ... so the as-written loop never finishes, however many turns it runs. */
  lemma {:induction false} AsWrittenNeverEnds(s: string, st: Parser, conv: Conversions, fuel: nat)
    requires st.pos < |s| && |st.ini.sections| > 0 && Unnameable(s[st.pos])
    ensures RunAsWritten(s, st, conv, fuel) == None
    decreases fuel
  {
    if fuel > 0 {
      AsWrittenStalls(s, st, conv);
      AsWrittenNeverEnds(s, st.(ini := AddKey(st.ini, "")), conv, fuel - 1);
    }
  }

  /** The as-written turn and the corrected one agree, except where the
      as-written turn stalls in front of a character that cannot start a
      name. */
  lemma TurnsAgreeOrStall(s: string, st: Parser, conv: Conversions)
    requires st.pos <= |s| && |st.ini.sections| > 0
    ensures var o := StepAsWritten(s, st, conv);
      || o == Step(s, st, conv)
      || (o.Continue? && o.next.pos < |s| && Unnameable(s[o.next.pos]))
  {
    var w := SkipWhitespace(s, st.pos, st.line);
    var c := Peek(s, w.pos);
    if c != ';' && c != '[' && c != '=' && c != ',' && c != '\0' {
      var a := AdvanceToNextNonAlphanumeric(s, w.pos, w.line);
      if a.found && a.at.pos == w.pos {
        assert Unnameable(s[w.pos]);
        assert StepAsWritten(s, st, conv).next.pos == w.pos;
      }
    }
  }

  /** Wherever the as-written loop finishes, the corrected loop finishes
      with the same result: the two differ only on inputs the as-written
      loop never gets through. */
  lemma RunAgreesWithAsWritten(s: string, st: Parser, conv: Conversions, fuel: nat)
    requires st.pos <= |s| && |st.ini.sections| > 0
    requires RunAsWritten(s, st, conv, fuel).Some?
    ensures Run(s, st, conv) == RunAsWritten(s, st, conv, fuel).value
  {
    LoopsFinishAlike(s, st, conv, fuel);
  }

  /** What the as-written loop, given `fuel` turns, and the corrected loop
      make of the rest of the input from `st`. */
  function BothRuns(s: string, st: Parser, conv: Conversions, fuel: nat): (Option<Parsed>, Parsed)
    requires st.pos <= |s| && |st.ini.sections| > 0
  {
    (RunAsWritten(s, st, conv, fuel), Run(s, st, conv))
  }

  /** The as-written loop either does not finish or ends where the corrected one does. */
  predicate FinishAlike(r: (Option<Parsed>, Parsed)) {
    r.0.Some? ==> r.0.value == r.1
  }

  /** The induction behind `RunAgreesWithAsWritten`, on the as-written
      loop's fuel. */
  lemma {:induction false} LoopsFinishAlike(s: string, st: Parser, conv: Conversions, fuel: nat)
    requires st.pos <= |s| && |st.ini.sections| > 0
    ensures FinishAlike(BothRuns(s, st, conv, fuel))
    decreases fuel
  {
    var more, q := AgreeOneTurn(s, st, conv, fuel);
    if more {
      LoopsFinishAlike(s, q, conv, fuel - 1);
    }
  }

  /** One turn of both loops: either the as-written loop does not finish,
      or both stop with the same result, or both go on from the same state. */
  lemma AgreeOneTurn(s: string, st: Parser, conv: Conversions, fuel: nat) returns (more: bool, q: Parser)
    requires st.pos <= |s| && |st.ini.sections| > 0
    ensures !more ==> FinishAlike(BothRuns(s, st, conv, fuel))
    ensures more ==>
      && fuel > 0 && q.pos <= |s| && |q.ini.sections| > 0
      && BothRuns(s, st, conv, fuel) == BothRuns(s, q, conv, fuel - 1)
  {
    q := st;
    if Peek(s, st.pos) == '\0' || fuel == 0 {
      EndedRunsAlike(s, st, conv, fuel);
      return false, q;
    }
    TurnsAgreeOrStall(s, st, conv);
    var o := StepAsWritten(s, st, conv);
    if o != Step(s, st, conv) {
      AsWrittenContinues(s, st, o.next, conv, fuel);
      StalledNeverEnds(s, o.next, conv, fuel - 1);
      more := false;
    } else if o.Continue? {
      ContinuedRunsAlike(s, st, conv, fuel);
      more, q := true, o.next;
    } else {
      StoppedRunsAlike(s, st, conv, fuel);
      more := false;
    }
  }

  /** At the terminating NUL both loops end alike; out of fuel the
      as-written one has not finished. */
  lemma EndedRunsAlike(s: string, st: Parser, conv: Conversions, fuel: nat)
    requires st.pos <= |s| && |st.ini.sections| > 0
    requires Peek(s, st.pos) == '\0' || fuel == 0
    ensures FinishAlike(BothRuns(s, st, conv, fuel))
  {
  }

  /** An as-written turn that goes on hands the rest of its loop on. */
  lemma AsWrittenContinues(s: string, st: Parser, n: Parser, conv: Conversions, fuel: nat)
    requires st.pos <= |s| && |st.ini.sections| > 0
    requires Peek(s, st.pos) != '\0' && fuel > 0 && StepAsWritten(s, st, conv) == Continue(n)
    ensures BothRuns(s, st, conv, fuel).0 == BothRuns(s, n, conv, fuel - 1).0
  {
  }

  /** `AsWrittenNeverEnds`, in the terms of `BothRuns`. */
  lemma StalledNeverEnds(s: string, st: Parser, conv: Conversions, fuel: nat)
    requires st.pos < |s| && |st.ini.sections| > 0 && Unnameable(s[st.pos])
    ensures BothRuns(s, st, conv, fuel).0 == None
  {
    AsWrittenNeverEnds(s, st, conv, fuel);
  }

  /** A turn both loops take alike and that stops ends both alike. */
  lemma StoppedRunsAlike(s: string, st: Parser, conv: Conversions, fuel: nat)
    requires st.pos <= |s| && |st.ini.sections| > 0
    requires Peek(s, st.pos) != '\0' && fuel > 0
    requires StepAsWritten(s, st, conv) == Step(s, st, conv) && Step(s, st, conv).Stop?
    ensures FinishAlike(BothRuns(s, st, conv, fuel))
  {
    RunStops(s, st, conv);
  }

  /** A turn both loops take alike and that goes on hands both on to the
      same parser. */
  lemma ContinuedRunsAlike(s: string, st: Parser, conv: Conversions, fuel: nat)
    requires st.pos <= |s| && |st.ini.sections| > 0
    requires Peek(s, st.pos) != '\0' && fuel > 0
    requires StepAsWritten(s, st, conv) == Step(s, st, conv) && Step(s, st, conv).Continue?
    ensures BothRuns(s, st, conv, fuel) == BothRuns(s, Step(s, st, conv).next, conv, fuel - 1)
  {
    RunContinues(s, st, conv);
  }

  /** With the corrected loop turn the same input is a syntax error. */
  lemma StepRejectsUnnameable(s: string, st: Parser, conv: Conversions)
    requires st.pos < |s| && |st.ini.sections| > 0 && Unnameable(s[st.pos])
    ensures Step(s, st, conv) == Stop(Syntax(st.line, InvalidPropertyName), st.ini)
  {
    var w := SkipWhitespace(s, st.pos, st.line);
    assert w.pos == st.pos;
    var a := AdvanceToNextNonAlphanumeric(s, st.pos, st.line);
    assert a.at.pos == st.pos;
  }

  /** A text whose first non-blank character is `=` or `,` has a value with
      no property name. */
  lemma ParseRejectsLeadingValue(ini: Ini, s: string, conv: Conversions)
    requires ini.keys == []
    requires var c := Peek(s, SkipWhitespace(s, 0, 1).pos); c == '=' || c == ','
    ensures Parse(ini, s, conv).err == Syntax(SkipWhitespace(s, 0, 1).line, NoPropertyName)
  {
    assert Peek(s, 0) != '\0';
  }

  /** A property name must not begin with a digit. */
  lemma ParseRejectsDigitName(ini: Ini, s: string, conv: Conversions)
    requires IsDigit(Peek(s, SkipWhitespace(s, 0, 1).pos))
    ensures Parse(ini, s, conv).err == Syntax(SkipWhitespace(s, 0, 1).line, NameBeginsWithNumber)
  {
    assert Peek(s, 0) != '\0';
  }

  /** A comment: `;` and the rest of its line are skipped, the newline that
      ends it counted; nothing is added. */
  lemma CommentTurn(s: string, st: Parser, e: nat, conv: Conversions)
    requires st.pos < |s| && |st.ini.sections| > 0 && s[st.pos] == ';'
    requires FirstAt(s, st.pos, '\n', e)
    ensures Step(s, st, conv) == Continue(Parser(e + 1, st.line + 1, st.ini))
  {
    assert SkipWhitespace(s, st.pos, st.line) == Scan(st.pos, st.line);
    assert SkipLine(s, st.pos, st.line).pos - 1 == e;
  }

  /** A comment on the last line runs to the end of the text, and no line is
      counted. */
  lemma CommentAtEnd(s: string, st: Parser, conv: Conversions)
    requires st.pos < |s| && |st.ini.sections| > 0 && s[st.pos] == ';'
    requires forall k | st.pos < k < |s| :: !IsLineEnd(s[k])
    ensures Step(s, st, conv) == Continue(Parser(|s|, st.line, st.ini))
  {
    assert SkipWhitespace(s, st.pos, st.line) == Scan(st.pos, st.line);
  }

  /** White space up to the end of the text: the turn only moves to the end,
      counting the newlines passed, and the loop then finishes. */
  lemma BlankToEnd(s: string, st: Parser, e: nat, conv: Conversions)
    requires st.pos <= e <= |s| && |st.ini.sections| > 0 && Peek(s, e) == '\0'
    requires forall k | st.pos <= k < e :: IsSpace(s[k])
    ensures Step(s, st, conv) == Continue(Parser(e, st.line + LinesIn(s, st.pos, e), st.ini))
  {
    assert SkipWhitespace(s, st.pos, st.line).pos == e;
  }

  /** A section header: `[`, then the text up to the first `]`, which names
      a new, empty section starting at the end of the key array. The parser
      resumes after the `]`, having counted the lines inside the brackets. */
  lemma SectionTurn(s: string, st: Parser, e: nat, conv: Conversions)
    requires st.pos < |s| && |st.ini.sections| > 0 && s[st.pos] == '['
    requires FirstAt(s, st.pos, ']', e)
    ensures Step(s, st, conv) == Continue(Parser(e + 1, st.line + LinesIn(s, st.pos + 1, e),
      st.ini.(sections := st.ini.sections + [Section(Some(s[st.pos + 1..e]), 0, |st.ini.keys|)])))
  {
    var w := SkipWhitespace(s, st.pos, st.line);
    assert w == Scan(st.pos, st.line);
    var a := AdvanceToNext(s, st.pos, ']', st.line);
    assert a.found && a.at.pos == e;
    assert LinesIn(s, st.pos, e) == LinesIn(s, st.pos + 1, e);
  }

  /** A `[` with no `]` after it is an unterminated section, reported on the
      line of the `[`; nothing is added. */
  lemma StepRejectsUnterminatedSection(s: string, st: Parser, conv: Conversions)
    requires st.pos < |s| && |st.ini.sections| > 0 && s[st.pos] == '['
    requires forall k | st.pos < k < |s| :: s[k] != ']'
    ensures Step(s, st, conv) == Stop(Syntax(st.line, UnterminatedSection), st.ini)
  {
    var w := SkipWhitespace(s, st.pos, st.line);
    assert w == Scan(st.pos, st.line);
    var a := AdvanceToNext(s, st.pos, ']', st.line);
    assert !a.found;
  }

  /** `=` or `,` before any key has been read has no property to belong to. */
  lemma StepRejectsValueWithoutKey(s: string, st: Parser, conv: Conversions)
    requires st.pos < |s| && |st.ini.sections| > 0 && st.ini.keys == []
    requires s[st.pos] == '=' || s[st.pos] == ','
    ensures Step(s, st, conv) == Stop(Syntax(st.line, NoPropertyName), st.ini)
  {
    var w := SkipWhitespace(s, st.pos, st.line);
    assert w == Scan(st.pos, st.line);
  }

  /** A property name must not begin with a digit, wherever it starts. */
  lemma StepRejectsDigitName(s: string, st: Parser, conv: Conversions)
    requires st.pos < |s| && |st.ini.sections| > 0 && IsDigit(s[st.pos])
    ensures Step(s, st, conv) == Stop(Syntax(st.line, NameBeginsWithNumber), st.ini)
  {
    var w := SkipWhitespace(s, st.pos, st.line);
    assert w == Scan(st.pos, st.line);
  }

  /** A property name that runs to the end of the text is an unexpected end
      of file, and no key is added. */
  lemma StepRejectsUnendedName(s: string, st: Parser, conv: Conversions)
    requires st.pos < |s| && |st.ini.sections| > 0 && !IsDigit(s[st.pos])
    requires forall k | st.pos <= k < |s| :: IsAlnum(s[k])
    ensures Step(s, st, conv) == Stop(Syntax(st.line, UnexpectedEndOfFile), st.ini)
  {
    var w := SkipWhitespace(s, st.pos, st.line);
    assert w == Scan(st.pos, st.line);
    assert NameEndsAt(s, st.pos, |s|);
  }

  /** The value branch at a character that is not blank, a quote or the start
      of a bool or number. */
  lemma ValueAtInvalid(s: string, i: nat, line: int, ini: Ini, conv: Conversions)
    requires i <= |s| && |ini.keys| > 0
    requires var c := Peek(s, i); !IsSpace(c) && c != ';' && c != '"' && !IsTokenStart(c)
    ensures ValueStep(s, i, line, ini, conv) == Stop(Syntax(line, InvalidValue), ini)
  {
    assert SkipWhitespace(s, i, line) == Scan(i, line);
    assert SkipBlank(s, i, line) == Scan(i, line);
  }

  /** After `=` or `,` a value must be a quoted string, a bool or a number;
      anything else (the end of the text included) is an invalid value. */
  lemma StepRejectsInvalidValue(s: string, st: Parser, conv: Conversions)
    requires st.pos < |s| && |st.ini.sections| > 0 && |st.ini.keys| > 0
    requires s[st.pos] == '=' || s[st.pos] == ','
    requires var c := Peek(s, st.pos + 1); !IsSpace(c) && c != ';' && c != '"' && !IsTokenStart(c)
    ensures Step(s, st, conv) == Stop(Syntax(st.line, InvalidValue), st.ini)
  {
    ValueAtInvalid(s, st.pos + 1, st.line, st.ini, conv);
    StepAtValueIs(s, st, conv, Stop(Syntax(st.line, InvalidValue), st.ini));
  }

  /** The value branch at an opening quote is the quoted-string branch. */
  lemma ValueAtQuote(s: string, i: nat, j: nat, line: int, ini: Ini, conv: Conversions)
    requires i < |s| && j == i + 1 && |ini.keys| > 0 && s[i] == '"'
    ensures ValueStep(s, i, line, ini, conv) == QuotedValue(s, j, line, ini)
  {
    assert SkipWhitespace(s, i, line) == Scan(i, line);
    assert SkipBlank(s, i, line) == Scan(i, line);
  }

  /** `="text"` (or `,"text"`), with no quote or NUL inside the text and a
      closing quote at `e`: the text is added to the last key as a string
      value, and the parser resumes after the closing quote, on the line `l`
      of that quote. */
  lemma StringTurn(s: string, st: Parser, text: string, e: nat, l: int, conv: Conversions)
    requires |st.ini.sections| > 0 && |st.ini.keys| > 0
    requires e == st.pos + 2 + |text| && e < |s|
    requires s[st.pos] == '=' || s[st.pos] == ','
    requires s[st.pos + 1] == '"' && s[st.pos + 2..e] == text && s[e] == '"'
    requires '"' !in text && '\0' !in text
    requires l == st.line + LinesIn(s, st.pos + 2, e)
    ensures Step(s, st, conv) == AddValue(Parser(e + 1, l, st.ini), StringValue(text), st.line)
  {
    var i, j := st.pos + 1, st.pos + 2;
    QuotedText(s, i, j, e, l, text, st.line, st.ini);
    QuotedTurn(s, st, i, j, conv);
  }

  /** A quoted value whose text holds no quote or NUL. */
  lemma QuotedText(s: string, i: nat, j: nat, e: nat, l: int, text: string, line: int, ini: Ini)
    requires j == i + 1 && j <= e < |s| && s[i] == '"' && |ini.keys| > 0
    requires s[j..e] == text && s[e] == '"' && '"' !in text && '\0' !in text
    requires l == line + LinesIn(s, j, e)
    ensures QuotedValue(s, j, line, ini) == AddValue(Parser(e + 1, l, ini), StringValue(text), line)
  {
    forall k | j <= k < e
      ensures s[k] != '"' && s[k] != '\0'
    {
      assert s[k] == text[k - j];
    }
    assert FirstAt(s, j, '"', e);
  }

  /** `="` (or `,"`): the turn is the quoted value's. */
  lemma QuotedTurn(s: string, st: Parser, i: nat, j: nat, conv: Conversions)
    requires i == st.pos + 1 && j == i + 1 && i < |s| && |st.ini.sections| > 0 && |st.ini.keys| > 0
    requires s[st.pos] == '=' || s[st.pos] == ','
    requires s[i] == '"'
    ensures Step(s, st, conv) == QuotedValue(s, j, st.line, st.ini)
  {
    ValueAtQuote(s, i, j, st.line, st.ini, conv);
    StepAtValueIs(s, st, conv, QuotedValue(s, j, st.line, st.ini));
  }

  /** The value branch at a quoted string that is never closed. */
  lemma UnterminatedStringAt(s: string, i: nat, line: int, ini: Ini, conv: Conversions)
    requires i < |s| && |ini.keys| > 0 && s[i] == '"'
    requires forall k | i < k < |s| :: s[k] != '"'
    ensures ValueStep(s, i, line, ini, conv) == Stop(Syntax(line, UnterminatedString), SetLastKind(ini, StringType))
  {
    var j := i + 1;
    assert forall e: nat :: !FirstAt(s, j, '"', e);
    QuotedUnterminated(s, j, line, ini);
    ValueAtQuote(s, i, j, line, ini, conv);
  }

  /** Without a closing quote the key is typed string all the same, and the
      error names the line the value starts on. */
  lemma QuotedUnterminated(s: string, j: nat, line: int, ini: Ini)
    requires 0 < j <= |s| && s[j - 1] == '"' && |ini.keys| > 0
    requires forall e: nat :: !FirstAt(s, j, '"', e)
    ensures QuotedValue(s, j, line, ini) == Stop(Syntax(line, UnterminatedString), SetLastKind(ini, StringType))
  {
    var a := AdvanceToNext(s, j, '"', line);
    assert !a.found;
  }

  /** A string with no closing quote is an error on the line it starts on;
      the last key has been typed string before the error is seen. */
  lemma StepRejectsUnterminatedString(s: string, st: Parser, conv: Conversions)
    requires st.pos + 1 < |s| && |st.ini.sections| > 0 && |st.ini.keys| > 0
    requires s[st.pos] == '=' || s[st.pos] == ','
    requires s[st.pos + 1] == '"' && forall k | st.pos + 1 < k < |s| :: s[k] != '"'
    ensures Step(s, st, conv) == Stop(Syntax(st.line, UnterminatedString), SetLastKind(st.ini, StringType))
  {
    UnterminatedStringAt(s, st.pos + 1, st.line, st.ini, conv);
    StepAtValueIs(s, st, conv, Stop(Syntax(st.line, UnterminatedString), SetLastKind(st.ini, StringType)));
  }

  /** A plain name of letters and digits, not starting with a digit. */
  predicate IsName(name: string) {
    |name| > 0 && !IsDigit(name[0]) && forall k | 0 <= k < |name| :: IsAlnum(name[k])
  }

  /** A property name at the parser's position is read up to the first
      character that is not a letter or digit, and becomes a new key. */
  lemma NameTurn(s: string, st: Parser, name: string, conv: Conversions)
    requires IsName(name) && |st.ini.sections| > 0
    requires st.pos + |name| < |s| && s[st.pos..st.pos + |name|] == name
    requires !IsAlnum(s[st.pos + |name|]) && s[st.pos + |name|] != '\0'
    ensures Step(s, st, conv) == Continue(Parser(st.pos + |name|, st.line, AddKey(st.ini, name)))
  {
    var e := st.pos + |name|;
    assert s[st.pos] == name[0];
    assert forall k | st.pos <= k < e :: s[k] == name[k - st.pos];
    assert SkipWhitespace(s, st.pos, st.line) == Scan(st.pos, st.line);
    var a := AdvanceToNextNonAlphanumeric(s, st.pos, st.line);
    assert a.at.pos == e;
    LinesInNone(s, st.pos, e);
  }

  /** `=` or `,` followed at once by a bool or numeric token that runs to a
      comma or to the end of the text: the token's value is added to the last
      key and the parser stops at the comma or the end. */
  lemma ValueTurn(s: string, st: Parser, e: nat, conv: Conversions)
    requires |st.ini.sections| > 0 && |st.ini.keys| > 0
    requires st.pos + 1 < e <= |s|
    requires s[st.pos] == '=' || s[st.pos] == ','
    requires var c := s[st.pos + 1]; c == 't' || c == 'f' || IsDigit(c) || c == '-' || c == '+'
    requires forall k | st.pos + 1 <= k < e :: !IsSpace(s[k]) && s[k] != ',' && s[k] != '\0'
    requires e == |s| || s[e] == ','
    ensures IsToken(s[st.pos + 1..e])
    ensures Step(s, st, conv) == AddValue(Parser(e, st.line, st.ini), TokenValue(s[st.pos + 1..e], conv), st.line)
  {
    TokenScan(s, st.pos + 1, e, st.line);
    ValueAt(s, st.pos + 1, e, st.line, st.ini, conv);
    StepAtValueIs(s, st, conv, AddValue(Parser(e, st.line, st.ini), TokenValue(s[st.pos + 1..e], conv), st.line));
  }

  /** A token that runs to a comma or to the end of the text is scanned to
      its end, on the same line. */
  lemma TokenScan(s: string, i: nat, e: nat, line: int)
    requires i <= e <= |s|
    requires forall k | i <= k < e :: !IsSpace(s[k]) && s[k] != ',' && s[k] != '\0'
    requires e == |s| || s[e] == ','
    ensures AdvanceToNextWhiteSpaceOrComma(s, i, line).at == Scan(e, line)
  {
    var a := AdvanceToNextWhiteSpaceOrComma(s, i, line);
    assert a.at.pos == e;
    LinesInNone(s, i, e);
  }

  /** The value branch at a bool or numeric token scanned to `e`. */
  lemma ValueAt(s: string, i: nat, e: nat, line: int, ini: Ini, conv: Conversions)
    requires i < e <= |s| && |ini.keys| > 0
    requires var c := s[i]; c == 't' || c == 'f' || IsDigit(c) || c == '-' || c == '+'
    requires forall k | i <= k < e :: s[k] != '\0'
    requires AdvanceToNextWhiteSpaceOrComma(s, i, line).at == Scan(e, line)
    ensures IsToken(s[i..e])
    ensures ValueStep(s, i, line, ini, conv) == AddValue(Parser(e, line, ini), TokenValue(s[i..e], conv), line)
  {
    assert SkipWhitespace(s, i, line) == Scan(i, line);
    assert SkipBlank(s, i, line) == Scan(i, line);
    assert s[i..e][0] == s[i];
  }

  /** Where the next character is `=` or `,` and a key exists, the turn is
      the value branch just past that character. */
  lemma StepAtValue(s: string, st: Parser, conv: Conversions)
    requires st.pos < |s| && |st.ini.sections| > 0 && |st.ini.keys| > 0
    requires s[st.pos] == '=' || s[st.pos] == ','
    ensures Step(s, st, conv) == ValueStep(s, st.pos + 1, st.line, st.ini, conv)
  {
    var w := SkipWhitespace(s, st.pos, st.line);
    assert w == Scan(st.pos, st.line);
    var c := Peek(s, w.pos);
    assert c != ';' && c != '[' && (c == '=' || c == ',');
  }

  /** ... so it has that branch's outcome. */
  lemma StepAtValueIs(s: string, st: Parser, conv: Conversions, o: Outcome)
    requires st.pos < |s| && |st.ini.sections| > 0 && |st.ini.keys| > 0
    requires s[st.pos] == '=' || s[st.pos] == ','
    requires ValueStep(s, st.pos + 1, st.line, st.ini, conv) == o
    ensures Step(s, st, conv) == o
  {
    StepAtValue(s, st, conv);
  }

  /** A turn that goes on leaves the rest of the loop to the next parser. */
  lemma RunContinues(s: string, st: Parser, conv: Conversions)
    requires st.pos <= |s| && |st.ini.sections| > 0
    requires Peek(s, st.pos) != '\0' && Step(s, st, conv).Continue?
    ensures Run(s, st, conv) == Run(s, Step(s, st, conv).next, conv)
  {
  }

  /** A turn that stops ends the loop with its error. */
  lemma RunStops(s: string, st: Parser, conv: Conversions)
    requires st.pos <= |s| && |st.ini.sections| > 0
    requires Peek(s, st.pos) != '\0' && Step(s, st, conv).Stop?
    ensures Run(s, st, conv) == Parsed(Step(s, st, conv).err, Step(s, st, conv).ini)
  {
  }

  /** Two turns that go on hand the rest of the loop to the parser after them. */
  lemma RunTwoTurns(s: string, st0: Parser, st1: Parser, st2: Parser, conv: Conversions)
    requires st0.pos <= |s| && |st0.ini.sections| > 0
    requires Peek(s, st0.pos) != '\0' && Step(s, st0, conv) == Continue(st1)
    requires Peek(s, st1.pos) != '\0' && Step(s, st1, conv) == Continue(st2)
    ensures Run(s, st0, conv) == Run(s, st2, conv)
  {
    RunContinues(s, st0, conv);
    RunContinues(s, st1, conv);
  }

  /** A key added to a fresh `IniFile` is the only key of its default section. */
  lemma AddKeyToFresh(name: string)
    ensures AddKey(WithDefaultSection(Empty), name) == Ini([Section(None, 1, 0)], [Key(name, None, 0, 0)], [])
  {
    assert WithDefaultSection(Empty) == Ini([Section(None, 0, 0)], [], []);
  }

  /** The first value given to that key sets its type and makes it its only value. */
  lemma AddValueToFreshKey(name: string, v: Value, pos: nat, line: int)
    ensures AddValue(Parser(pos, line, Ini([Section(None, 1, 0)], [Key(name, None, 0, 0)], [])), v, line)
      == Continue(Parser(pos, line, Ini([Section(None, 1, 0)], [Key(name, Some(TypeOfValue(v)), 0, 1)], [v])))
  {
  }

  /** The shape of `name=true` (or `name=false`) that the two turns need. */
  lemma BoolTextShape(name: string, b: bool)
    ensures var s := name + "=" + (if b then "true" else "false");
      var n := |name|;
      && n + 1 < |s|
      && s[..n] == name && s[n] == '='
      && (s[n + 1] == 't' || s[n + 1] == 'f') && (s[n + 1] == 't') == b
      && forall j | n + 1 <= j < |s| :: !IsSpace(s[j]) && s[j] != ',' && s[j] != '\0'
  {
    var word := if b then "true" else "false";
    var s := name + "=" + word;
    var n := |name|;
    assert forall j | 0 <= j < |word| :: 'a' <= word[j] <= 'z';
    assert forall j | n + 1 <= j < |s| :: s[j] == word[j - n - 1];
    assert s[..n] == name;
  }

  /** The first turn on `name=true` (or `name=false`) reads the name as a
      key of the default section. */
  lemma BoolNameTurn(name: string, b: bool, conv: Conversions)
    requires IsName(name)
    ensures var s := name + "=" + (if b then "true" else "false");
      Step(s, Parser(0, 1, WithDefaultSection(Empty)), conv)
      == Continue(Parser(|name|, 1, Ini([Section(None, 1, 0)], [Key(name, None, 0, 0)], [])))
  {
    var s := name + "=" + (if b then "true" else "false");
    var n := |name|;
    BoolTextShape(name, b);
    assert s[0..n] == s[..n];
    NameTurn(s, Parser(0, 1, WithDefaultSection(Empty)), name, conv);
    AddKeyToFresh(name);
  }

  /** The second turn reads the bool as that key's one value. */
  lemma BoolValueTurn(name: string, b: bool, conv: Conversions)
    requires IsName(name)
    ensures var s := name + "=" + (if b then "true" else "false");
      Step(s, Parser(|name|, 1, Ini([Section(None, 1, 0)], [Key(name, None, 0, 0)], [])), conv)
      == Continue(Parser(|s|, 1, Ini([Section(None, 1, 0)], [Key(name, Some(BoolType), 0, 1)], [BoolValue(b)])))
  {
    var s := name + "=" + (if b then "true" else "false");
    var n := |name|;
    BoolTextShape(name, b);
    var st1 := Parser(n, 1, Ini([Section(None, 1, 0)], [Key(name, None, 0, 0)], []));
    ValueTurn(s, st1, |s|, conv);
    assert s[n + 1..|s|][0] == s[n + 1];
    AddValueToFreshKey(name, BoolValue(b), |s|, 1);
  }

  /** Both turns on `name=true` (or `name=false`): the name becomes a key
      and the bool its value. */
  lemma BoolTurns(name: string, b: bool, conv: Conversions)
    requires IsName(name)
    ensures var s := name + "=" + (if b then "true" else "false");
      && 0 < |name| < |s|
      && Step(s, Parser(0, 1, WithDefaultSection(Empty)), conv)
         == Continue(Parser(|name|, 1, Ini([Section(None, 1, 0)], [Key(name, None, 0, 0)], [])))
      && Step(s, Parser(|name|, 1, Ini([Section(None, 1, 0)], [Key(name, None, 0, 0)], [])), conv)
         == Continue(Parser(|s|, 1, Ini([Section(None, 1, 0)], [Key(name, Some(BoolType), 0, 1)], [BoolValue(b)])))
  {
    BoolNameTurn(name, b, conv);
    BoolValueTurn(name, b, conv);
  }

  /** `name=true` (or `name=false`) parses into one key of type bool, with
      one value, in the default section. */
  lemma ParseBool(name: string, b: bool, conv: Conversions)
    requires IsName(name)
    ensures Parse(Empty, name + "=" + (if b then "true" else "false"), conv)
      == Parsed(Ok, Ini([Section(None, 1, 0)], [Key(name, Some(BoolType), 0, 1)], [BoolValue(b)]))
  {
    var s := name + "=" + (if b then "true" else "false");
    BoolTurns(name, b, conv);
    var ini1 := Ini([Section(None, 1, 0)], [Key(name, None, 0, 0)], []);
    var ini2 := Ini([Section(None, 1, 0)], [Key(name, Some(BoolType), 0, 1)], [BoolValue(b)]);
    RunTwoTurns(s, Parser(0, 1, WithDefaultSection(Empty)), Parser(|name|, 1, ini1), Parser(|s|, 1, ini2), conv);
  }

  /** Looking the name up after `ParseBool` finds its single bool value. */
  lemma ParseThenLookupBool(name: string, b: bool, conv: Conversions)
    requires IsName(name)
    ensures var r := Parse(Empty, name + "=" + (if b then "true" else "false"), conv);
      && r.err == Ok
      && r.ini.values == [BoolValue(b)]
      && SectionsInBounds(r.ini)
      && Lookup(r.ini, name, None) == Property(Some(BoolType), 1, Some(0))
  {
    ParseBool(name, b, conv);
    var ini2 := Ini([Section(None, 1, 0)], [Key(name, Some(BoolType), 0, 1)], [BoolValue(b)]);
    assert SectionsInBounds(ini2);
    assert KeyRange(ini2, None) == (0, 1);
    assert FindKey(ini2.keys, name, 0, 1) == Some(0);
  }

  /** The text of `ParseRejectsMixedArray`. */
  const MixedArray := "a=1,true"

  /** The numeric value of the token `1`. */
  function One(conv: Conversions): Value {
    NumberValue("1", conv)
  }

  /** The contents after the first two turns on `MixedArray`: the key `a`
      with the number 1 as its only value. */
  function MixedArrayAfterOne(conv: Conversions): Ini {
    Ini([Section(None, 1, 0)], [Key("a", Some(TypeOfValue(One(conv))), 0, 1)], [One(conv)])
  }

  /** The characters of `MixedArray` that its turns look at. */
  lemma MixedArrayShape()
    ensures |MixedArray| == 8
    ensures MixedArray[1] == '=' && MixedArray[2] == '1' && MixedArray[3] == ',' && MixedArray[4] == 't'
    ensures MixedArray[2..3] == "1" && MixedArray[4..8][0] == 't'
    ensures forall j | 2 <= j < 3 :: !IsSpace(MixedArray[j]) && MixedArray[j] != ',' && MixedArray[j] != '\0'
    ensures forall j | 4 <= j < 8 :: !IsSpace(MixedArray[j]) && MixedArray[j] != ',' && MixedArray[j] != '\0'
  {
  }

  /** Its first two turns read the key `a` and give it the number 1. */
  lemma MixedArrayTurns(conv: Conversions)
    ensures Step(MixedArray, Parser(0, 1, WithDefaultSection(Empty)), conv)
      == Continue(Parser(1, 1, Ini([Section(None, 1, 0)], [Key("a", None, 0, 0)], [])))
    ensures Step(MixedArray, Parser(1, 1, Ini([Section(None, 1, 0)], [Key("a", None, 0, 0)], [])), conv)
      == Continue(Parser(3, 1, MixedArrayAfterOne(conv)))
  {
    var s := MixedArray;
    MixedArrayShape();
    NameTurn(s, Parser(0, 1, WithDefaultSection(Empty)), "a", conv);
    AddKeyToFresh("a");
    ValueTurn(s, Parser(1, 1, Ini([Section(None, 1, 0)], [Key("a", None, 0, 0)], [])), 3, conv);
    AddValueToFreshKey("a", One(conv), 3, 1);
  }

  /** ... so the parse goes on from the comma with key `a` holding one value,
      which is not a bool. */
  lemma MixedArrayStart(conv: Conversions)
    ensures var ini := MixedArrayAfterOne(conv);
      && Parse(Empty, MixedArray, conv) == Run(MixedArray, Parser(3, 1, ini), conv)
      && |ini.sections| == 1 && |ini.keys| == 1
      && ini.keys[0].count == 1 && ini.keys[0].kind != Some(BoolType)
  {
    MixedArrayTurns(conv);
    MixedArrayShape();
    RunTwoTurns(MixedArray, Parser(0, 1, WithDefaultSection(Empty)),
      Parser(1, 1, Ini([Section(None, 1, 0)], [Key("a", None, 0, 0)], [])), Parser(3, 1, MixedArrayAfterOne(conv)), conv);
  }

  /** A key that already holds values of one type rejects a value of another:
      `a=1,true` has a number and then a bool. */
  lemma ParseRejectsMixedArray(conv: Conversions)
    ensures Parse(Empty, MixedArray, conv).err == Syntax(1, InhomogeneousArray)
  {
    var s := MixedArray;
    MixedArrayStart(conv);
    var p := Parser(3, 1, MixedArrayAfterOne(conv));
    MixedArrayShape();
    ValueTurn(s, p, 8, conv);
    assert Step(s, p, conv).Stop?;
    RunStops(s, p, conv);
  }
}

=== FILE: ini_file.dfy ===
/** `IniFile`: the parsed contents of an INI text and the lookup of a property.

    The source keeps three flat arrays. Each section names a run of consecutive
    keys (`keyOffset`, `count`); each key names a run of consecutive values
    (`valueOffset`, `count`) that all share the key's type, which is how a
    comma-separated array is stored. Names are compared through `StringHash`;
    here they are the strings themselves. */
module IniFile {
  import opened Wrappers
  import opened IniScan

  /** `IniFile::ValueType`. */
  datatype ValueType = StringType | BoolType | IntType | DoubleType

  /** `IniFile::Value`, the union of a C string, a bool, a `sint64` and a double. */
  datatype Value = StringValue(str: string) | BoolValue(b: bool) | IntValue(i: int) | DoubleValue(d: real)

  function TypeOfValue(v: Value): ValueType {
    match v
    case StringValue(_) => StringType
    case BoolValue(_) => BoolType
    case IntValue(_) => IntType
    case DoubleValue(_) => DoubleType
  }

  /** A section, its fields in the order the parser's aggregate initializers
      give them: name, key count, offset of the first key. The default section,
      which collects the keys before the first `[name]`, has the invalid hash
      for a name, here `None`. */
  datatype Section = Section(name: Option<string>, count: nat, keyOffset: nat)

  /** A key. Its type is unset (`None`) until its first value is parsed. */
  datatype Key = Key(name: string, kind: Option<ValueType>, valueOffset: nat, count: nat)

  datatype Ini = Ini(sections: seq<Section>, keys: seq<Key>, values: seq<Value>)

  /** A freshly constructed `IniFile`. */
  const Empty := Ini([], [], [])

  /** What a syntax error is about; each is one of the messages the parser logs. */
  datatype Reason =
    | UnterminatedSection
    | NoPropertyName
    | UnterminatedString
    | InvalidValue
    | InhomogeneousArray
    | NameBeginsWithNumber
    | UnexpectedEndOfFile
    | InvalidPropertyName

  /** `IniFile::Error` as `parse` returns it, with the line the log names. */
  datatype Error = Ok | Syntax(line: int, reason: Reason)

  /** The C library's `strtol(beg, 0, 0)` and `strtod(beg, 0)`, applied to the
      token of a numeric value. */
  datatype Conversions = Conversions(strtol: string -> int, strtod: string -> real)

  /** The parser's position in the text, its line counter and the contents so far. */
  datatype Parser = Parser(pos: nat, line: int, ini: Ini)

  /** One turn of the parse loop either goes on or returns an error. */
  datatype Outcome = Continue(next: Parser) | Stop(err: Error, ini: Ini)

  /** What `parse` returns, together with the contents it leaves behind. */
  datatype Parsed = Parsed(err: Error, ini: Ini)

  /** The last element of a non-empty sequence. */
  function Last<T>(xs: seq<T>): T
    requires |xs| > 0
  {
    xs[|xs| - 1]
  }

  /** Everything in `a` is still in `b`: the parser only appends sections,
      keys and values, and changes nothing but the count (and, for a key, the
      type) of the last section or key. */
  predicate Extends(a: Ini, b: Ini) {
    && |a.sections| <= |b.sections|
    && (forall j | 0 <= j < |a.sections| ::
          b.sections[j].name == a.sections[j].name && b.sections[j].keyOffset == a.sections[j].keyOffset)
    && (forall j | 0 <= j < |a.sections| - 1 :: b.sections[j] == a.sections[j])
    && |a.keys| <= |b.keys|
    && (forall i | 0 <= i < |a.keys| ::
          b.keys[i].name == a.keys[i].name && b.keys[i].valueOffset == a.keys[i].valueOffset)
    && (forall i | 0 <= i < |a.keys| - 1 :: b.keys[i] == a.keys[i])
    && a.values <= b.values
  }

  /** The sections split the keys into consecutive runs, from the first key
      to the last: each run ends where the next one begins. */
  predicate SectionsPartition(sections: seq<Section>, keyCount: nat) {
    && |sections| > 0
    && sections[0].keyOffset == 0
    && (forall j | 0 <= j < |sections| :: sections[j].keyOffset + sections[j].count <= keyCount)
    && (forall j | 0 <= j < |sections| - 1 :: sections[j].keyOffset + sections[j].count == sections[j + 1].keyOffset)
    && Last(sections).keyOffset + Last(sections).count == keyCount
  }

  /** The keys split the values into consecutive runs in the same way. */
  predicate KeysPartition(keys: seq<Key>, valueCount: nat) {
    && (if |keys| == 0 then valueCount == 0 else keys[0].valueOffset == 0)
    && (forall i | 0 <= i < |keys| :: keys[i].valueOffset + keys[i].count <= valueCount)
    && (forall i | 0 <= i < |keys| - 1 :: keys[i].valueOffset + keys[i].count == keys[i + 1].valueOffset)
    && (|keys| > 0 ==> Last(keys).valueOffset + Last(keys).count == valueCount)
  }

  /** A key has a type exactly when it has values, and all its values have it. */
  predicate KindsAgree(keys: seq<Key>, values: seq<Value>) {
    && (forall i | 0 <= i < |keys| :: keys[i].kind.None? <==> keys[i].count == 0)
    && (forall i, v | 0 <= i < |keys| && keys[i].valueOffset <= v < keys[i].valueOffset + keys[i].count
          && v < |values| :: keys[i].kind == Some(TypeOfValue(values[v])))
  }

  /** The layout `parse` maintains. */
  predicate WellFormed(ini: Ini) {
    && SectionsPartition(ini.sections, |ini.keys|)
    && KeysPartition(ini.keys, |ini.values|)
    && KindsAgree(ini.keys, ini.values)
  }

  /** A new section starts an empty key run at the end of the key array. */
  lemma AddSectionKeepsWellFormed(ini: Ini, name: string)
    ensures WellFormed(ini) ==> WellFormed(ini.(sections := ini.sections + [Section(Some(name), 0, |ini.keys|)]))
  {
    if WellFormed(ini) {
      var r := ini.(sections := ini.sections + [Section(Some(name), 0, |ini.keys|)]);
      var n := |ini.sections| - 1;
      assert forall j | 0 <= j <= n :: r.sections[j] == ini.sections[j];
      assert r.sections[n + 1].keyOffset == |ini.keys|;
      assert SectionsPartition(r.sections, |r.keys|);
    }
  }

  /** A new key starts an empty value run at the end of the value array and
      joins the last section's run. */
  lemma AddKeyKeepsWellFormed(ini: Ini, name: string)
    requires |ini.sections| > 0
    ensures WellFormed(ini) ==> WellFormed(AddKey(ini, name))
  {
    if WellFormed(ini) {
      var r := AddKey(ini, name);
      var n := |ini.sections| - 1;
      forall j | 0 <= j < n
        ensures r.sections[j] == ini.sections[j]
      {
        assert r.sections[..n][j] == ini.sections[..n][j];
      }
      assert SectionsPartition(r.sections, |r.keys|);
      assert KeysPartition(r.keys, |r.values|);
    }
  }

  /** A value accepted for the last key extends its run and has its type. */
  lemma AddValueKeepsWellFormed(p: Parser, v: Value, errline: int)
    requires |p.ini.keys| > 0
    ensures WellFormed(p.ini) && AddValue(p, v, errline).Continue? ==> WellFormed(AddValue(p, v, errline).next.ini)
  {
    var o := AddValue(p, v, errline);
    if WellFormed(p.ini) && o.Continue? {
      var ini := p.ini;
      var r := o.next.ini;
      var n := |ini.keys| - 1;
      forall i | 0 <= i < n
        ensures r.keys[i] == ini.keys[i]
      {
        assert r.keys[..n][i] == ini.keys[..n][i];
      }
      assert KeysPartition(r.keys, |r.values|);
      forall i, w | 0 <= i < |r.keys| && r.keys[i].valueOffset <= w < r.keys[i].valueOffset + r.keys[i].count
          && w < |r.values|
        ensures r.keys[i].kind == Some(TypeOfValue(r.values[w]))
      {
        if w < |ini.values| {
          assert r.values[w] == ini.values[w];
        }
      }
    }
  }

  /** The default section `parse` adds when there is none, spanning every key
      already present. */
  function WithDefaultSection(ini: Ini): (r: Ini)
    ensures |r.sections| > 0
    ensures r.keys == ini.keys && r.values == ini.values
    ensures ini.sections != [] ==> r == ini
    ensures ini.sections == [] ==> r.sections == [Section(None, 0, |ini.keys|)]
  {
    if ini.sections == [] then ini.(sections := [Section(None, 0, |ini.keys|)]) else ini
  }

  /** White space, then any number of comment lines each followed by white
      space: what the parser skips after `=` or `,`. */
  function SkipBlank(s: string, i: nat, line: int): (r: Scan)
    requires i <= |s|
    ensures i <= r.pos <= |s|
    ensures !IsSpace(Peek(s, r.pos)) && Peek(s, r.pos) != ';'
    ensures r.line == line + LinesIn(s, i, r.pos)
    decreases |s| - i
  {
    var w := SkipWhitespace(s, i, line);
    if Peek(s, w.pos) == ';' then
      var l := SkipLine(s, w.pos, w.line);
      var r := SkipBlank(s, l.pos, l.line);
      LinesInSplit(s, i, w.pos, l.pos);
      LinesInSplit(s, i, l.pos, r.pos);
      r
    else w
  }

  /** The characters whose presence makes an ambiguous number a double; `n`
      and `N` catch INF and NAN. */
  const FloatMarks := ".eEnN"

  /** No NUL inside: a token cut out of the text by the scanning helpers. */
  predicate IsToken(t: string) {
    forall k | 0 <= k < |t| :: t[k] != '\0'
  }

  /** The value of a numeric token. `strtol` and `strtod` both read it: when
      exactly one of them finds a non-zero value, that one wins; otherwise a
      '.', 'e', 'E', 'n' or 'N' in the token makes it a double. */
  function NumberValue(token: string, conv: Conversions): (v: Value)
    requires IsToken(token)
    ensures v.IntValue? || v.DoubleValue?
    ensures v.IntValue? ==> v.i == conv.strtol(token)
    ensures v.DoubleValue? ==> v.d == conv.strtod(token)
    ensures conv.strtol(token) != 0 && (forall k | 0 <= k < |token| :: token[k] !in FloatMarks) ==>
      v == IntValue(conv.strtol(token))
    ensures conv.strtod(token) != 0.0 && (exists k | 0 <= k < |token| :: token[k] in FloatMarks) ==>
      v == DoubleValue(conv.strtod(token))
    ensures conv.strtol(token) == 0 && conv.strtod(token) != 0.0 ==> v == DoubleValue(conv.strtod(token))
    ensures conv.strtol(token) != 0 && conv.strtod(token) == 0.0 ==> v == IntValue(conv.strtol(token))
    ensures (conv.strtol(token) != 0) == (conv.strtod(token) != 0.0) ==>
      (v.DoubleValue? <==> exists k | 0 <= k < |token| :: token[k] in FloatMarks)
  {
    var l := conv.strtol(token);
    var d := conv.strtod(token);
    if d == 0.0 && l != 0 then IntValue(l)
    else if l == 0 && d != 0.0 then DoubleValue(d)
    else if ContainsAny(token, 0, |token|, FloatMarks) then DoubleValue(d)
    else IntValue(l)
  }

  /** The first character of a bool (`t`, `f`) or numeric value. */
  predicate IsTokenStart(c: char) {
    c == 't' || c == 'f' || IsDigit(c) || c == '-' || c == '+'
  }

  /** The value of a bool or numeric token, as the value branch reads it:
      only its first character decides a bool. */
  function TokenValue(t: string, conv: Conversions): Value
    requires |t| > 0 && IsToken(t)
  {
    if t[0] == 't' || t[0] == 'f' then BoolValue(t[0] == 't') else NumberValue(t, conv)
  }

  /** The last key with its type set to `t`. */
  function SetLastKind(ini: Ini, t: ValueType): (r: Ini)
    requires |ini.keys| > 0
    ensures Extends(ini, r)
  {
    ini.(keys := ini.keys[|ini.keys| - 1 := Last(ini.keys).(kind := Some(t))])
  }

  /** The value appended to the last key: its type becomes the value's type,
      the value is stored, and the count grows unless the key already held
      values of another type, which is a syntax error. */
  function AddValue(p: Parser, v: Value, errline: int): (r: Outcome)
    requires |p.ini.keys| > 0
    ensures r.Continue? <==> Last(p.ini.keys).count == 0 || Last(p.ini.keys).kind == Some(TypeOfValue(v))
    ensures r.Stop? ==> r.err == Syntax(errline, InhomogeneousArray)
    ensures r.Continue? ==> r.next.pos == p.pos && r.next.line == p.line
    ensures var ini := (if r.Continue? then r.next.ini else r.ini);
      && ini.sections == p.ini.sections
      && ini.values == p.ini.values + [v]
      && |ini.keys| == |p.ini.keys|
      && ini.keys[..|ini.keys| - 1] == p.ini.keys[..|p.ini.keys| - 1]
      && Last(ini.keys).kind == Some(TypeOfValue(v))
      && Last(ini.keys).name == Last(p.ini.keys).name
      && Last(ini.keys).valueOffset == Last(p.ini.keys).valueOffset
      && Last(ini.keys).count == Last(p.ini.keys).count + (if r.Continue? then 1 else 0)
      && Extends(p.ini, ini)
  {
    var k := Last(p.ini.keys);
    var n := |p.ini.keys| - 1;
    var typed := p.ini.(keys := p.ini.keys[n := k.(kind := Some(TypeOfValue(v)))], values := p.ini.values + [v]);
    if k.count > 0 && k.kind != Some(TypeOfValue(v)) then
      Stop(Syntax(errline, InhomogeneousArray), typed)
    else
      Continue(p.(ini := typed.(keys := p.ini.keys[n := k.(kind := Some(TypeOfValue(v)), count := k.count + 1)])))
  }

  /** What a turn of the parser keeps: everything it started with, and a
      well-formed layout when it goes on. */
  predicate Keeps(ini: Ini, r: Outcome) {
    && Extends(ini, if r.Continue? then r.next.ini else r.ini)
    && (WellFormed(ini) && r.Continue? ==> WellFormed(r.next.ini))
  }

  /** A quoted string value whose text starts at j, just past the opening
      `"`: the text up to the next `"` is the value and the parser resumes
      after that quote. Without a closing quote the key is typed string all
      the same, and the error names the line the value starts on. */
  function QuotedValue(s: string, j: nat, line: int, ini: Ini): (r: Outcome)
    requires 0 < j <= |s| && s[j - 1] == '"' && |ini.keys| > 0
    ensures r.Continue? ==> j < r.next.pos <= |s|
    ensures Keeps(ini, r)
    ensures forall e: nat | FirstAt(s, j, '"', e) ::
      r == AddValue(Parser(e + 1, line + LinesIn(s, j, e), ini), StringValue(s[j..e]), line)
    ensures r.Stop? ==> r.err.Syntax? && r.err.reason != InvalidValue
  {
    var a := AdvanceToNext(s, j, '"', line);
    if !a.found then Stop(Syntax(line, UnterminatedString), SetLastKind(ini, StringType))
    else
      var p := Parser(a.at.pos + 1, a.at.line, ini);
      var v := StringValue(s[j..a.at.pos]);
      AddValueKeepsWellFormed(p, v, line);
      AddValue(p, v, line)
  }

  /** A bool or numeric value starting at j: the token runs to the next white
      space or comma, on the same line, and its value is added. */
  function TokenValueStep(s: string, j: nat, line: int, ini: Ini, conv: Conversions): (r: Outcome)
    requires j < |s| && IsTokenStart(s[j]) && |ini.keys| > 0
    ensures r.Continue? ==> j < r.next.pos <= |s|
    ensures Keeps(ini, r)
    ensures forall e: nat | TokenEndsAt(s, j, e) ::
      j < e && IsToken(s[j..e]) && r == AddValue(Parser(e, line, ini), TokenValue(s[j..e], conv), line)
    ensures r.Stop? ==> r.err.Syntax? && r.err.reason != InvalidValue
  {
    var a := AdvanceToNextWhiteSpaceOrComma(s, j, line);
    assert TokenEndsAt(s, j, a.at.pos);
    var v := TokenValue(s[j..a.at.pos], conv);
    var p := Parser(a.at.pos, line, ini);
    AddValueKeepsWellFormed(p, v, line);
    AddValue(p, v, line)
  }

  /** The branch for `=` or `,` (the parser is just past it): the value that
      follows, after white space and comment lines, is added to the last key.
      A quoted string runs to the next `"`; a bool or number runs to the next
      white space or comma; anything else is an invalid value. Errors name the
      line the value starts on. */
  function ValueStep(s: string, i: nat, line: int, ini: Ini, conv: Conversions): (r: Outcome)
    requires i <= |s| && |ini.keys| > 0
    ensures r.Continue? ==> i <= r.next.pos <= |s|
    ensures Keeps(ini, r)
    ensures var b := SkipBlank(s, i, line); var c := Peek(s, b.pos);
      c != '"' && !IsTokenStart(c) <==> r == Stop(Syntax(b.line, InvalidValue), ini)
  {
    var b := SkipBlank(s, i, line);
    var c := Peek(s, b.pos);
    if c == '"' then QuotedValue(s, b.pos + 1, b.line, ini)
    else if IsTokenStart(c) then TokenValueStep(s, b.pos, b.line, ini, conv)
    else Stop(Syntax(b.line, InvalidValue), ini)
  }

  /** The value branch goes on as the quoted-string or the token branch,
      whichever the first character after the blanks calls for. */
  lemma ValueStepBranches(s: string, i: nat, line: int, ini: Ini, conv: Conversions)
    requires i <= |s| && |ini.keys| > 0
    ensures var b := SkipBlank(s, i, line); var c := Peek(s, b.pos);
      && (c == '"' ==> ValueStep(s, i, line, ini, conv) == QuotedValue(s, b.pos + 1, b.line, ini))
      && (IsTokenStart(c) ==> ValueStep(s, i, line, ini, conv) == TokenValueStep(s, b.pos, b.line, ini, conv))
  {
  }

  /** A new key with no value yet, counted in the last section. */
  function AddKey(ini: Ini, name: string): (r: Ini)
    requires |ini.sections| > 0
    ensures |r.sections| == |ini.sections| && r.values == ini.values
    ensures r.keys == ini.keys + [Key(name, None, |ini.values|, 0)]
    ensures r.sections[..|r.sections| - 1] == ini.sections[..|ini.sections| - 1]
    ensures Last(r.sections) == Last(ini.sections).(count := Last(ini.sections).count + 1)
    ensures Extends(ini, r)
  {
    var n := |ini.sections| - 1;
    ini.(keys := ini.keys + [Key(name, None, |ini.values|, 0)],
         sections := ini.sections[n := ini.sections[n].(count := ini.sections[n].count + 1)])
  }

  /** The branch for any other character: a property name. The name runs to
      the first character that is not a letter or digit. With
      `rejectEmptyName` a name of no characters is a syntax error; without it
      the key is added all the same, which is what the source does. */
  function KeyStep(s: string, i: nat, line: int, ini: Ini, rejectEmptyName: bool): (r: Outcome)
    requires i < |s| && s[i] != '\0' && |ini.sections| > 0
    ensures r.Continue? ==> i <= r.next.pos <= |s|
    ensures r.Continue? && rejectEmptyName ==> i < r.next.pos
    ensures r.Continue? ==> r.next.ini == AddKey(ini, s[i..r.next.pos])
    ensures r.Stop? ==> r.ini == ini
    ensures WellFormed(ini) && r.Continue? ==> WellFormed(r.next.ini)
    ensures IsDigit(s[i]) ==> r == Stop(Syntax(line, NameBeginsWithNumber), ini)
    ensures !IsDigit(s[i]) ==> forall e: nat | NameEndsAt(s, i, e) ::
      r == if Peek(s, e) == '\0' then Stop(Syntax(line, UnexpectedEndOfFile), ini)
           else if rejectEmptyName && e == i then Stop(Syntax(line, InvalidPropertyName), ini)
           else Continue(Parser(e, line, AddKey(ini, s[i..e])))
  {
    if IsDigit(s[i]) then Stop(Syntax(line, NameBeginsWithNumber), ini)
    else
      var a := AdvanceToNextNonAlphanumeric(s, i, line);
      if !a.found then Stop(Syntax(a.at.line, UnexpectedEndOfFile), ini)
      else if rejectEmptyName && a.at.pos == i then Stop(Syntax(a.at.line, InvalidPropertyName), ini)
      else
        AddKeyKeepsWellFormed(ini, s[i..a.at.pos]);
        Continue(Parser(a.at.pos, a.at.line, AddKey(ini, s[i..a.at.pos])))
  }

  /** One turn of the parse loop: skip white space, then a comment, a section
      header, a value or a property name. */
  function StepWith(s: string, st: Parser, conv: Conversions, rejectEmptyName: bool): (r: Outcome)
    requires st.pos <= |s| && |st.ini.sections| > 0
    ensures r.Continue? ==> st.pos <= r.next.pos <= |s| && |r.next.ini.sections| > 0
    ensures r.Continue? && rejectEmptyName && Peek(s, st.pos) != '\0' ==> st.pos < r.next.pos
    ensures Extends(st.ini, if r.Continue? then r.next.ini else r.ini)
    ensures WellFormed(st.ini) && r.Continue? ==> WellFormed(r.next.ini)
  {
    var w := SkipWhitespace(s, st.pos, st.line);
    var c := Peek(s, w.pos);
    var ini := st.ini;
    if c == ';' then
      var l := SkipLine(s, w.pos, w.line);
      Continue(Parser(l.pos, l.line, ini))
    else if c == '[' then
      var a := AdvanceToNext(s, w.pos, ']', w.line);
      if !a.found then Stop(Syntax(w.line, UnterminatedSection), ini)
      else
        var section := Section(Some(s[w.pos + 1..a.at.pos]), 0, |ini.keys|);
        AddSectionKeepsWellFormed(ini, s[w.pos + 1..a.at.pos]);
        Continue(Parser(a.at.pos + 1, a.at.line, ini.(sections := ini.sections + [section])))
    else if c == '=' || c == ',' then
      if |ini.keys| == 0 then Stop(Syntax(w.line, NoPropertyName), ini)
      else ValueStep(s, w.pos + 1, w.line, ini, conv)
    else if c != '\0' then KeyStep(s, w.pos, w.line, ini, rejectEmptyName)
    else Continue(Parser(w.pos, w.line, ini))
  }

  /** The loop turn of `IniFile::parse` as the source writes it. */
  function StepAsWritten(s: string, st: Parser, conv: Conversions): (r: Outcome)
    requires st.pos <= |s| && |st.ini.sections| > 0
    ensures r.Continue? ==> st.pos <= r.next.pos <= |s| && |r.next.ini.sections| > 0
  {
    StepWith(s, st, conv, false)
  }

  /** The loop turn with a property name that does not start with a letter
      reported as a syntax error; every turn that goes on consumes input. */
  function Step(s: string, st: Parser, conv: Conversions): (r: Outcome)
    requires st.pos <= |s| && |st.ini.sections| > 0
    ensures r.Continue? ==> st.pos <= r.next.pos <= |s| && |r.next.ini.sections| > 0
    ensures r.Continue? && Peek(s, st.pos) != '\0' ==> st.pos < r.next.pos
    ensures WellFormed(st.ini) && r.Continue? ==> WellFormed(r.next.ini)
  {
    StepWith(s, st, conv, true)
  }

  /** The parse loop: turns until the terminating NUL or an error. */
  function Run(s: string, st: Parser, conv: Conversions): Parsed
    requires st.pos <= |s| && |st.ini.sections| > 0
    decreases |s| - st.pos
  {
    if Peek(s, st.pos) == '\0' then Parsed(Ok, st.ini)
    else
      match Step(s, st, conv)
      case Stop(e, ini) => Parsed(e, ini)
      case Continue(p) => Run(s, p, conv)
  }

  /** `IniFile::parse`: the text is parsed into the existing contents, after a
      default section has been added if there was none. Line numbers start at 1. */
  function Parse(ini: Ini, s: string, conv: Conversions): Parsed {
    Run(s, Parser(0, 1, WithDefaultSection(ini)), conv)
  }

  /** The as-written loop run for at most `fuel` turns; `None` when it has
      not finished by then. */
  function RunAsWritten(s: string, st: Parser, conv: Conversions, fuel: nat): Option<Parsed>
    requires st.pos <= |s| && |st.ini.sections| > 0
    decreases fuel
  {
    if Peek(s, st.pos) == '\0' then Some(Parsed(Ok, st.ini))
    else if fuel == 0 then None
    else
      match StepAsWritten(s, st, conv)
      case Stop(e, ini) => Some(Parsed(e, ini))
      case Continue(p) => RunAsWritten(s, p, conv, fuel - 1)
  }
}

/** `IniFile::getProperty`: the first key of a given name, looked for in the
    first section of a given name, or in every key when no section is named or
    no section has that name. */
module IniLookup {
  import opened Wrappers
  import opened IniFile

  /** `IniFile::Property`: the key's type, its number of values, and the index
      of its first value (`m_first`, a pointer into the value array). */
  datatype Property = Property(kind: Option<ValueType>, count: nat, first: Option<nat>)

  /** The property returned when no key matches: type bool, no values, a null
      first value. */
  const NotFound := Property(Some(BoolType), 0, None)

  /** Every section's key run lies inside the key array. */
  predicate SectionsInBounds(ini: Ini) {
    forall j | 0 <= j < |ini.sections| :: ini.sections[j].keyOffset + ini.sections[j].count <= |ini.keys|
  }

  /** The first section at or after `from` with the given name. */
  function FindSection(sections: seq<Section>, name: string, from: nat): (r: Option<nat>)
    requires from <= |sections|
    ensures r.Some? ==> from <= r.value < |sections| && sections[r.value].name == Some(name)
    ensures r.Some? ==> forall j | from <= j < r.value :: sections[j].name != Some(name)
    ensures r.None? ==> forall j | from <= j < |sections| :: sections[j].name != Some(name)
    decreases |sections| - from
  {
    if from == |sections| then None
    else if sections[from].name == Some(name) then Some(from)
    else FindSection(sections, name, from + 1)
  }

  /** The first key in [from, hi) with the given name. */
  function FindKey(keys: seq<Key>, name: string, from: nat, hi: nat): (r: Option<nat>)
    requires from <= hi <= |keys|
    ensures r.Some? ==> from <= r.value < hi && keys[r.value].name == name
    ensures r.Some? ==> forall i | from <= i < r.value :: keys[i].name != name
    ensures r.None? ==> forall i | from <= i < hi :: keys[i].name != name
    decreases hi - from
  {
    if from == hi then None
    else if keys[from].name == name then Some(from)
    else FindKey(keys, name, from + 1, hi)
  }

  /** The keys searched: the run of the first section so named, or all keys. */
  function KeyRange(ini: Ini, section: Option<string>): (r: (nat, nat))
    requires SectionsInBounds(ini)
    ensures r.0 + r.1 <= |ini.keys|
  {
    if section.None? then (0, |ini.keys|)
    else
      match FindSection(ini.sections, section.value, 0)
      case None => (0, |ini.keys|)
      case Some(j) => (ini.sections[j].keyOffset, ini.sections[j].count)
  }

  /** With no section, or a section name nobody has, every key is searched;
      otherwise the run of the first section so named. */
  lemma KeyRangeFirstSection(ini: Ini, section: Option<string>)
    requires SectionsInBounds(ini)
    ensures var r := KeyRange(ini, section);
      && (section.None? ==> r == (0, |ini.keys|))
      && (section.Some? && (forall j | 0 <= j < |ini.sections| :: ini.sections[j].name != section) ==>
            r == (0, |ini.keys|))
      && (section.Some? && (exists j | 0 <= j < |ini.sections| :: ini.sections[j].name == section) ==>
            exists j | 0 <= j < |ini.sections| ::
              && ini.sections[j].name == section
              && (forall j' | 0 <= j' < j :: ini.sections[j'].name != section)
              && r == (ini.sections[j].keyOffset, ini.sections[j].count))
  {
    if section.Some? {
      var found := FindSection(ini.sections, section.value, 0);
      if found.Some? {
        var j := found.value;
        assert ini.sections[j].name == section;
      }
    }
  }

  /** What a matching key reports. */
  function PropertyOf(ini: Ini, i: nat): Property
    requires i < |ini.keys|
  {
    Property(ini.keys[i].kind, ini.keys[i].count, Some(ini.keys[i].valueOffset))
  }

  /** The lookup as a first-match search over the key range. */
  function Lookup(ini: Ini, key: string, section: Option<string>): Property
    requires SectionsInBounds(ini)
  {
    var range := KeyRange(ini, section);
    match FindKey(ini.keys, key, range.0, range.0 + range.1)
    case None => NotFound
    case Some(i) => PropertyOf(ini, i)
  }

  /** A key is found exactly when one of that name lies in the searched range,
      and the result then describes the first such key. */
  lemma LookupFirstMatch(ini: Ini, key: string, section: Option<string>)
    requires SectionsInBounds(ini)
    ensures var (lo, n) := KeyRange(ini, section);
      var r := Lookup(ini, key, section);
      && (r.first.Some? <==> exists i | lo <= i < lo + n :: ini.keys[i].name == key)
      && (r.first.None? ==> r == NotFound)
      && (r.first.Some? ==> exists i | lo <= i < lo + n ::
            && ini.keys[i].name == key
            && (forall i' | lo <= i' < i :: ini.keys[i'].name != key)
            && r == PropertyOf(ini, i))
  {
    var (lo, n) := KeyRange(ini, section);
    var found := FindKey(ini.keys, key, lo, lo + n);
    if found.Some? {
      var i := found.value;
      assert ini.keys[i].name == key;
    }
  }

  /** The section loop of `getProperty`: the index of the first section with
      the given name, or the number of sections when there is none. */
  method ScanSections(sections: seq<Section>, name: string) returns (j: nat)
    ensures j <= |sections|
    ensures FindSection(sections, name, 0) == if j < |sections| then Some(j) else None
  {
    j := 0;
    while j < |sections| && sections[j].name != Some(name)
      invariant 0 <= j <= |sections|
      invariant FindSection(sections, name, j) == FindSection(sections, name, 0)
    {
      j := j + 1;
    }
  }

  /** The key loop of `getProperty`: the index of the first key in [lo, hi)
      with the given name, or `hi` when there is none. */
  method ScanKeys(keys: seq<Key>, name: string, lo: nat, hi: nat) returns (i: nat)
    requires lo <= hi <= |keys|
    ensures lo <= i <= hi
    ensures FindKey(keys, name, lo, hi) == if i < hi then Some(i) else None
  {
    i := lo;
    while i < hi && keys[i].name != name
      invariant lo <= i <= hi
      invariant FindKey(keys, name, i, hi) == FindKey(keys, name, lo, hi)
    {
      i := i + 1;
    }
  }

  /** `getProperty` with its two scans written as loops. */
  method GetProperty(ini: Ini, key: string, section: Option<string>) returns (r: Property)
    requires SectionsInBounds(ini)
    ensures r == Lookup(ini, key, section)
  {
    r := NotFound;
    var koff: nat := 0;
    var kcount: nat := |ini.keys|;
    if section.Some? {
      var j := ScanSections(ini.sections, section.value);
      if j < |ini.sections| {
        koff := ini.sections[j].keyOffset;
        kcount := ini.sections[j].count;
      }
    }
    assert (koff, kcount) == KeyRange(ini, section);
    var i := ScanKeys(ini.keys, key, koff, koff + kcount);
    if i < koff + kcount {
      r := Property(ini.keys[i].kind, ini.keys[i].count, Some(ini.keys[i].valueOffset));
      assert r == PropertyOf(ini, i);
    }
  }
}

=== FILE: ini_scan.dfy ===
/** The character classes and the scanning helpers of plr/IniFile.cpp.

    The input is the NUL-terminated buffer the parser walks with a `const char*`.
    Here it is a string `s` and a position into it; `Peek` reads the character
    there and yields NUL at and beyond the end, so a NUL inside `s` ends the
    text just as it does for the source. Every helper moves the position
    forward and counts the line ends it passes, as the source's helpers do
    through their `int* _line_` argument. */
module IniScan {

  /** The character under the cursor; NUL once past the end. */
  function Peek(s: string, i: nat): char {
    if i < |s| then s[i] else '\0'
  }

  /** `isspace` in the "C" locale. */
  predicate IsSpace(c: char) {
    c == ' ' || c == '\t' || c == '\n' || c == '\U{000B}' || c == '\U{000C}' || c == '\r'
  }

  /** `isdigit`. */
  predicate IsDigit(c: char) {
    '0' <= c <= '9'
  }

  /** `isalnum` in the "C" locale: ASCII letters and digits only. */
  predicate IsAlnum(c: char) {
    IsDigit(c) || ('a' <= c <= 'z') || ('A' <= c <= 'Z')
  }

  /** `IsLineEnd`: `strchr("\n", c) != 0`, which also holds for NUL because
      `strchr` finds the terminator. */
  predicate IsLineEnd(c: char) {
    c == '\n' || c == '\0'
  }

  /** The number of line ends in positions [i, j). */
  function LinesIn(s: string, i: nat, j: nat): nat
    decreases j - i
  {
    if i >= j then 0 else (if IsLineEnd(Peek(s, i)) then 1 else 0) + LinesIn(s, i + 1, j)
  }

  /** Line ends counted over two adjacent ranges add up. */
  lemma {:induction false} LinesInSplit(s: string, i: nat, j: nat, k: nat)
    requires i <= j <= k
    ensures LinesIn(s, i, k) == LinesIn(s, i, j) + LinesIn(s, j, k)
    decreases j - i
  {
    if i < j {
      LinesInSplit(s, i + 1, j, k);
    }
  }

  /** A range without a line end counts none. */
  lemma {:induction false} LinesInNone(s: string, i: nat, j: nat)
    requires i <= j <= |s|
    requires forall k | i <= k < j :: !IsLineEnd(s[k])
    ensures LinesIn(s, i, j) == 0
    decreases j - i
  {
    if i < j {
      LinesInNone(s, i + 1, j);
    }
  }

  /** Positions [i, j) hold no NUL. */
  predicate NoNul(s: string, i: nat, j: nat)
    requires i <= j <= |s|
  {
    forall k | i <= k < j :: s[k] != '\0'
  }

  /** Position e holds c, the first c from i on, with no NUL before it:
      where a search for c that starts at i stops having found it. */
  predicate FirstAt(s: string, i: nat, c: char, e: nat) {
    c != '\0' && i <= e < |s| && s[e] == c && forall k | i <= k < e :: s[k] != c && s[k] != '\0'
  }

  /** A character of a value token: not white space, a comma or NUL. */
  predicate IsTokenChar(c: char) {
    !IsSpace(c) && c != ',' && c != '\0'
  }

  /** The token that starts at i ends at e: the first character from i on
      that is white space, a comma or the terminating NUL. */
  predicate TokenEndsAt(s: string, i: nat, e: nat) {
    i <= e <= |s| && (forall k | i <= k < e :: IsTokenChar(s[k])) && !IsTokenChar(Peek(s, e))
  }

  /** The name that starts at i ends at e: the first character from i on
      that is not a letter or digit (the terminating NUL included). */
  predicate NameEndsAt(s: string, i: nat, e: nat) {
    i <= e <= |s| && (forall k | i <= k < e :: IsAlnum(s[k])) && !IsAlnum(Peek(s, e))
  }

  /** The scanning position and the line counter after a helper. */
  datatype Scan = Scan(pos: nat, line: int)

  /** A scan and the helper's returned bool: whether it stopped before the
      terminating NUL. */
  datatype Search = Search(at: Scan, found: bool)

  /** `SkipWhitespace`: past every white-space character, counting newlines. */
  function SkipWhitespace(s: string, i: nat, line: int): (r: Scan)
    requires i <= |s|
    ensures i <= r.pos <= |s|
    ensures forall k | i <= k < r.pos :: IsSpace(s[k])
    ensures !IsSpace(Peek(s, r.pos))
    ensures r.line == line + LinesIn(s, i, r.pos)
    decreases |s| - i
  {
    if IsSpace(Peek(s, i)) then
      SkipWhitespace(s, i + 1, line + (if IsLineEnd(Peek(s, i)) then 1 else 0))
    else Scan(i, line)
  }

  /** `AdvanceToNext`: up to the first `c`, or to the terminating NUL; the
      result says whether `c` was found. */
  function AdvanceToNext(s: string, i: nat, c: char, line: int): (r: Search)
    requires i <= |s|
    ensures i <= r.at.pos <= |s|
    ensures forall k | i <= k < r.at.pos :: s[k] != c && s[k] != '\0'
    ensures Peek(s, r.at.pos) == c || Peek(s, r.at.pos) == '\0'
    ensures r.found <==> Peek(s, r.at.pos) != '\0'
    ensures r.at.line == line + LinesIn(s, i, r.at.pos)
    ensures r.found ==> FirstAt(s, i, c, r.at.pos)
    ensures forall e | FirstAt(s, i, c, e) :: r.found && r.at.pos == e
    decreases |s| - i
  {
    var d := Peek(s, i);
    if d != '\0' && d != c then
      AdvanceToNext(s, i + 1, c, line + (if IsLineEnd(d) then 1 else 0))
    else Search(Scan(i, line), d != '\0')
  }

  /** `AdvanceToNextNonAlphanumeric`: past every alphanumeric character. */
  function AdvanceToNextNonAlphanumeric(s: string, i: nat, line: int): (r: Search)
    requires i <= |s|
    ensures i <= r.at.pos <= |s|
    ensures forall k | i <= k < r.at.pos :: IsAlnum(s[k])
    ensures !IsAlnum(Peek(s, r.at.pos))
    ensures r.found <==> Peek(s, r.at.pos) != '\0'
    ensures r.at.line == line + LinesIn(s, i, r.at.pos)
    ensures forall e | NameEndsAt(s, i, e) :: r.at.pos == e && r.at.line == line
    decreases |s| - i
  {
    var d := Peek(s, i);
    if d != '\0' && IsAlnum(d) then
      assert forall e | NameEndsAt(s, i, e) :: NameEndsAt(s, i + 1, e);
      AdvanceToNextNonAlphanumeric(s, i + 1, line + (if IsLineEnd(d) then 1 else 0))
    else Search(Scan(i, line), d != '\0')
  }

  /** `AdvanceToNextWhiteSpaceOrComma`: up to the first white space or comma. */
  function AdvanceToNextWhiteSpaceOrComma(s: string, i: nat, line: int): (r: Search)
    requires i <= |s|
    ensures i <= r.at.pos <= |s|
    ensures forall k | i <= k < r.at.pos :: !IsSpace(s[k]) && s[k] != ',' && s[k] != '\0'
    ensures var d := Peek(s, r.at.pos); IsSpace(d) || d == ',' || d == '\0'
    ensures r.found <==> Peek(s, r.at.pos) != '\0'
    ensures r.at.line == line + LinesIn(s, i, r.at.pos)
    ensures forall e | TokenEndsAt(s, i, e) :: r.at.pos == e && r.at.line == line
    decreases |s| - i
  {
    var d := Peek(s, i);
    if d != '\0' && !(IsSpace(d) || d == ',') then
      assert forall e | TokenEndsAt(s, i, e) :: TokenEndsAt(s, i + 1, e);
      AdvanceToNextWhiteSpaceOrComma(s, i + 1, line + (if IsLineEnd(d) then 1 else 0))
    else Search(Scan(i, line), d != '\0')
  }

  /** The first line end (newline or the terminating NUL) at or after i. */
  function LineEndFrom(s: string, i: nat): (e: nat)
    requires i <= |s|
    ensures i <= e <= |s|
    ensures forall k | i <= k < e :: !IsLineEnd(s[k])
    ensures IsLineEnd(Peek(s, e))
    decreases |s| - i
  {
    if !IsLineEnd(Peek(s, i)) then LineEndFrom(s, i + 1) else i
  }

  /** `SkipLine`: to the end of the line and past its newline, which counts as
      one line; at the terminating NUL nothing more is consumed. */
  function SkipLine(s: string, i: nat, line: int): (r: Scan)
    requires i <= |s|
    ensures i <= r.pos <= |s|
    ensures Peek(s, i) != '\0' ==> r.pos > i
    ensures r.line == line + 1 ==>
      r.pos > i && s[r.pos - 1] == '\n' && forall k | i <= k < r.pos - 1 :: !IsLineEnd(s[k])
    ensures r.line == line ==>
      Peek(s, r.pos) == '\0' && forall k | i <= k < r.pos :: !IsLineEnd(s[k])
    ensures r.line == line || r.line == line + 1
    ensures r.line == line + LinesIn(s, i, r.pos)
  {
    var e := LineEndFrom(s, i);
    LinesInNone(s, i, e);
    if Peek(s, e) != '\0' then
      LinesInSplit(s, i, e, e + 1);
      Scan(e + 1, line + 1)
    else Scan(e, line)
  }

  /** `ContainsAny(beg, end, chars)`: some character of [beg, end), read up
      to the first NUL, is one of `chars`. */
  function ContainsAny(s: string, beg: nat, end: nat, chars: string): (r: bool)
    requires beg <= end <= |s|
    ensures NoNul(s, beg, end) ==> (r <==> exists k | beg <= k < end :: s[k] in chars)
    ensures r ==> exists k | beg <= k < end :: s[k] in chars
    decreases end - beg
  {
    if beg == end || s[beg] == '\0' then false
    else if s[beg] in chars then true
    else ContainsAny(s, beg + 1, end, chars)
  }
}

=== FILE: json_access.dfy ===
/** The typed accessors of `Json` (src/all/apt/Json.cpp): the `getValue<T>`,
    `setValue<T>` and `pushValue<T>` specialisations, including the fixed-size
    vectors and matrices, which are written as nested arrays.

    The template parameter becomes the closed enumeration `Ty`, and the value
    of type T a `Datum`. Integer widths and signedness collapse to `int` and
    both float widths to `real` (narrowing is not modelled). */
module JsonAccess {
  import opened Wrappers
  import opened JsonValue
  import opened JsonCursor

  /** The types `getValue`, `setValue` and `pushValue` are specialised for. */
  datatype Ty = TBool | TInt | TReal | TStr | TVec(n: nat) | TMat(n: nat)

  /** A value of one of those types, as the calling code holds it. */
  datatype Datum =
    | DBool(b: bool)
    | DInt(i: int)
    | DReal(x: real)
    | DStr(s: string)
    | DVec(v: seq<real>)
    | DMat(m: seq<seq<real>>)

  /** vec2..vec4 and mat2..mat4 exist; no other sizes. */
  predicate SupportedSize(n: nat) {
    2 <= n <= 4
  }

  predicate HasType(d: Datum, ty: Ty) {
    match ty
    case TBool => d.DBool?
    case TInt => d.DInt?
    case TReal => d.DReal?
    case TStr => d.DStr?
    case TVec(n) => SupportedSize(n) && d.DVec? && |d.v| == n
    case TMat(n) => SupportedSize(n) && d.DMat? && |d.m| == n && forall k | 0 <= k < n :: |d.m[k]| == n
  }

  /** The C string a `const char*` denotes: everything before the first NUL.
      `SetString(const char*)`, `strlen` and `strcpy` all stop there. */
  function CStr(s: string): (r: string)
    ensures r <= s
    ensures forall k | 0 <= k < |r| :: r[k] != '\0'
    ensures |r| < |s| ==> s[|r|] == '\0'
  {
    if |s| == 0 || s[0] == '\0' then [] else [s[0]] + CStr(s[1..])
  }

  /** Reading back a C string gives the same C string. */
  lemma {:induction false} CStrIdempotent(s: string)
    ensures CStr(CStr(s)) == CStr(s)
  {
    if |s| > 0 && s[0] != '\0' {
      CStrIdempotent(s[1..]);
      assert CStr(s) == [s[0]] + CStr(s[1..]);
      assert CStr(s)[1..] == CStr(s[1..]);
    }
  }

  /** The number nodes `pushValue<float>` appends for the components `xs`. */
  function Numbers(xs: seq<real>): (r: seq<Value>)
    ensures |r| == |xs| && forall k | 0 <= k < |xs| :: r[k] == Number(RealNum(xs[k]))
  {
    if |xs| == 0 then [] else [Number(RealNum(xs[0]))] + Numbers(xs[1..])
  }

  /** The array nodes written for the rows `m`, one per row. */
  function Vectors(m: seq<seq<real>>): (r: seq<Value>)
    ensures |r| == |m| && forall k | 0 <= k < |m| :: r[k] == Array(Numbers(m[k]))
  {
    if |m| == 0 then [] else [Array(Numbers(m[0]))] + Vectors(m[1..])
  }

  /** The node a write of `d` leaves in the tree: scalars through `SetBool`,
      `SetInt`, `SetDouble`, `SetString`, ...; a vector as an array of
      floating numbers; a matrix as an array of such arrays, row by row. */
  function Encode(d: Datum): Value {
    match d
    case DBool(b) => Bool(b)
    case DInt(i) => Number(IntNum(i))
    case DReal(x) => Number(RealNum(x))
    case DStr(s) => Str(CStr(s))
    case DVec(xs) => Array(Numbers(xs))
    case DMat(m) => Array(Vectors(m))
  }

  function AsReal(n: Num): real {
    match n
    case IntNum(i) => i as real
    case RealNum(x) => x
  }

  predicate IsVector(v: Value, n: nat) {
    v.Array? && |v.elems| == n && forall k | 0 <= k < n :: v.elems[k].Number?
  }

  /** What the `getValue<T>` specialisations assert (or what rapidjson's
      `GetBool`, `GetInt`, `GetFloat`, `GetString` assert) of the node. */
  predicate Readable(v: Value, ty: Ty) {
    match ty
    case TBool => v.Bool?
    case TInt => v.Number? && v.n.IntNum?
    case TReal => v.Number?
    case TStr => v.Str?
    case TVec(n) => SupportedSize(n) && IsVector(v, n)
    case TMat(n) => SupportedSize(n) && v.Array? && |v.elems| == n && forall k | 0 <= k < n :: IsVector(v.elems[k], n)
  }

  function DecodeVector(v: Value, n: nat): (r: seq<real>)
    requires IsVector(v, n)
    ensures |r| == n && forall k | 0 <= k < n :: r[k] == AsReal(v.elems[k].n)
  {
    seq(n, k requires 0 <= k < n => AsReal(v.elems[k].n))
  }

  /** The datum a readable node holds when read as `ty`. */
  function Decode(v: Value, ty: Ty): (r: Datum)
    requires Readable(v, ty)
    ensures HasType(r, ty)
    ensures ty == TBool ==> r.b == v.b
    ensures ty == TInt ==> r.i == v.n.i
    ensures ty == TReal ==> r.x == AsReal(v.n)
    ensures ty == TStr ==> r.s == CStr(v.s)
    ensures ty.TVec? ==> forall k | 0 <= k < ty.n :: r.v[k] == AsReal(v.elems[k].n)
    ensures ty.TMat? ==> forall j, k | 0 <= j < ty.n && 0 <= k < ty.n :: r.m[j][k] == AsReal(v.elems[j].elems[k].n)
  {
    match ty
    case TBool => DBool(v.b)
    case TInt => DInt(v.n.i)
    case TReal => DReal(AsReal(v.n))
    case TStr => DStr(CStr(v.s))
    case TVec(n) => DVec(DecodeVector(v, n))
    case TMat(n) => DMat(seq(n, j requires 0 <= j < n => DecodeVector(v.elems[j], n)))
  }

  /** What a read of a written datum gives back: the datum itself, except that a
      string is cut at its first NUL. */
  function Canonical(d: Datum): Datum {
    if d.DStr? then DStr(CStr(d.s)) else d
  }

  /** Writing a datum and reading it back as its own type round-trips. */
  lemma DecodeEncode(d: Datum, ty: Ty)
    requires HasType(d, ty)
    ensures Readable(Encode(d), ty)
    ensures Decode(Encode(d), ty) == Canonical(d)
  {
    match ty
    case TStr => CStrIdempotent(d.s);
    case TVec(n) =>
      assert DecodeVector(Encode(d), n) == d.v;
    case TMat(n) =>
      var v := Encode(d);
      assert forall j | 0 <= j < n :: DecodeVector(v.elems[j], n) == d.m[j];
      assert Decode(v, ty).m == d.m;
    case _ =>
  }

  /** `Json::Impl::get(i)`'s bounds assertion: an index into an array current
      value must be in range. */
  predicate InBounds(c: Cursor, i: int)
    requires c.Valid() && c.cur.Some?
  {
    i >= 0 && Current(c).Array? ==> i < |Current(c).elems|
  }

  /** The pointer `Json::Impl::get(i)` returns: the current value, or its i-th
      element when an index is given and the current value is an array. */
  function TargetPath(c: Cursor, i: int): (p: Path)
    requires c.Valid() && c.cur.Some? && InBounds(c, i)
    ensures ValidPath(c.root, p)
    ensures c.cur.value <= p
    ensures At(c.root, p) == if i >= 0 && Current(c).Array? then Current(c).elems[i] else Current(c)
  {
    if i >= 0 && Current(c).Array? then
      ChildPath(c.root, c.cur.value, i);
      c.cur.value + [i]
    else c.cur.value
  }

  function TargetValue(c: Cursor, i: int): Value
    requires c.Valid() && c.cur.Some? && InBounds(c, i)
  {
    At(c.root, TargetPath(c, i))
  }

  /** The preconditions of `getValue<T>(i)`. */
  predicate CanGet(c: Cursor, ty: Ty, i: int)
    requires c.Valid()
  {
    c.cur.Some? && InBounds(c, i) && Readable(TargetValue(c, i), ty)
  }

  /** The rows `getValue<matN>` reads through `getValue<vecN>(k)` while the
      matrix node is current, from row k on. */
  function ReadRows(c: Cursor, n: nat, k: nat): (r: seq<seq<real>>)
    requires c.Valid() && c.cur.Some? && Readable(Current(c), TMat(n)) && k <= n
    ensures |r| == n - k
    ensures forall j | 0 <= j < n - k :: r[j] == DecodeVector(Current(c).elems[k + j], n)
    decreases n - k
  {
    if k == n then []
    else
      assert TargetValue(c, k) == Current(c).elems[k] by {
        ChildPath(c.root, c.cur.value, k);
      }
      [Decode(TargetValue(c, k), TVec(n)).v] + ReadRows(c, n, k + 1)
  }

  /** `push()` followed by pointing `m_value` at `p`, a node at or below the
      current value. */
  function Focus(c: Cursor, p: Path): (r: Cursor)
    requires c.Valid() && c.cur.Some? && ValidPath(c.root, p) && c.cur.value <= p
    ensures r.Valid() && r.root == c.root && r.cur == Some(p)
    ensures r.stack == c.stack + [Frame(c.cur.value, 0)]
  {
    var q := Push(c);
    assert forall i | 0 <= i < |q.stack| :: q.stack[i].path <= c.cur.value;
    q.(cur := Some(p))
  }

  /** `getValue<matN>(i)`: pushes a frame on the current value, points the
      current value at the matrix node, reads each row, then restores the
      current value from the top frame and pops it. The state comes back
      unchanged. */
  function GetMatrix(c: Cursor, n: nat, i: int): (r: (Datum, Cursor))
    requires c.Valid() && CanGet(c, TMat(n), i)
    ensures r.1 == c
    ensures r.0 == Decode(TargetValue(c, i), TMat(n))
  {
    var target := TargetPath(c, i);
    var pushed := Focus(c, target);
    var rows := ReadRows(pushed, n, 0);
    var popped := Cursor(pushed.root, pushed.stack[..|pushed.stack| - 1], Some(Top(pushed).path));
    assert pushed.stack[..|pushed.stack| - 1] == c.stack;
    assert rows == Decode(TargetValue(c, i), TMat(n)).m;
    (DMat(rows), popped)
  }

  /** `getValue<T>(i)`: the datum at the resolved node, with the state unchanged. */
  function GetValue(c: Cursor, ty: Ty, i: int): (r: Datum)
    requires c.Valid() && CanGet(c, ty, i)
    ensures HasType(r, ty)
    ensures r == Decode(TargetValue(c, i), ty)
  {
    if ty.TMat? then GetMatrix(c, ty.n, i).0 else Decode(TargetValue(c, i), ty)
  }

  /** `setValue<T>(name, v)` for a scalar T, on the node `x` that T's setter
      stores: overwrites the first member called `name` in place, or appends a
      new member when there is none. Either way that member becomes current. */
  function SetNode(c: Cursor, name: string, x: Value): (r: Cursor)
    requires c.Valid() && |c.stack| > 0 && TopValue(c).Object?
    ensures r.Valid() && r.stack == c.stack && r.cur.Some? && Current(r) == x
    ensures r.root == Update(c.root, Top(c).path, TopValue(r))
    ensures TopValue(r).Object?
    ensures HasMember(TopValue(c), name) ==>
      var k := FirstMember(TopValue(c).members, name).value;
      && TopValue(r).members == TopValue(c).members[k := Member(name, x)]
      && r.cur == Some(MemberPath(c, name))
      && r.root == Update(c.root, MemberPath(c, name), x)
    ensures !HasMember(TopValue(c), name) ==>
      && TopValue(r).members == TopValue(c).members + [Member(name, x)]
      && r.cur == Some(Top(c).path + [|TopValue(c).members|])
      && r.root == Update(c.root, Top(c).path, WithChild(TopValue(c), name, x))
  {
    if HasMember(TopValue(c), name) then
      var t := Top(c).path;
      var k := FirstMember(TopValue(c).members, name).value;
      var p := MemberPath(c, name);
      assert p == t + [k];
      var root := Update(c.root, p, x);
      UpdateKeepsFrames(c, p, x);
      AtUpdate(c.root, p, x);
      UpdateOnPrefix(c.root, p, x, t);
      UpdateCompose(c.root, t, [k], x);
      assert p[|t|..] == [k];
      assert [k][0] == k && [k][1..] == [];
      Cursor(root, c.stack, Some(p))
    else
      AddChild(c, name, x)
  }

  /** `setValue<T>(i, v)` for a scalar T: with an index and an array on top of
      the stack it overwrites element i of the CURRENT value (not of the top
      container); otherwise it overwrites the current value itself. */
  function SetNodeAt(c: Cursor, i: int, x: Value): (r: Cursor)
    requires c.Valid() && |c.stack| > 0 && c.cur.Some?
    requires i >= 0 && TopValue(c).Array? ==> Current(c).Array? && i < |Current(c).elems|
    ensures r.Valid() && r.stack == c.stack && r.cur == c.cur
    ensures r.root == Update(c.root, c.cur.value, Current(r))
    ensures i >= 0 && TopValue(c).Array? ==> Current(r) == Array(Current(c).elems[i := x])
    ensures !(i >= 0 && TopValue(c).Array?) ==> Current(r) == x
  {
    var q := c.cur.value;
    if i >= 0 && TopValue(c).Array? then
      ChildPath(c.root, q, i);
      var p := q + [i];
      UpdateKeepsFrames(c, p, x);
      UpdateOnPrefix(c.root, p, x, q);
      UpdateCompose(c.root, q, [i], x);
      assert p[|q|..] == [i] && [i][0] == i && [i][1..] == [];
      Cursor(Update(c.root, p, x), c.stack, c.cur)
    else
      UpdateKeepsFrames(c, q, x);
      AtUpdate(c.root, q, x);
      UpdateTwice(c.root, q, x, x);
      Cursor(Update(c.root, q, x), c.stack, c.cur)
  }

  /** `r` is `c` with the nodes `vs` appended to the array on top of the
      stack: the same frames, and no other node of the tree changed. */
  ghost predicate Appended(c: Cursor, vs: seq<Value>, r: Cursor)
    requires c.Valid() && |c.stack| > 0 && TopValue(c).Array?
  {
    && r.Valid() && r.stack == c.stack
    && TopValue(r) == Array(TopValue(c).elems + vs)
    && r.root == Update(c.root, Top(c).path, TopValue(r))
  }

  /** Two appends in a row are one append of both. */
  lemma AppendedTwice(c: Cursor, vs: seq<Value>, c1: Cursor, ws: seq<Value>, r: Cursor)
    requires c.Valid() && |c.stack| > 0 && TopValue(c).Array?
    requires Appended(c, vs, c1) && Appended(c1, ws, r)
    ensures Appended(c, vs + ws, r)
  {
    assert TopValue(c).elems + (vs + ws) == TopValue(c1).elems + ws;
    UpdateTwice(c.root, Top(c).path, TopValue(c1), TopValue(r));
  }

  /** `pushValue<T>(v)` for a scalar T, on the node `x` that T's setter stores:
      one node appended, and it is current. */
  function PushNode(c: Cursor, x: Value): (r: Cursor)
    requires c.Valid() && |c.stack| > 0 && TopValue(c).Array?
    ensures Appended(c, [x], r)
    ensures r.cur == Some(Top(c).path + [|TopValue(c).elems|]) && Current(r) == x
  {
    AddChild(c, "", x)
  }

  /** Successive pushes onto the array on top of the stack, each making the
      new element current. */
  function PushAll(c: Cursor, vs: seq<Value>): (r: Cursor)
    requires c.Valid() && |c.stack| > 0 && TopValue(c).Array?
    ensures Appended(c, vs, r)
    decreases |vs|
  {
    if |vs| == 0 then
      assert TopValue(c).elems + vs == TopValue(c).elems;
      UpdateSelf(c.root, Top(c).path);
      c
    else
      var c1 := PushNode(c, vs[0]);
      var r := PushAll(c1, vs[1..]);
      AppendedTwice(c, [vs[0]], c1, vs[1..], r);
      assert [vs[0]] + vs[1..] == vs;
      r
  }

  /** Writing a node over itself changes nothing. */
  lemma {:induction false} UpdateSelf(v: Value, p: Path)
    requires ValidPath(v, p)
    ensures Update(v, p, At(v, p)) == v
    decreases |p|
  {
    if |p| > 0 {
      UpdateSelf(Child(v, p[0]), p[1..]);
      if v.Array? {
        assert v.elems[p[0] := v.elems[p[0]]] == v.elems;
      } else {
        assert v.members[p[0] := Member(v.members[p[0]].name, v.members[p[0]].value)] == v.members;
      }
    }
  }

  /** The effect of `beginArray(name)`, pushes of `vs`, `leaveArray()`: the
      frame stack is the same afterwards and the array is current. A new array
      holds exactly the pushed nodes; an existing member array is re-entered
      and the nodes are appended after its old elements. */
  ghost predicate ArrayWritten(c: Cursor, name: Option<string>, vs: seq<Value>, r: Cursor)
    requires c.Valid() && |c.stack| > 0 && CanBegin(c, name, ArrayType)
  {
    && r.Valid() && r.stack == c.stack && r.cur.Some?
    && (!Existing(c, name) ==>
          && r.root == Update(c.root, Top(c).path, WithChild(TopValue(c), name.GetOr(""), Array(vs)))
          && r.cur == Some(Top(c).path + [Size(TopValue(c))]))
    && (Existing(c, name) ==>
          && r.root == Update(c.root, MemberPath(c, name.value), Array(MemberValue(TopValue(c), name.value).elems + vs))
          && r.cur == Some(MemberPath(c, name.value)))
  }

  /** Leaving an array that `beginArray` opened and pushes filled. */
  lemma LeaveAfterAppend(c: Cursor, name: Option<string>, vs: seq<Value>, p: Cursor)
    requires c.Valid() && |c.stack| > 0 && CanBegin(c, name, ArrayType)
    requires Appended(BeginArray(c, name), vs, p)
    ensures TypeOf(TopValue(p)) == ArrayType
    ensures ArrayWritten(c, name, vs, Leave(p, ArrayType))
  {
    var b := BeginArray(c, name);
    var r := Leave(p, ArrayType);
    assert b.stack[..|b.stack| - 1] == c.stack;
    if !Existing(c, name) {
      var t := Top(c).path;
      var n := Size(TopValue(c));
      var w0 := WithChild(TopValue(c), name.GetOr(""), Array([]));
      assert Top(b).path == t + [n];
      AtUpdate(c.root, t, w0);
      UpdateCompose(b.root, t, [n], TopValue(p));
      WithChildThenReplace(TopValue(c), name.GetOr(""), Array([]), TopValue(p));
      UpdateTwice(c.root, t, w0, WithChild(TopValue(c), name.GetOr(""), TopValue(p)));
      assert [] + vs == vs;
    }
  }

  /** `beginArray(name)`, one push per node, `leaveArray()`. */
  function WriteArray(c: Cursor, name: Option<string>, vs: seq<Value>): (r: Cursor)
    requires c.Valid() && |c.stack| > 0 && CanBegin(c, name, ArrayType)
    ensures ArrayWritten(c, name, vs, r)
  {
    var b := BeginArray(c, name);
    var p := PushAll(b, vs);
    LeaveAfterAppend(c, name, vs, p);
    Leave(p, ArrayType)
  }

  /** A nested array written without a name is one more element of the array
      on top of the stack. */
  lemma WriteWithoutName(c: Cursor, vs: seq<Value>, r: Cursor)
    requires c.Valid() && |c.stack| > 0 && TopValue(c).Array?
    requires ArrayWritten(c, None, vs, r)
    ensures Appended(c, [Array(vs)], r)
    ensures r.cur == Some(Top(c).path + [|TopValue(c).elems|])
  {
    assert !Existing(c, None);
    AtUpdate(c.root, Top(c).path, WithChild(TopValue(c), "", Array(vs)));
  }

  /** `setValue<vecN>(name, v)` (name given) and `pushValue<vecN>(v)` (no
      name): `beginArray(name)`, one `pushValue<float>` per component in
      x, y, z, w order, `leaveArray()`. */
  function WriteVector(c: Cursor, name: Option<string>, xs: seq<real>): (r: Cursor)
    requires c.Valid() && |c.stack| > 0 && CanBegin(c, name, ArrayType)
    ensures ArrayWritten(c, name, Numbers(xs), r)
  {
    WriteArray(c, name, Numbers(xs))
  }

  /** One `pushValue<vecN>` per matrix row, in row order. Each row ends up as
      one more element of the array on top of the stack. */
  function PushRows(c: Cursor, rows: seq<seq<real>>): (r: Cursor)
    requires c.Valid() && |c.stack| > 0 && TopValue(c).Array?
    ensures Appended(c, Vectors(rows), r)
    decreases |rows|
  {
    if |rows| == 0 then
      assert TopValue(c).elems + Vectors(rows) == TopValue(c).elems;
      UpdateSelf(c.root, Top(c).path);
      c
    else
      var c1 := WriteVector(c, None, rows[0]);
      WriteWithoutName(c, Numbers(rows[0]), c1);
      var r := PushRows(c1, rows[1..]);
      AppendedTwice(c, [Array(Numbers(rows[0]))], c1, Vectors(rows[1..]), r);
      r
  }

  /** `setValue<matN>(name, m)` and `pushValue<matN>(m)`: `beginArray(name)`,
      the rows, `leaveArray()`. The result is that of writing one array whose
      elements are the rows, each an array of its components. */
  function WriteMatrix(c: Cursor, name: Option<string>, rows: seq<seq<real>>): (r: Cursor)
    requires c.Valid() && |c.stack| > 0 && CanBegin(c, name, ArrayType)
    ensures ArrayWritten(c, name, Vectors(rows), r)
  {
    var b := BeginArray(c, name);
    var p := PushRows(b, rows);
    LeaveAfterAppend(c, name, Vectors(rows), p);
    Leave(p, ArrayType)
  }

  predicate IsScalar(d: Datum) {
    !d.DVec? && !d.DMat?
  }

  /** The preconditions of `setValue<T>(name, v)`: a scalar needs an object on
      top (for `AddMember`); a vector or matrix needs what `beginArray` asserts. */
  predicate CanSet(c: Cursor, name: string, d: Datum)
    requires c.Valid() && |c.stack| > 0
  {
    if IsScalar(d) then TopValue(c).Object? else CanBegin(c, Some(name), ArrayType)
  }

  /** `setValue<T>(name, v)` for every T. A missing member is appended with the
      encoded datum. An existing scalar member is overwritten in place; an
      existing array member gets a vector's components or a matrix's rows
      appended. Either way the member becomes current and the frame stack is
      unchanged. */
  function SetValue(c: Cursor, name: string, d: Datum): (r: Cursor)
    requires c.Valid() && |c.stack| > 0 && CanSet(c, name, d)
    ensures r.Valid() && r.stack == c.stack && r.cur.Some?
    ensures !Existing(c, Some(name)) ==>
      && r.root == Update(c.root, Top(c).path, WithChild(TopValue(c), name, Encode(d)))
      && r.cur == Some(Top(c).path + [Size(TopValue(c))])
    ensures Existing(c, Some(name)) && IsScalar(d) ==>
      && r.root == Update(c.root, MemberPath(c, name), Encode(d))
      && r.cur == Some(MemberPath(c, name))
    ensures Existing(c, Some(name)) && !IsScalar(d) ==>
      && r.root == Update(c.root, MemberPath(c, name), Array(MemberValue(TopValue(c), name).elems + Encode(d).elems))
      && r.cur == Some(MemberPath(c, name))
  {
    if d.DVec? then
      assert Encode(d) == Array(Numbers(d.v));
      WriteVector(c, Some(name), d.v)
    else if d.DMat? then
      assert Encode(d) == Array(Vectors(d.m));
      WriteMatrix(c, Some(name), d.m)
    else
      SetNode(c, name, Encode(d))
  }

  /** `pushValue<vecN>(v)`: the components become one new array element. */
  function PushVector(c: Cursor, xs: seq<real>): (r: Cursor)
    requires c.Valid() && |c.stack| > 0 && TopValue(c).Array?
    ensures Appended(c, [Array(Numbers(xs))], r)
    ensures r.cur == Some(Top(c).path + [|TopValue(c).elems|])
  {
    var r := WriteVector(c, None, xs);
    WriteWithoutName(c, Numbers(xs), r);
    r
  }

  /** `pushValue<matN>(m)`: the rows become one new array element, itself an
      array of row arrays. */
  function PushMatrix(c: Cursor, m: seq<seq<real>>): (r: Cursor)
    requires c.Valid() && |c.stack| > 0 && TopValue(c).Array?
    ensures Appended(c, [Array(Vectors(m))], r)
    ensures r.cur == Some(Top(c).path + [|TopValue(c).elems|])
  {
    var r := WriteMatrix(c, None, m);
    WriteWithoutName(c, Vectors(m), r);
    r
  }

  /** `pushValue<T>(v)` for every T: the encoded datum becomes the new last
      element of the array on top of the stack, and current. */
  function PushValue(c: Cursor, d: Datum): (r: Cursor)
    requires c.Valid() && |c.stack| > 0 && TopValue(c).Array?
    ensures Appended(c, [Encode(d)], r)
    ensures r.cur == Some(Top(c).path + [|TopValue(c).elems|])
  {
    if d.DVec? then
      assert Encode(d) == Array(Numbers(d.v));
      PushVector(c, d.v)
    else if d.DMat? then
      assert Encode(d) == Array(Vectors(d.m));
      PushMatrix(c, d.m)
    else
      PushNode(c, Encode(d))
  }

  /** `setValue<T>(i, v)` for a scalar T. */
  function SetValueAt(c: Cursor, i: int, d: Datum): (r: Cursor)
    requires c.Valid() && |c.stack| > 0 && c.cur.Some? && IsScalar(d)
    requires i >= 0 && TopValue(c).Array? ==> Current(c).Array? && i < |Current(c).elems|
    ensures r.Valid() && r.stack == c.stack && r.cur == c.cur
    ensures r.root == Update(c.root, c.cur.value, Current(r))
    ensures i >= 0 && TopValue(c).Array? ==> Current(r) == Array(Current(c).elems[i := Encode(d)])
    ensures !(i >= 0 && TopValue(c).Array?) ==> Current(r) == Encode(d)
  {
    SetNodeAt(c, i, Encode(d))
  }

  /** The node a named write leaves current is the encoded datum (for a vector
      or matrix: when the member did not exist before). */
  lemma SetValueCurrent(c: Cursor, name: string, d: Datum)
    requires c.Valid() && |c.stack| > 0 && CanSet(c, name, d)
    requires IsScalar(d) || !Existing(c, Some(name))
    ensures Current(SetValue(c, name, d)) == Encode(d)
  {
    var r := SetValue(c, name, d);
    var t := Top(c).path;
    if Existing(c, Some(name)) {
      AtUpdate(c.root, MemberPath(c, name), Encode(d));
    } else {
      var w := WithChild(TopValue(c), name, Encode(d));
      AtUpdate(c.root, t, w);
      ChildPath(r.root, t, Size(TopValue(c)));
    }
  }

  /** `getValue<T>()` right after `setValue<T>(name, v)` returns v (a string
      cut at its first NUL). */
  lemma SetThenGet(c: Cursor, name: string, d: Datum, ty: Ty)
    requires c.Valid() && |c.stack| > 0 && CanSet(c, name, d) && HasType(d, ty)
    requires IsScalar(d) || !Existing(c, Some(name))
    ensures CanGet(SetValue(c, name, d), ty, -1)
    ensures GetValue(SetValue(c, name, d), ty, -1) == Canonical(d)
  {
    var r := SetValue(c, name, d);
    SetValueCurrent(c, name, d);
    assert TargetValue(r, -1) == Encode(d);
    DecodeEncode(d, ty);
    assert CanGet(r, ty, -1);
  }

  /** Overwriting the first member of a name keeps it the first of that name. */
  lemma FirstMemberAfterReplace(ms: seq<Member>, name: string, k: nat, x: Value)
    requires FirstMember(ms, name) == Some(k)
    ensures FirstMember(ms[k := Member(name, x)], name) == Some(k)
  {
    var ms' := ms[k := Member(name, x)];
    assert ms'[k].name == name;
    var r := FirstMember(ms', name);
    assert r.Some?;
    assert forall j | 0 <= j < k :: ms'[j] == ms[j];
  }

  /** A member appended under a name no member has is the first of that name. */
  lemma FirstMemberAfterAppend(ms: seq<Member>, name: string, x: Value)
    requires FirstMember(ms, name).None?
    ensures FirstMember(ms + [Member(name, x)], name) == Some(|ms|)
  {
    var ms' := ms + [Member(name, x)];
    assert forall j | 0 <= j < |ms| :: ms'[j].name == ms[j].name;
    assert ms'[|ms|].name == name;
  }

  /** A cursor whose current value is the first member of a name in the top
      object is where `find(name)` would put it. */
  lemma FindLandsOnCurrent(c: Cursor, name: string, k: nat)
    requires c.Valid() && |c.stack| > 0 && TopValue(c).Object?
    requires FirstMember(TopValue(c).members, name) == Some(k)
    requires c.cur == Some(Top(c).path + [k])
    ensures Find(c, name).ok && Find(c, name).cursor == c
  {
    assert TopValue(c).members[k].name == name;
  }

  /** A later `find(name)` from the same container lands on the member the
      write produced: the write left it first among the members so named. */
  lemma SetThenFind(c: Cursor, name: string, d: Datum)
    requires c.Valid() && |c.stack| > 0 && CanSet(c, name, d)
    requires IsScalar(d) || !Existing(c, Some(name))
    requires TopValue(c).Object?
    ensures Find(SetValue(c, name, d), name).ok
    ensures Find(SetValue(c, name, d), name).cursor == SetValue(c, name, d)
  {
    if Existing(c, Some(name)) {
      SetThenFindExisting(c, name, d);
    } else {
      SetThenFindNew(c, name, d);
    }
  }

  /** `SetThenFind` when the member existed: it is overwritten in place. */
  lemma SetThenFindExisting(c: Cursor, name: string, d: Datum)
    requires c.Valid() && |c.stack| > 0 && TopValue(c).Object?
    requires IsScalar(d) && Existing(c, Some(name))
    ensures Find(SetValue(c, name, d), name).ok
    ensures Find(SetValue(c, name, d), name).cursor == SetValue(c, name, d)
  {
    var r := SetNode(c, name, Encode(d));
    assert SetValue(c, name, d) == r;
    var k := FirstMember(TopValue(c).members, name).value;
    FirstMemberAfterReplace(TopValue(c).members, name, k, Encode(d));
    assert Top(r) == Top(c);
    FindLandsOnCurrent(r, name, k);
  }

  /** `SetThenFind` when the member did not exist: it is appended. */
  lemma SetThenFindNew(c: Cursor, name: string, d: Datum)
    requires c.Valid() && |c.stack| > 0 && TopValue(c).Object? && CanSet(c, name, d)
    requires !Existing(c, Some(name))
    ensures Find(SetValue(c, name, d), name).ok
    ensures Find(SetValue(c, name, d), name).cursor == SetValue(c, name, d)
  {
    var r := SetValue(c, name, d);
    var t := Top(c).path;
    var top := TopValue(c);
    var w := WithChild(top, name, Encode(d));
    AtUpdate(c.root, t, w);
    assert Top(r) == Top(c);
    assert TopValue(r) == w;
    FirstMemberAfterAppend(top.members, name, Encode(d));
    FindLandsOnCurrent(r, name, |top.members|);
  }

  /** After a named write into an object, the member of that name, looked up
      from the same container, holds the encoded datum. */
  lemma SetThenMember(c: Cursor, name: string, d: Datum)
    requires c.Valid() && |c.stack| > 0 && CanSet(c, name, d)
    requires IsScalar(d) || !Existing(c, Some(name))
    requires TopValue(c).Object?
    ensures Top(SetValue(c, name, d)) == Top(c)
    ensures HasMember(TopValue(SetValue(c, name, d)), name)
    ensures MemberValue(TopValue(SetValue(c, name, d)), name) == Encode(d)
  {
    var r := SetValue(c, name, d);
    SetThenFind(c, name, d);
    SetValueCurrent(c, name, d);
    assert Find(r, name).ok;
  }

  /** Writing a vector under an existing member array appends its components
      after the old elements instead of replacing them. */
  lemma SetVectorAppends(c: Cursor, name: string, xs: seq<real>)
    requires c.Valid() && |c.stack| > 0 && CanSet(c, name, DVec(xs)) && Existing(c, Some(name))
    ensures var r := SetValue(c, name, DVec(xs));
      Current(r) == Array(MemberValue(TopValue(c), name).elems + Numbers(xs))
    ensures |Current(SetValue(c, name, DVec(xs))).elems| == |MemberValue(TopValue(c), name).elems| + |xs|
  {
    var v := Array(MemberValue(TopValue(c), name).elems + Numbers(xs));
    AtUpdate(c.root, MemberPath(c, name), v);
  }

  /** `getValue<T>()` right after `pushValue<T>(v)` returns v, and the
      container reads it back as its last element. */
  lemma PushThenGet(c: Cursor, d: Datum, ty: Ty)
    requires c.Valid() && |c.stack| > 0 && TopValue(c).Array? && HasType(d, ty)
    ensures CanGet(PushValue(c, d), ty, -1)
    ensures GetValue(PushValue(c, d), ty, -1) == Canonical(d)
    ensures TopValue(PushValue(c, d)).elems[|TopValue(c).elems|] == Encode(d)
  {
    var r := PushValue(c, d);
    var n := |TopValue(c).elems|;
    assert TopValue(r).elems[n] == Encode(d);
    ChildPath(r.root, Top(c).path, n);
    assert TargetValue(r, -1) == Encode(d);
    DecodeEncode(d, ty);
    assert CanGet(r, ty, -1);
  }

  /** `getValue<T>(i)` right after `setValue<T>(i, v)` inside an array returns v. */
  lemma SetAtThenGet(c: Cursor, i: int, d: Datum, ty: Ty)
    requires c.Valid() && |c.stack| > 0 && c.cur.Some? && IsScalar(d) && HasType(d, ty)
    requires i >= 0 && TopValue(c).Array? && Current(c).Array? && i < |Current(c).elems|
    ensures CanGet(SetValueAt(c, i, d), ty, i)
    ensures GetValue(SetValueAt(c, i, d), ty, i) == Canonical(d)
    ensures forall j | 0 <= j < |Current(c).elems| && j != i ::
      Current(SetValueAt(c, i, d)).elems[j] == Current(c).elems[j]
  {
    var r := SetValueAt(c, i, d);
    ChildPath(r.root, r.cur.value, i);
    assert TargetValue(r, i) == Encode(d);
    DecodeEncode(d, ty);
    assert CanGet(r, ty, i);
  }
}

=== FILE: json_cursor.dfy ===
/** The navigation half of `Json` (src/all/apt/Json.cpp): the frame stack
    `Json::Impl::m_stack`, the floating current value `Json::Impl::m_value`, and
    the operations that move them (`find`, `next`, `enterObject`, `enterArray`,
    `leaveObject`, `leaveArray`, `beginObject`, `beginArray`).

    Every operation is a pure function from one cursor state to the next. An
    `APT_ASSERT` the source places before undefined behaviour becomes a
    precondition; an `APT_ASSERT(false)` followed by an explicit `return false`
    is modelled by that return. */
module JsonCursor {
  import opened Wrappers
  import opened JsonValue

  /** One entry of `m_stack`: a container and the iteration index that `next`
      post-increments. */
  datatype Frame = Frame(path: Path, iter: nat)

  /** The state of a `Json` object: the document, the frame stack and the
      current value (`None` where the source's pointer is null or dangling). */
  datatype Cursor = Cursor(root: Value, stack: seq<Frame>, cur: Option<Path>) {

    /** The pointers are valid: every frame and the current value point into
        the tree, the frames form a chain from outer to inner containers, and
        the current value lies at or below the innermost frame. */
    ghost predicate Valid() {
      && (forall i | 0 <= i < |stack| :: ValidPath(root, stack[i].path))
      && (forall i, j | 0 <= i <= j < |stack| :: stack[i].path <= stack[j].path)
      && (cur.Some? ==> ValidPath(root, cur.value))
      && (cur.Some? && |stack| > 0 ==> stack[|stack| - 1].path <= cur.value)
    }
  }

  /** A navigation result: the returned bool and the state after the call. */
  datatype Nav = Nav(ok: bool, cursor: Cursor)

  /** `Json::Impl::top` together with `topIter`. */
  function Top(c: Cursor): Frame
    requires |c.stack| > 0
  {
    c.stack[|c.stack| - 1]
  }

  /** The container the top frame points at. */
  function TopValue(c: Cursor): Value
    requires c.Valid() && |c.stack| > 0
  {
    At(c.root, Top(c).path)
  }

  /** The node `m_value` points at. */
  function Current(c: Cursor): Value
    requires c.Valid() && c.cur.Some?
  {
    At(c.root, c.cur.value)
  }

  /** `Json::getType`. */
  function GetType(c: Cursor): ValueType
    requires c.Valid() && c.cur.Some?
  {
    TypeOf(Current(c))
  }

  /** The constructor without a path: an empty object root, one frame on it,
      and a null current value. */
  function Init(): (c: Cursor)
    ensures c.Valid() && |c.stack| == 1 && Top(c) == Frame([], 0)
    ensures TopValue(c) == Object([]) && c.cur.None?
  {
    Cursor(Object([]), [Frame([], 0)], None)
  }

  /** rapidjson's `FindMember`: the index of the first member called `name`,
      searching from index `i`. */
  function FirstMemberFrom(ms: seq<Member>, name: string, i: nat): (r: Option<nat>)
    requires i <= |ms|
    ensures r.Some? ==> i <= r.value < |ms| && ms[r.value].name == name
    ensures r.Some? ==> forall j | i <= j < r.value :: ms[j].name != name
    ensures r.None? <==> forall j | i <= j < |ms| :: ms[j].name != name
    decreases |ms| - i
  {
    if i == |ms| then None
    else if ms[i].name == name then Some(i)
    else FirstMemberFrom(ms, name, i + 1)
  }

  function FirstMember(ms: seq<Member>, name: string): Option<nat> {
    FirstMemberFrom(ms, name, 0)
  }

  predicate HasMember(v: Value, name: string) {
    v.Object? && FirstMember(v.members, name).Some?
  }

  /** The value of the first member called `name`. */
  function MemberValue(v: Value, name: string): Value
    requires HasMember(v, name)
  {
    v.members[FirstMember(v.members, name).value].value
  }

  /** The pointer `FindMember` yields for an existing member of the top object. */
  function MemberPath(c: Cursor, name: string): (p: Path)
    requires c.Valid() && |c.stack| > 0 && HasMember(TopValue(c), name)
    ensures ValidPath(c.root, p) && Top(c).path <= p
    ensures At(c.root, p) == MemberValue(TopValue(c), name)
  {
    var k := FirstMember(TopValue(c).members, name).value;
    ChildPath(c.root, Top(c).path, k);
    Top(c).path + [k]
  }

  /** Overwriting at or below the top frame keeps every frame a valid path. */
  lemma UpdateKeepsFrames(c: Cursor, p: Path, x: Value)
    requires c.Valid() && |c.stack| > 0 && ValidPath(c.root, p) && Top(c).path <= p
    ensures forall i | 0 <= i < |c.stack| :: ValidPath(Update(c.root, p, x), c.stack[i].path)
  {
    forall i | 0 <= i < |c.stack|
      ensures ValidPath(Update(c.root, p, x), c.stack[i].path)
    {
      assert c.stack[i].path <= Top(c).path;
      UpdateOnPrefix(c.root, p, x, c.stack[i].path);
    }
  }

  /** One step below a container is a valid path when the index is in range. */
  lemma ChildPath(v: Value, p: Path, k: nat)
    requires ValidPath(v, p) && IsContainer(At(v, p)) && k < Size(At(v, p))
    ensures ValidPath(v, p + [k]) && At(v, p + [k]) == Child(At(v, p), k)
  {
    assert [k][0] == k && [k][1..] == [];
    ValidPathConcat(v, p, [k]);
  }

  /** `Json::find`: looks `name` up among the members of the top container. */
  function Find(c: Cursor, name: string): (r: Nav)
    requires c.Valid() && |c.stack| > 0
    ensures r.cursor.Valid()
    ensures r.ok <==> TopValue(c).Object? && exists k | 0 <= k < |TopValue(c).members| :: TopValue(c).members[k].name == name
    ensures !r.ok ==> r.cursor == c
    ensures r.ok ==> r.cursor.root == c.root && r.cursor.stack == c.stack
    ensures r.ok ==> r.cursor.cur == Some(Top(c).path + [FirstMember(TopValue(c).members, name).value])
    ensures r.ok ==> Current(r.cursor) == MemberValue(TopValue(c), name)
  {
    var top := TopValue(c);
    if !top.Object? then Nav(false, c)
    else match FirstMember(top.members, name)
      case None => Nav(false, c)
      case Some(k) =>
        ChildPath(c.root, Top(c).path, k);
        Nav(true, c.(cur := Some(Top(c).path + [k])))
  }

  /** The effect of `topIter()++` and of the pointer arithmetic that follows:
      the top frame's index grows by one and the current value becomes the
      child at the old index, or nothing once the index is out of range. */
  function Advance(c: Cursor): (r: Cursor)
    requires c.Valid() && |c.stack| > 0 && IsContainer(TopValue(c))
    ensures r.Valid() && r.root == c.root
    ensures r.stack == c.stack[..|c.stack| - 1] + [Frame(Top(c).path, Top(c).iter + 1)]
    ensures Top(c).iter < Size(TopValue(c)) ==> r.cur == Some(Top(c).path + [Top(c).iter])
    ensures Top(c).iter < Size(TopValue(c)) ==> Current(r) == Child(TopValue(c), Top(c).iter)
    ensures Top(c).iter >= Size(TopValue(c)) ==> r.cur.None?
  {
    var f := Top(c);
    var stack := c.stack[..|c.stack| - 1] + [Frame(f.path, f.iter + 1)];
    assert forall i | 0 <= i < |stack| :: stack[i].path == c.stack[i].path;
    if f.iter < Size(TopValue(c)) then
      ChildPath(c.root, f.path, f.iter);
      Cursor(c.root, stack, Some(f.path + [f.iter]))
    else
      Cursor(c.root, stack, None)
  }

  /** `Json::next`, with the exhaustion test as the source intends it: the call
      succeeds exactly when the index before the call was inside the
      container. The index is incremented in every case. On a top frame that
      is neither an array nor an object the source asserts and returns false. */
  function Next(c: Cursor): (r: Nav)
    requires c.Valid() && |c.stack| > 0
    ensures r.cursor.Valid()
    ensures !IsContainer(TopValue(c)) ==> r == Nav(false, c)
    ensures IsContainer(TopValue(c)) ==> r.ok == (Top(c).iter < Size(TopValue(c)))
    ensures IsContainer(TopValue(c)) ==> r.cursor == Advance(c)
  {
    if !IsContainer(TopValue(c)) then Nav(false, c)
    else Nav(Top(c).iter < Size(TopValue(c)), Advance(c))
  }

  /** `Json::next` exactly as written: it compares the advanced iterator with
      `End()` by inequality, so once the index has passed the end it never
      meets `End()` again and the call reports success. */
  function NextAsWritten(c: Cursor): (r: Nav)
    requires c.Valid() && |c.stack| > 0
    ensures r.cursor.Valid()
    ensures !IsContainer(TopValue(c)) ==> r == Nav(false, c)
    ensures IsContainer(TopValue(c)) ==> r.ok == (Top(c).iter != Size(TopValue(c)))
    ensures IsContainer(TopValue(c)) ==> r.cursor == Advance(c)
  {
    if !IsContainer(TopValue(c)) then Nav(false, c)
    else Nav(Top(c).iter != Size(TopValue(c)), Advance(c))
  }

  /** `Json::Impl::push()`: a frame on the current value, iteration index 0. */
  function Push(c: Cursor): (r: Cursor)
    requires c.Valid() && c.cur.Some?
    ensures r.Valid() && r.root == c.root && r.cur == c.cur
    ensures r.stack == c.stack + [Frame(c.cur.value, 0)]
  {
    c.(stack := c.stack + [Frame(c.cur.value, 0)])
  }

  /** `Json::enterObject` (kind ObjectType) and `Json::enterArray` (kind
      ArrayType): push a frame on the current value when it has that kind. */
  function Enter(c: Cursor, kind: ValueType): (r: Nav)
    requires c.Valid() && c.cur.Some?
    requires kind == ObjectType || kind == ArrayType
    ensures r.cursor.Valid()
    ensures r.ok <==> GetType(c) == kind
    ensures r.ok ==> r.cursor.root == c.root && r.cursor.cur == c.cur
    ensures r.ok ==> r.cursor.stack == c.stack + [Frame(c.cur.value, 0)]
    ensures !r.ok ==> r.cursor == c
  {
    if GetType(c) == kind then Nav(true, Push(c))
    else Nav(false, c)
  }

  /** `Json::leaveObject` (kind ObjectType) and `Json::leaveArray` (kind
      ArrayType): pop the top frame and make its container current. */
  function Leave(c: Cursor, kind: ValueType): (r: Cursor)
    requires c.Valid() && |c.stack| > 0
    requires kind == ObjectType || kind == ArrayType
    requires TypeOf(TopValue(c)) == kind
    ensures r.Valid() && r.root == c.root
    ensures r.stack == c.stack[..|c.stack| - 1]
    ensures r.cur == Some(Top(c).path) && Current(r) == TopValue(c)
  {
    Cursor(c.root, c.stack[..|c.stack| - 1], Some(Top(c).path))
  }

  /** `Json::getArrayLength`: the element count of the top container, or -1
      when it is not an array. */
  function GetArrayLength(c: Cursor): (r: int)
    requires c.Valid() && |c.stack| > 0
    ensures r >= 0 <==> TopValue(c).Array?
    ensures TopValue(c).Array? ==> r == |TopValue(c).elems|
    ensures !TopValue(c).Array? ==> r == -1
  {
    if TopValue(c).Array? then |TopValue(c).elems| else -1
  }

  /** Appends `x` to the top container (`PushBack` on an array, `AddMember` on
      an object; an array ignores `name`) and makes the new child current, as
      every creating write in the source does. */
  function AddChild(c: Cursor, name: string, x: Value): (r: Cursor)
    requires c.Valid() && |c.stack| > 0 && IsContainer(TopValue(c))
    ensures r.Valid() && r.stack == c.stack
    ensures r.root == Update(c.root, Top(c).path, WithChild(TopValue(c), name, x))
    ensures TopValue(r) == WithChild(TopValue(c), name, x)
    ensures r.cur == Some(Top(c).path + [Size(TopValue(c))]) && Current(r) == x
  {
    var t := Top(c).path;
    var parent := WithChild(TopValue(c), name, x);
    var root := Update(c.root, t, parent);
    AtUpdate(c.root, t, parent);
    UpdateKeepsFrames(c, t, parent);
    ChildPath(root, t, Size(TopValue(c)));
    Cursor(root, c.stack, Some(t + [Size(TopValue(c))]))
  }

  /** A named begin finds an existing member of the top object. */
  predicate Existing(c: Cursor, name: Option<string>)
    requires c.Valid() && |c.stack| > 0
  {
    name.Some? && HasMember(TopValue(c), name.value)
  }

  /** What `beginObject`/`beginArray` assert: an existing member has the
      requested kind, and otherwise the top is an array (the name is then
      ignored) or an object and a name was given (`AddMember` needs both). */
  predicate CanBegin(c: Cursor, name: Option<string>, kind: ValueType)
    requires c.Valid() && |c.stack| > 0
  {
    if Existing(c, name) then TypeOf(MemberValue(TopValue(c), name.value)) == kind
    else TopValue(c).Array? || (TopValue(c).Object? && name.Some?)
  }

  /** `Json::beginObject`. An existing member is only made current: the source
      returns before entering it, so no frame is pushed. Otherwise an empty
      object is appended (as a member, or as an element when the top is an
      array) and entered. */
  function BeginObject(c: Cursor, name: Option<string>): (r: Cursor)
    requires c.Valid() && |c.stack| > 0 && CanBegin(c, name, ObjectType)
    ensures r.Valid()
    ensures Existing(c, name) ==> r.root == c.root && r.stack == c.stack
    ensures Existing(c, name) ==> r.cur.Some? && Current(r) == MemberValue(TopValue(c), name.value)
    ensures !Existing(c, name) ==> r.stack == c.stack + [Frame(Top(c).path + [Size(TopValue(c))], 0)]
    ensures !Existing(c, name) ==> r.root == Update(c.root, Top(c).path, WithChild(TopValue(c), name.GetOr(""), Object([])))
    ensures !Existing(c, name) ==> TopValue(r) == Object([]) && r.cur == Some(Top(r).path)
  {
    if Existing(c, name) then Find(c, name.value).cursor
    else Enter(AddChild(c, name.GetOr(""), Object([])), ObjectType).cursor
  }

  /** `Json::beginArray`. Unlike `beginObject`, an existing member is entered.
      Otherwise an empty array is appended and entered. Either way exactly one
      frame is pushed, on an array. */
  function BeginArray(c: Cursor, name: Option<string>): (r: Cursor)
    requires c.Valid() && |c.stack| > 0 && CanBegin(c, name, ArrayType)
    ensures r.Valid() && r.cur.Some?
    ensures r.stack == c.stack + [Frame(r.cur.value, 0)] && TopValue(r).Array?
    ensures Existing(c, name) ==> r.root == c.root
    ensures Existing(c, name) ==> r.cur == Some(Top(c).path + [FirstMember(TopValue(c).members, name.value).value])
    ensures !Existing(c, name) ==> r.cur == Some(Top(c).path + [Size(TopValue(c))])
    ensures !Existing(c, name) ==> r.root == Update(c.root, Top(c).path, WithChild(TopValue(c), name.GetOr(""), Array([])))
    ensures !Existing(c, name) ==> TopValue(r) == Array([])
  {
    if Existing(c, name) then EnterMember(c, name.value)
    else Enter(AddChild(c, name.GetOr(""), Array([])), ArrayType).cursor
  }

  /** The existing-member branch of `beginArray`: the member is found and
      entered, and nothing is written. */
  function EnterMember(c: Cursor, name: string): (r: Cursor)
    requires c.Valid() && |c.stack| > 0 && Existing(c, Some(name))
    requires TypeOf(MemberValue(TopValue(c), name)) == ArrayType
    ensures r.Valid() && r.root == c.root
    ensures r.cur == Some(Top(c).path + [FirstMember(TopValue(c).members, name).value])
    ensures r.stack == c.stack + [Frame(r.cur.value, 0)] && TopValue(r).Array?
  {
    Enter(Find(c, name).cursor, ArrayType).cursor
  }

  /** The results of `n` successive `next` calls, and the state after them. */
  function NextTimes(c: Cursor, n: nat): (r: (seq<bool>, Cursor))
    requires c.Valid() && |c.stack| > 0
    ensures |r.0| == n && r.1.Valid() && |r.1.stack| == |c.stack|
    decreases n
  {
    if n == 0 then ([], c)
    else
      var step := Next(c);
      var rest := NextTimes(step.cursor, n - 1);
      ([step.ok] + rest.0, rest.1)
  }

  /** One `next` on a container: the frame below is untouched, the top
      frame's index grows by one and it still points at the same container. */
  lemma NextOnContainer(c: Cursor)
    requires c.Valid() && |c.stack| > 0 && IsContainer(TopValue(c))
    ensures var c1 := Next(c).cursor;
      && |c1.stack| == |c.stack| && c1.root == c.root
      && c1.stack[..|c1.stack| - 1] == c.stack[..|c.stack| - 1]
      && Top(c1) == Frame(Top(c).path, Top(c).iter + 1)
      && TopValue(c1) == TopValue(c)
  {
    var c1 := Next(c).cursor;
    assert c1 == Advance(c);
    assert c1.stack == c.stack[..|c.stack| - 1] + [Frame(Top(c).path, Top(c).iter + 1)];
  }

  /** n calls of `next` on a container move its frame's index n places and
      change nothing else. */
  lemma {:induction false} NextTimesFrames(c: Cursor, n: nat)
    requires c.Valid() && |c.stack| > 0 && IsContainer(TopValue(c))
    ensures NextTimes(c, n).1.root == c.root
    ensures NextTimes(c, n).1.stack[..|c.stack| - 1] == c.stack[..|c.stack| - 1]
    ensures Top(NextTimes(c, n).1) == Frame(Top(c).path, Top(c).iter + n)
    decreases n
  {
    if n > 0 {
      var c1 := Next(c).cursor;
      NextOnContainer(c);
      NextTimesFrames(c1, n - 1);
      assert NextTimes(c, n).1 == NextTimes(c1, n - 1).1;
    }
  }

  /** Iterating a container: the j-th of n calls succeeds exactly when the
      frame's starting index plus j is inside the container. */
  lemma {:induction false} NextExhaustion(c: Cursor, n: nat)
    requires c.Valid() && |c.stack| > 0 && IsContainer(TopValue(c))
    ensures forall j | 0 <= j < n :: NextTimes(c, n).0[j] == (Top(c).iter + j < Size(TopValue(c)))
    decreases n
  {
    if n > 0 {
      var k := Top(c).iter;
      var size := Size(TopValue(c));
      var c1 := Next(c).cursor;
      NextOnContainer(c);
      NextExhaustion(c1, n - 1);
      var rest := NextTimes(c1, n - 1);
      assert forall j | 0 <= j < n - 1 :: rest.0[j] == (k + 1 + j < size);
      var bs := [Next(c).ok] + rest.0;
      assert NextTimes(c, n).0 == bs;
      forall j | 0 <= j < n
        ensures bs[j] == (k + j < size)
      {
        if j > 0 {
          assert bs[j] == rest.0[j - 1];
        }
      }
    }
  }

  /** A freshly entered array of three elements yields true three times, then false. */
  lemma NextOnArrayOfThree(c: Cursor)
    requires c.Valid() && |c.stack| > 0 && TopValue(c).Array? && |TopValue(c).elems| == 3
    requires Top(c).iter == 0
    ensures NextTimes(c, 4).0 == [true, true, true, false]
  {
    NextExhaustion(c, 4);
    var r := NextTimes(c, 4).0;
    assert |r| == 4;
    assert r[0] && r[1] && r[2] && !r[3];
  }

  /** The call after the exhausting one: as written it reports success again
      although there is no element to read; the intended test keeps failing. */
  lemma NextAsWrittenPastEnd(c: Cursor)
    requires c.Valid() && |c.stack| > 0 && IsContainer(TopValue(c))
    requires Top(c).iter == Size(TopValue(c))
    ensures !NextAsWritten(c).ok
    ensures NextAsWritten(NextAsWritten(c).cursor).ok
    ensures NextAsWritten(NextAsWritten(c).cursor).cursor.cur.None?
    ensures !Next(c).ok && !Next(Next(c).cursor).ok
  {
    var c1 := Advance(c);
    assert Top(c1).iter == Size(TopValue(c)) + 1;
    assert TopValue(c1) == TopValue(c);
  }

  /** Entering and then leaving a container of the same kind restores the
      whole state. */
  lemma EnterThenLeave(c: Cursor, kind: ValueType)
    requires c.Valid() && c.cur.Some? && (kind == ObjectType || kind == ArrayType)
    requires Enter(c, kind).ok
    ensures |Enter(c, kind).cursor.stack| == |c.stack| + 1
    ensures TypeOf(TopValue(Enter(c, kind).cursor)) == kind
    ensures Leave(Enter(c, kind).cursor, kind) == c
  {
    var e := Enter(c, kind).cursor;
    assert e.stack[..|e.stack| - 1] == c.stack;
  }

  /** Leaving a container and entering it again restores the stack, except
      that iteration over the re-entered container starts again at index 0. */
  lemma LeaveThenEnter(c: Cursor, kind: ValueType)
    requires c.Valid() && |c.stack| > 0 && (kind == ObjectType || kind == ArrayType)
    requires TypeOf(TopValue(c)) == kind
    ensures Enter(Leave(c, kind), kind).ok
    ensures Enter(Leave(c, kind), kind).cursor.stack == c.stack[..|c.stack| - 1] + [Frame(Top(c).path, 0)]
  {
  }

  /** `beginArray` followed by `leaveArray` restores the stack, whether the
      array existed or was created. */
  lemma BeginArrayThenLeave(c: Cursor, name: Option<string>)
    requires c.Valid() && |c.stack| > 0 && CanBegin(c, name, ArrayType)
    ensures Leave(BeginArray(c, name), ArrayType).stack == c.stack
  {
    var b := BeginArray(c, name);
    assert b.stack[..|b.stack| - 1] == c.stack;
  }

  /** `beginObject` followed by `leaveObject` restores the stack when the
      object is created, but on an existing member (which `beginObject` does
      not enter) the `leaveObject` pops the enclosing object's own frame. */
  lemma BeginObjectThenLeave(c: Cursor, name: Option<string>)
    requires c.Valid() && |c.stack| > 0 && CanBegin(c, name, ObjectType)
    ensures TopValue(BeginObject(c, name)).Object?
    ensures !Existing(c, name) ==> Leave(BeginObject(c, name), ObjectType).stack == c.stack
    ensures Existing(c, name) ==> Leave(BeginObject(c, name), ObjectType).stack == c.stack[..|c.stack| - 1]
  {
    var b := BeginObject(c, name);
    if !Existing(c, name) {
      assert b.stack[..|b.stack| - 1] == c.stack;
    }
  }
}

=== FILE: json_serializer.dfy ===
/** `JsonSerializer` (src/all/apt/Json.cpp): one set of calls that reads a
    `Json` document in Read mode and writes it in Write mode, so that a type's
    serialize function can be written once.

    Every call takes the serializer state and returns the state after it,
    together with what the source returns and, for the in/out parameters,
    their value afterwards. A `char*` buffer is an `Option<string>`: `None` is
    the null pointer. A `StringBase` is the string it holds. */
module JsonSerializer {
  import opened Wrappers
  import opened JsonValue
  import opened JsonCursor
  import opened JsonAccess

  datatype Mode = Read | Write

  datatype Serializer = Serializer(json: Cursor, mode: Mode)

  /** The returned bool and the state after the call. */
  datatype Step = Step(ok: bool, s: Serializer)

  /** The returned bool, the in/out value afterwards, and the state after the call. */
  datatype Transfer = Transfer(ok: bool, x: Datum, s: Serializer)

  /** The returned length, the buffer afterwards, and the state after the call. */
  datatype Copy = Copy(len: int, buf: Option<string>, s: Serializer)

  /** The states every call expects: valid pointers and a non-empty stack. */
  ghost predicate Ready(s: Serializer) {
    s.json.Valid() && |s.json.stack| > 0
  }

  /** `JsonSerializer::insideArray`: the top container is an array. */
  predicate InsideArray(s: Serializer)
    requires Ready(s)
  {
    TopValue(s.json).Array?
  }

  /** A state in which `next()` is defined (its fallback assertion is for a
      top that is neither kind of container). */
  predicate CanNext(s: Serializer)
    requires Ready(s)
  {
    IsContainer(TopValue(s.json))
  }

  /** The Read-mode move of `beginObject`/`beginArray` and of the array
      variants of `value`: `next()` inside an array, `find(name)` otherwise. */
  function Locate(s: Serializer, name: Option<string>): (r: Nav)
    requires Ready(s)
    requires !InsideArray(s) ==> name.Some?
    ensures r.cursor.Valid() && |r.cursor.stack| == |s.json.stack|
    ensures r.ok ==> r.cursor.cur.Some? && r.cursor.root == s.json.root
    ensures InsideArray(s) ==> r == Next(s.json)
    ensures !InsideArray(s) ==> r == Find(s.json, name.value)
  {
    if InsideArray(s) then Next(s.json) else Find(s.json, name.value)
  }

  /** The preconditions of `beginObject` (kind ObjectType) and `beginArray`
      (kind ArrayType): in Read mode a name outside arrays, in Write mode what
      `Json::beginObject`/`Json::beginArray` assert. */
  predicate CanBeginIn(s: Serializer, name: Option<string>, kind: ValueType)
    requires Ready(s)
  {
    match s.mode
    case Read => !InsideArray(s) ==> name.Some?
    case Write => CanBegin(s.json, name, kind)
  }

  /** `JsonSerializer::beginObject` (kind ObjectType) and
      `JsonSerializer::beginArray` (kind ArrayType). Read mode locates the
      child (by `next()` inside an array, by name otherwise) and enters it when
      it has the requested kind; Write mode creates or reuses it and reports
      success. */
  function Begin(s: Serializer, name: Option<string>, kind: ValueType): (r: Step)
    requires Ready(s) && (kind == ObjectType || kind == ArrayType)
    requires CanBeginIn(s, name, kind)
    ensures Ready(r.s) && r.s.mode == s.mode
    ensures s.mode == Write ==> r.ok
    ensures s.mode == Write ==>
      r.s.json == if kind == ObjectType then BeginObject(s.json, name) else BeginArray(s.json, name)
    ensures s.mode == Read ==>
      (r.ok <==> Locate(s, name).ok && GetType(Locate(s, name).cursor) == kind)
    ensures s.mode == Read && r.ok ==>
      && r.s.json.root == s.json.root && r.s.json.cur == Locate(s, name).cursor.cur
      && r.s.json.stack == Locate(s, name).cursor.stack + [Frame(Locate(s, name).cursor.cur.value, 0)]
      && TypeOf(TopValue(r.s.json)) == kind
    ensures s.mode == Read && !r.ok ==> r.s.json == Locate(s, name).cursor
  {
    match s.mode
    case Read =>
      var l := Locate(s, name);
      if !l.ok then Step(false, s.(json := l.cursor))
      else if GetType(l.cursor) == kind then
        var e := Enter(l.cursor, kind);
        Step(true, s.(json := e.cursor))
      else Step(false, s.(json := l.cursor))
    case Write =>
      if kind == ObjectType then Step(true, s.(json := BeginObject(s.json, name)))
      else Step(true, s.(json := BeginArray(s.json, name)))
  }

  /** `JsonSerializer::endObject` and `endArray`: `leaveObject`/`leaveArray`
      in Read mode, `endObject`/`endArray` in Write mode. Both pop the top
      frame and make its container current. */
  function End(s: Serializer, kind: ValueType): (r: Serializer)
    requires Ready(s) && (kind == ObjectType || kind == ArrayType)
    requires TypeOf(TopValue(s.json)) == kind
    ensures r.json.Valid() && r.mode == s.mode && r.json.root == s.json.root
    ensures r.json.stack == s.json.stack[..|s.json.stack| - 1]
    ensures r.json.cur == Some(Top(s.json).path)
  {
    s.(json := Leave(s.json, kind))
  }

  /** The preconditions of the named `value<T>(name, v)`: outside an array;
      in Read mode a member found by that name must read as T; in Write mode
      what `setValue<T>` needs. */
  predicate CanValueNamed(s: Serializer, name: string, x: Datum, ty: Ty)
    requires Ready(s)
  {
    && !InsideArray(s) && !x.DStr? && !ty.TStr?
    && match s.mode
       case Read =>
         var f := Find(s.json, name);
         f.ok ==> CanGet(f.cursor, ty, -1)
       case Write => HasType(x, ty) && CanSet(s.json, name, x)
  }

  /** The named `JsonSerializer::value<T>(name, v)` for the numeric, bool,
      vector and matrix types. Read mode copies the member into v when it
      exists and otherwise leaves v and the state alone; Write mode stores v
      and reports success. */
  function ValueNamed(s: Serializer, name: string, x: Datum, ty: Ty): (r: Transfer)
    requires Ready(s) && CanValueNamed(s, name, x, ty)
    ensures Ready(r.s) && r.s.mode == s.mode
    ensures s.mode == Write ==> r.ok && r.x == x && r.s.json == SetValue(s.json, name, x)
    ensures s.mode == Read ==> (r.ok <==> HasMember(TopValue(s.json), name))
    ensures s.mode == Read && r.ok ==>
      && HasType(r.x, ty)
      && r.x == Decode(MemberValue(TopValue(s.json), name), ty)
      && r.s.json == Find(s.json, name).cursor
    ensures s.mode == Read && !r.ok ==> r.x == x && r.s == s
  {
    match s.mode
    case Read =>
      var f := Find(s.json, name);
      if f.ok then Transfer(true, GetValue(f.cursor, ty, -1), s.(json := f.cursor))
      else Transfer(false, x, s)
    case Write =>
      Transfer(true, x, s.(json := SetValue(s.json, name, x)))
  }

  /** The preconditions of the array variant `value<T>(v)`: inside an array;
      in Read mode the element `next()` moves to must read as T. */
  predicate CanValueUnnamed(s: Serializer, x: Datum, ty: Ty)
    requires Ready(s)
  {
    && InsideArray(s) && !x.DStr? && !ty.TStr?
    && match s.mode
       case Read =>
         var n := Next(s.json);
         n.ok ==> CanGet(n.cursor, ty, -1)
       case Write => HasType(x, ty)
  }

  /** The array variant `JsonSerializer::value<T>(v)`. Read mode advances to
      the next element and copies it into v, or returns false (v untouched)
      when the array is exhausted; Write mode appends v and reports success. */
  function ValueUnnamed(s: Serializer, x: Datum, ty: Ty): (r: Transfer)
    requires Ready(s) && CanValueUnnamed(s, x, ty)
    ensures Ready(r.s) && r.s.mode == s.mode
    ensures s.mode == Write ==> r.ok && r.x == x && r.s.json == PushValue(s.json, x)
    ensures s.mode == Read ==> (r.ok <==> Top(s.json).iter < |TopValue(s.json).elems|)
    ensures s.mode == Read ==> r.s.json == Next(s.json).cursor
    ensures s.mode == Read && r.ok ==>
      && HasType(r.x, ty)
      && r.x == Decode(TopValue(s.json).elems[Top(s.json).iter], ty)
    ensures s.mode == Read && !r.ok ==> r.x == x
  {
    match s.mode
    case Read =>
      var n := Next(s.json);
      if !n.ok then Transfer(false, x, s.(json := n.cursor))
      else Transfer(true, GetValue(n.cursor, ty, -1), s.(json := n.cursor))
    case Write =>
      Transfer(true, x, s.(json := PushValue(s.json, x)))
  }

  /** The string a read returns: `strlen`/`strcpy` see the stored string up to
      its first NUL. */
  function StoredString(v: Value): string
    requires v.Str?
  {
    CStr(v.s)
  }

  /** The preconditions of `string(name, buf)`: outside an array; in Read mode a
      member found by that name is a string; in Write mode the buffer is
      non-null and `setValue<const char*>` needs an object on top. */
  predicate CanStringNamed(s: Serializer, name: string, buf: Option<string>)
    requires Ready(s)
  {
    && !InsideArray(s)
    && match s.mode
       case Read =>
         var f := Find(s.json, name);
         f.ok ==> Current(f.cursor).Str?
       case Write => buf.Some? && TopValue(s.json).Object?
  }

  /** `JsonSerializer::string(name, buf)`. Read mode returns the length of the
      member's string, copying it into the buffer when one is given, or 0 when
      there is no such member; Write mode stores the buffer's string and
      returns its length. */
  function StringNamed(s: Serializer, name: string, buf: Option<string>): (r: Copy)
    requires Ready(s) && CanStringNamed(s, name, buf)
    ensures Ready(r.s) && r.s.mode == s.mode && r.len >= 0
    ensures s.mode == Read && HasMember(TopValue(s.json), name) ==>
      var str := StoredString(MemberValue(TopValue(s.json), name));
      && r.len == |str|
      && r.buf == (if buf.Some? then Some(str) else None)
      && r.s.json == Find(s.json, name).cursor
    ensures s.mode == Read && !HasMember(TopValue(s.json), name) ==> r == Copy(0, buf, s)
    ensures s.mode == Write ==>
      && r.len == |CStr(buf.value)| && r.buf == buf
      && r.s.json == SetValue(s.json, name, DStr(buf.value))
  {
    match s.mode
    case Read =>
      var f := Find(s.json, name);
      if f.ok then
        var str := StoredString(Current(f.cursor));
        if buf.Some? then Copy(|str|, Some(str), s.(json := f.cursor))
        else Copy(|str|, None, s.(json := f.cursor))
      else Copy(0, buf, s)
    case Write =>
      Copy(|CStr(buf.value)|, buf, s.(json := SetValue(s.json, name, DStr(buf.value))))
  }

  /** The preconditions of the array variant `string(buf)`: inside an array; in
      Read mode the value a copy reads (the current one with a buffer, the next
      element without) is a string; in Write mode the buffer is non-null. */
  predicate CanStringUnnamed(s: Serializer, buf: Option<string>)
    requires Ready(s)
  {
    && InsideArray(s)
    && match s.mode
       case Read =>
         if buf.Some? then s.json.cur.Some? && Current(s.json).Str?
         else var n := Next(s.json); n.ok ==> Current(n.cursor).Str?
       case Write => buf.Some?
  }

  /** The array variant `JsonSerializer::string(buf)`. In Read mode the two
      uses differ: without a buffer it advances to the next element and
      returns its length (0 when exhausted); with a buffer it copies the
      CURRENT value without advancing, so a size probe followed by a copy
      reads one element. Write mode appends the buffer's string. */
  function StringUnnamed(s: Serializer, buf: Option<string>): (r: Copy)
    requires Ready(s) && CanStringUnnamed(s, buf)
    ensures Ready(r.s) && r.s.mode == s.mode && r.len >= 0
    ensures s.mode == Read && buf.Some? ==>
      var str := StoredString(Current(s.json));
      r == Copy(|str|, Some(str), s)
    ensures s.mode == Read && buf.None? ==>
      && r.s.json == Next(s.json).cursor && r.buf == None
      && (Next(s.json).ok ==> r.len == |StoredString(Current(Next(s.json).cursor))|)
      && (!Next(s.json).ok ==> r.len == 0)
    ensures s.mode == Write ==>
      && r.len == |CStr(buf.value)| && r.buf == buf
      && r.s.json == PushValue(s.json, DStr(buf.value))
  {
    match s.mode
    case Read =>
      if buf.Some? then
        var str := StoredString(Current(s.json));
        Copy(|str|, Some(str), s)
      else
        var n := Next(s.json);
        if !n.ok then Copy(0, None, s.(json := n.cursor))
        else Copy(|StoredString(Current(n.cursor))|, None, s.(json := n.cursor))
    case Write =>
      Copy(|CStr(buf.value)|, buf, s.(json := PushValue(s.json, DStr(buf.value))))
  }

  /** The named `value<StringBase>(name, v)`: in Read mode a size probe, then
      the copy into v; in Write mode the store. Either way the result is
      whether the string's length is non-zero. */
  function ValueStringNamed(s: Serializer, name: string, v: string): (r: (bool, string, Serializer))
    requires Ready(s) && CanStringNamed(s, name, Some(v))
    ensures Ready(r.2) && r.2.mode == s.mode
    ensures s.mode == Read && HasMember(TopValue(s.json), name) ==>
      var str := StoredString(MemberValue(TopValue(s.json), name));
      r.0 == (|str| != 0) && r.1 == str && r.2.json == Find(s.json, name).cursor
    ensures s.mode == Read && !HasMember(TopValue(s.json), name) ==> !r.0 && r.1 == v && r.2 == s
    ensures s.mode == Write ==>
      r.0 == (|CStr(v)| != 0) && r.1 == v && r.2.json == SetValue(s.json, name, DStr(v))
  {
    match s.mode
    case Read => ReadStringNamed(s, name, v)
    case Write =>
      var copy := StringNamed(s, name, Some(v));
      (copy.len != 0, copy.buf.value, copy.s)
  }

  /** The Read branch of the named string `value`: the size probe, then the
      copy. */
  function ReadStringNamed(s: Serializer, name: string, v: string): (r: (bool, string, Serializer))
    requires Ready(s) && s.mode == Read && CanStringNamed(s, name, Some(v))
    ensures Ready(r.2) && r.2.mode == Read
    ensures HasMember(TopValue(s.json), name) ==>
      var str := StoredString(MemberValue(TopValue(s.json), name));
      r.0 == (|str| != 0) && r.1 == str && r.2.json == Find(s.json, name).cursor
    ensures !HasMember(TopValue(s.json), name) ==> !r.0 && r.1 == v && r.2 == s
  {
    var probe := StringNamed(s, name, None);
    assert probe.s.json.root == s.json.root && probe.s.json.stack == s.json.stack;
    assert TopValue(probe.s.json) == TopValue(s.json);
    var copy := StringNamed(probe.s, name, Some(v));
    (copy.len != 0, copy.buf.value, copy.s)
  }

  /** The array variant `value<StringBase>(v)`: in Read mode a size probe that
      advances to the next element, returning false at once when that length
      is 0, then the copy of that element; in Write mode the append. */
  function ValueStringUnnamed(s: Serializer, v: string): (r: (bool, string, Serializer))
    requires Ready(s) && InsideArray(s) && (s.mode == Read ==> CanStringUnnamed(s, None))
    ensures Ready(r.2) && r.2.mode == s.mode
    ensures s.mode == Read ==> r.2.json == Next(s.json).cursor
    ensures s.mode == Read ==>
      (r.0 <==> Next(s.json).ok && |StoredString(Current(Next(s.json).cursor))| != 0)
    ensures s.mode == Read && r.0 ==> r.1 == StoredString(Current(Next(s.json).cursor))
    ensures s.mode == Read && !r.0 ==> r.1 == v
    ensures s.mode == Write ==>
      r.0 == (|CStr(v)| != 0) && r.1 == v && r.2.json == PushValue(s.json, DStr(v))
  {
    match s.mode
    case Read =>
      var probe := StringUnnamed(s, None);
      if probe.len == 0 then (false, v, probe.s)
      else
        var copy := StringUnnamed(probe.s, Some(v));
        (copy.len != 0, copy.buf.value, copy.s)
    case Write =>
      var copy := StringUnnamed(s, Some(v));
      (copy.len != 0, copy.buf.value, copy.s)
  }

  /** What a Write-mode `value(name, x)` stores, a Read-mode `value(name, y)`
      over the same container reads back, whatever y held before. */
  lemma WriteThenReadNamed(s: Serializer, name: string, x: Datum, ty: Ty, y: Datum)
    requires Ready(s) && s.mode == Write && CanValueNamed(s, name, x, ty)
    requires TopValue(s.json).Object? && !y.DStr?
    requires IsScalar(x) || !Existing(s.json, Some(name))
    ensures var reader := Serializer(ValueNamed(s, name, x, ty).s.json, Read);
      && Ready(reader) && CanValueNamed(reader, name, y, ty)
      && ValueNamed(reader, name, y, ty).ok
      && ValueNamed(reader, name, y, ty).x == x
  {
    var w := ValueNamed(s, name, x, ty);
    SetThenFind(s.json, name, x);
    SetThenGet(s.json, name, x, ty);
    var reader := Serializer(w.s.json, Read);
    assert Top(reader.json) == Top(s.json);
    assert TopValue(reader.json).Object?;
    assert !InsideArray(reader);
  }

  /** What a Write-mode array `value(x)` appends, a Read-mode `value(y)` whose
      iteration has reached that position reads back. */
  lemma WriteThenReadUnnamed(s: Serializer, x: Datum, ty: Ty, y: Datum)
    requires Ready(s) && s.mode == Write && CanValueUnnamed(s, x, ty) && !y.DStr?
    requires Top(s.json).iter == |TopValue(s.json).elems|
    ensures var reader := Serializer(ValueUnnamed(s, x, ty).s.json, Read);
      && Ready(reader) && CanValueUnnamed(reader, y, ty)
      && ValueUnnamed(reader, y, ty).ok
      && ValueUnnamed(reader, y, ty).x == x
  {
    var c := ValueUnnamed(s, x, ty).s.json;
    var n := |TopValue(s.json).elems|;
    assert Top(c) == Top(s.json);
    assert TopValue(c).elems[n] == Encode(x);
    var nc := Next(c).cursor;
    assert Next(c).ok;
    assert Current(nc) == Encode(x);
    assert TargetValue(nc, -1) == Encode(x);
    DecodeEncode(x, ty);
    assert CanGet(nc, ty, -1);
    var reader := Serializer(c, Read);
    assert ValueUnnamed(reader, y, ty) == Transfer(true, GetValue(nc, ty, -1), reader.(json := nc));
  }

  /** A string written under a name is read back as the same C string, and
      both sides report whether it is non-empty. */
  lemma WriteThenReadString(s: Serializer, name: string, v: string, w: string)
    requires Ready(s) && s.mode == Write && CanStringNamed(s, name, Some(v))
    ensures var reader := Serializer(ValueStringNamed(s, name, v).2.json, Read);
      && Ready(reader) && CanStringNamed(reader, name, Some(w))
      && ValueStringNamed(reader, name, w).0 == (|CStr(v)| != 0)
      && ValueStringNamed(reader, name, w).1 == CStr(v)
  {
    var c := SetValue(s.json, name, DStr(v));
    assert ValueStringNamed(s, name, v).2.json == c;
    SetThenMember(s.json, name, DStr(v));
    var reader := Serializer(c, Read);
    assert TopValue(c) == TopValue(reader.json) && TopValue(c).Object?;
    assert HasMember(TopValue(reader.json), name);
    var f := Find(c, name);
    assert Current(f.cursor) == Str(CStr(v));
    assert CanStringNamed(reader, name, Some(w));
    CStrIdempotent(v);
    assert StoredString(MemberValue(TopValue(c), name)) == CStr(v);
  }

  /** A string a Write-mode array `value(v)` appends is read back as the same
      C string by a Read-mode `value(w)` whose iteration has reached that
      position, and both sides report whether it is non-empty. */
  lemma WriteThenReadStringUnnamed(s: Serializer, v: string, w: string)
    requires Ready(s) && s.mode == Write && InsideArray(s)
    requires Top(s.json).iter == |TopValue(s.json).elems|
    ensures var reader := Serializer(ValueStringUnnamed(s, v).2.json, Read);
      && Ready(reader) && InsideArray(reader) && CanStringUnnamed(reader, None)
      && ValueStringUnnamed(reader, w).0 == (|CStr(v)| != 0)
      && (|CStr(v)| != 0 ==> ValueStringUnnamed(reader, w).1 == CStr(v))
  {
    var c := PushValue(s.json, DStr(v));
    assert ValueStringUnnamed(s, v).2.json == c;
    var n := |TopValue(s.json).elems|;
    assert Top(c) == Top(s.json);
    assert TopValue(c).elems[n] == Encode(DStr(v));
    var nc := Next(c).cursor;
    assert Next(c).ok;
    assert Current(nc) == Str(CStr(v));
    CStrIdempotent(v);
    assert StoredString(Current(nc)) == CStr(v);
  }

  /** In Read mode, a successful named `beginObject`/`beginArray` followed by
      the matching end returns to the parent container, with the child current. */
  lemma ReadBeginThenEnd(s: Serializer, name: string, kind: ValueType)
    requires Ready(s) && s.mode == Read && !InsideArray(s) && (kind == ObjectType || kind == ArrayType)
    requires Begin(s, Some(name), kind).ok
    ensures var b := Begin(s, Some(name), kind).s;
      && TypeOf(TopValue(b.json)) == kind
      && End(b, kind).json == Find(s.json, name).cursor
  {
    var f := Find(s.json, name);
    var b := Begin(s, Some(name), kind).s;
    assert b.json == Enter(f.cursor, kind).cursor;
    EnterThenLeave(f.cursor, kind);
  }

  /** In Write mode, `beginObject(name)` on an object member that already
      exists does not enter it, so the matching `endObject` pops the PARENT
      container's frame: the serializer ends up one level too high. */
  lemma WriteBeginExistingObjectThenEnd(s: Serializer, name: string)
    requires Ready(s) && s.mode == Write && CanBeginIn(s, Some(name), ObjectType)
    requires Existing(s.json, Some(name))
    ensures var b := Begin(s, Some(name), ObjectType).s;
      && TypeOf(TopValue(b.json)) == ObjectType
      && End(b, ObjectType).json.stack == s.json.stack[..|s.json.stack| - 1]
  {
    BeginObjectThenLeave(s.json, Some(name));
  }
}

=== FILE: json_value.dfy ===
/** The document tree that `Json::Impl::m_dom` holds, and paths into it.

    The source keeps raw `rapidjson::Value*` pointers into the tree, both in the
    cursor stack and in the "current value". Here a pointer is a `Path`: the
    sequence of child indices (array element index or object member index)
    leading from the root to the node. The tree itself is immutable; a write
    produces a new tree through `Update`. */
module JsonValue {

  /** `Json::ValueType`. `GetValueType` maps rapidjson's separate false/true
      tags onto the single BoolType; the other five tags map one to one. */
  datatype ValueType = NullType | BoolType | NumberType | StringType | ArrayType | ObjectType

  /** A number remembers whether it was stored as an integer (`SetInt`,
      `SetInt64`, `SetUint`, `SetUint64`) or as a floating value (`SetFloat`,
      `SetDouble`). */
  datatype Num = IntNum(i: int) | RealNum(r: real)

  datatype Value =
    | Null
    | Bool(b: bool)
    | Number(n: Num)
    | Str(s: string)
    | Array(elems: seq<Value>)
    | Object(members: seq<Member>)

  /** Object members keep their insertion order, as rapidjson's member array does. */
  datatype Member = Member(name: string, value: Value)

  type Path = seq<nat>

  function TypeOf(v: Value): ValueType {
    match v
    case Null => NullType
    case Bool(_) => BoolType
    case Number(_) => NumberType
    case Str(_) => StringType
    case Array(_) => ArrayType
    case Object(_) => ObjectType
  }

  predicate IsContainer(v: Value) {
    v.Array? || v.Object?
  }

  /** Number of elements of an array, or of members of an object. */
  function Size(v: Value): nat
    requires IsContainer(v)
  {
    if v.Array? then |v.elems| else |v.members|
  }

  /** The k-th element of an array, or the value of the k-th member of an object. */
  function Child(v: Value, k: nat): Value
    requires IsContainer(v) && k < Size(v)
  {
    if v.Array? then v.elems[k] else v.members[k].value
  }

  /** The pointer a path stands for exists in the tree. */
  predicate ValidPath(v: Value, p: Path)
    decreases |p|
  {
    |p| == 0 || (IsContainer(v) && p[0] < Size(v) && ValidPath(Child(v, p[0]), p[1..]))
  }

  /** The node a valid path points at. */
  function At(v: Value, p: Path): Value
    requires ValidPath(v, p)
    decreases |p|
  {
    if |p| == 0 then v else At(Child(v, p[0]), p[1..])
  }

  /** The container with its k-th child replaced; member names are kept. */
  function ReplaceChild(v: Value, k: nat, x: Value): (r: Value)
    requires IsContainer(v) && k < Size(v)
    ensures IsContainer(r) && TypeOf(r) == TypeOf(v) && Size(r) == Size(v)
    ensures Child(r, k) == x
    ensures forall j | 0 <= j < Size(v) && j != k :: Child(r, j) == Child(v, j)
  {
    if v.Array? then Array(v.elems[k := x])
    else Object(v.members[k := Member(v.members[k].name, x)])
  }

  /** The tree with the node at `p` overwritten by `x`: what `SetInt`,
      `SetString`, ... do through a pointer. */
  function Update(v: Value, p: Path, x: Value): Value
    requires ValidPath(v, p)
    decreases |p|
  {
    if |p| == 0 then x else ReplaceChild(v, p[0], Update(Child(v, p[0]), p[1..], x))
  }

  /** The container with `x` appended: `PushBack` on an array, `AddMember(name, x)`
      on an object. An array ignores the name. */
  function WithChild(v: Value, name: string, x: Value): (r: Value)
    requires IsContainer(v)
    ensures IsContainer(r) && TypeOf(r) == TypeOf(v) && Size(r) == Size(v) + 1
    ensures Child(r, Size(v)) == x
    ensures forall j | 0 <= j < Size(v) :: Child(r, j) == Child(v, j)
  {
    if v.Array? then Array(v.elems + [x]) else Object(v.members + [Member(name, x)])
  }

  /** A path into a subtree, prefixed by the path to that subtree, is a path
      into the whole tree, and the two lead to the same node. */
  lemma {:induction false} ValidPathConcat(v: Value, p: Path, q: Path)
    ensures ValidPath(v, p + q) <==> (ValidPath(v, p) && ValidPath(At(v, p), q))
    ensures ValidPath(v, p + q) ==> At(v, p + q) == At(At(v, p), q)
    decreases |p|
  {
    if |p| == 0 {
      assert p + q == q;
    } else {
      assert (p + q)[0] == p[0];
      assert (p + q)[1..] == p[1..] + q;
      if IsContainer(v) && p[0] < Size(v) {
        ValidPathConcat(Child(v, p[0]), p[1..], q);
      }
    }
  }

  /** Every prefix of a valid path is valid. */
  lemma PrefixValid(v: Value, p: Path, q: Path)
    requires ValidPath(v, p) && q <= p
    ensures ValidPath(v, q)
  {
    assert p == q + p[|q|..];
    ValidPathConcat(v, q, p[|q|..]);
  }

  /** After an overwrite at `p`, every prefix `q` of `p` is still a valid path,
      and the node it reaches is the old one with the overwrite applied below it. */
  lemma {:induction false} UpdateOnPrefix(v: Value, p: Path, x: Value, q: Path)
    requires ValidPath(v, p) && q <= p
    ensures ValidPath(v, q) && ValidPath(At(v, q), p[|q|..])
    ensures ValidPath(Update(v, p, x), q)
    ensures At(Update(v, p, x), q) == Update(At(v, q), p[|q|..], x)
    decreases |q|
  {
    assert p == q + p[|q|..];
    ValidPathConcat(v, q, p[|q|..]);
    if |q| > 0 {
      assert q[0] == p[0];
      assert q[1..] <= p[1..];
      assert p[1..][|q[1..]|..] == p[|q|..];
      UpdateOnPrefix(Child(v, p[0]), p[1..], x, q[1..]);
    }
  }

  /** The overwritten node is found where it was written. */
  lemma AtUpdate(v: Value, p: Path, x: Value)
    requires ValidPath(v, p)
    ensures ValidPath(Update(v, p, x), p) && At(Update(v, p, x), p) == x
  {
    UpdateOnPrefix(v, p, x, p);
    assert p[|p|..] == [];
  }

  /** A later overwrite at the same place hides an earlier one. */
  lemma {:induction false} UpdateTwice(v: Value, p: Path, x: Value, y: Value)
    requires ValidPath(v, p)
    ensures ValidPath(Update(v, p, x), p)
    ensures Update(Update(v, p, x), p, y) == Update(v, p, y)
    decreases |p|
  {
    AtUpdate(v, p, x);
    if |p| > 0 {
      UpdateTwice(Child(v, p[0]), p[1..], x, y);
      var w := Update(Child(v, p[0]), p[1..], x);
      var a := ReplaceChild(v, p[0], w);
      var lhs := ReplaceChild(a, p[0], Update(w, p[1..], y));
      var rhs := ReplaceChild(v, p[0], Update(Child(v, p[0]), p[1..], y));
      if v.Array? {
        assert lhs.elems == rhs.elems;
      } else {
        assert lhs.members == rhs.members;
      }
    }
  }

  /** An overwrite deep below `p` is an overwrite at `p` of the subtree there. */
  lemma UpdateCompose(v: Value, p: Path, q: Path, x: Value)
    requires ValidPath(v, p + q)
    ensures ValidPath(v, p) && ValidPath(At(v, p), q)
    ensures Update(v, p + q, x) == Update(v, p, Update(At(v, p), q, x))
  {
    ValidPathConcat(v, p, q);
    UpdateComposeRec(v, p, q, x);
  }

  lemma {:induction false} UpdateComposeRec(v: Value, p: Path, q: Path, x: Value)
    requires ValidPath(v, p) && ValidPath(At(v, p), q) && ValidPath(v, p + q)
    ensures Update(v, p + q, x) == Update(v, p, Update(At(v, p), q, x))
    decreases |p|
  {
    if |p| == 0 {
      assert p + q == q;
    } else {
      assert (p + q)[0] == p[0];
      assert (p + q)[1..] == p[1..] + q;
      ValidPathConcat(Child(v, p[0]), p[1..], q);
      UpdateComposeRec(Child(v, p[0]), p[1..], q, x);
    }
  }

  /** Overwriting the k-th child of a freshly appended container, where k is the
      appended position, is the same as appending the new child directly. */
  lemma WithChildThenReplace(v: Value, name: string, x: Value, y: Value)
    requires IsContainer(v)
    ensures ValidPath(WithChild(v, name, x), [Size(v)])
    ensures Update(WithChild(v, name, x), [Size(v)], y) == WithChild(v, name, y)
  {
    var w := WithChild(v, name, x);
    assert [Size(v)][0] == Size(v) && [Size(v)][1..] == [];
    assert Update(Child(w, Size(v)), [], y) == y;
    var lhs := Update(w, [Size(v)], y);
    assert lhs == ReplaceChild(w, Size(v), y);
    if v.Array? {
      assert lhs.elems == (v.elems + [y]);
    } else {
      assert lhs.members == v.members + [Member(name, y)];
    }
  }
}

=== FILE: wrappers.dfy ===
/** The optional-value datatype shared by both halves of the model: it stands in
    for a nullable pointer (`rapidjson::Value*`, `const char*`) or a search that
    may find nothing. */
module Wrappers {

  datatype Option<+T> = None | Some(value: T) {

    /** Returns the value inside `Some`, or `default` for `None`. */
    function GetOr(default: T): T {
      match this
      case Some(v) => v
      case None => default
    }
  }
}
